=== FILE: README.md ===
# IPython content storage and notebook-schema references, in Dafny

This project models the server-side content-storage layer of IPython's
HTML notebook (2013/2014 development line) and the `$ref` resolver of its
notebook-format validator, and proves properties of the model.

The storage layer turns API paths into OS paths and OS paths into nodes of
a storage tree. Its parts, and where they live:

- `Paths`: `get_os_path` of the notebook and contents managers, which is
  `os.path.join` of the content root and the non-empty segments of a path.
- `NbManager`: the notebook-manager base class. It covers the
  `named_notebook_path` split, the naming done by `create_notebook_model`
  and `copy_notebook`, and the default `list_checkpoints`.
- `ContentManager`: `list_contents`, `content_model`, `increment_filename`,
  `new_folder` and `delete_content`.
- `FileManager`: `get_os_path`, `is_hidden`, `get_summary` (including
  `posixpath.split`), `get_directory_contents`, `get_file_contents`,
  `get_contents`, `rename_file` and `create_file`.
- `FileTree`: the storage tree itself, a map from locations (the names
  from the root down) to directory and file nodes. It also models the OS
  calls the managers make: `os.mkdir`, `os.makedirs`, `shutil.rmtree`,
  `os.remove`, `os.rename` and writing a file. Each is a pure function
  from a tree to a new tree or an errno.
- `Base64`: `base64.encodestring` and `base64.decodestring`, which carry
  file contents in and out. Decoding is the character loop of
  `binascii.a2b_base64`, with its lenient treatment of pads.
- `Json` and `Validator`: JSON values, JSON Pointer evaluation (section 4
  of RFC 6901), `resolve_ref`, draft selection by `$schema`, `validate`
  and `isvalid`.
- `Strings` and `Results`: the pieces of Python's `str` the code relies
  on, and the Option/Result wrappers. A Python function that raises is
  modelled as one returning `Err`.

What the operations need from outside is passed in as parameters:

- The entries `os.listdir` returns, as a sequence of names.
- Timestamps and directory sizes (`Env`).
- `increment_filename` of a concrete notebook store, as a function.
- The new empty notebook, as a JSON value.
- The notebook read by `read_notebook_object`, as a JSON value.
- The jsonschema engine, as a function from draft, schema and document
  to an error list.

A request that needs a store's `save_notebook_model` or
`write_notebook_object` returns the call it would make (`SaveCall`,
`WriteCall`).

`resolve_ref` follows references with a fuel bound. `OutOfFuel` stands
for a resolution that never ends: `Validator.ResolveFuelMonotone` shows
that more fuel never changes an answer that did not run out.

Behaviour of the code worth noting:

- `increment_filename` skips only existing directories. A file with the
  candidate name does not block it (`ContentManager.IncrementFilenameSkipsOnlyDirs`).
- `list_contents` of the contents manager does not hide dot-names. Only
  the file manager's `get_directory_contents` does.
- The root check of `delete_content` compares OS path strings, and a file
  is handed to `shutil.rmtree`. Both are listed under Findings.
- Writing a file onto a directory fails with EISDIR rather than
  overwriting it.
- A lookup that meets a file before its last name fails with ENOTDIR,
  not ENOENT (`FileTree.BelowFileDeepest`). `content_model`,
  `get_summary` and the listings raise it, and `delete_content` answers
  it with 400, not 404.
- `os.rename` needs write permission only on the directories that lose
  or gain the entry, and on a directory that changes parent. Read-only
  directories inside a moved directory do not matter
  (`FileTree.RenameSkipsInnerPermissions`).
- `base64.decodestring` skips a pad early in a group and stops at a
  closing pad, so text after it is ignored (`Base64.ClosingPadEndsInput`).
- `rename_file` only checks that the destination's parent exists. A
  parent that is a file lets the call reach `os.rename`, whose ENOTDIR
  escapes as an OS error.
- There is no separate error for remote references. A pointer that does
  not start with '/' fails as a bad pointer.

## Model

| member | source | states |
|---|---|---|
| Paths.GetOsPath | IPython/html/services/contents/contentmanager.py:58-63 | with no non-empty segment and no name, the OS path is the content directory itself |
| Paths.GetOsPathShape | IPython/html/services/notebooks/nbmanager.py:96-101 | under a root without a trailing slash, the OS path is the root, a slash, and the non-empty segments followed by the name, joined by slashes |
| Paths.GetOsPathLocates | IPython/html/services/contents/contentmanager.py:58-63 | for a relative name and any spelling of the root (empty, plain or ending in a slash), the OS path starts with the root, and what follows designates exactly the non-empty segments of the path followed by the name's segments |
| Paths.GetOsPathSlashInsensitive | IPython/html/services/notebooks/nbmanager.py:96-97 | doubled, leading and trailing slashes in the API path leave the OS path unchanged |
| NbManager.NamedNotebookPath | IPython/html/services/notebooks/nbmanager.py:64-75 | the path starts and ends with '/'; a name is returned iff the last non-empty segment ends with ".ipynb", and then it is that segment and the path designates the segments before it; otherwise the path designates all segments |
| NbManager.DirPathSegments | IPython/html/services/notebooks/nbmanager.py:71-74 | `"/".join([''] + segs) + '/'` starts and ends with '/' and its non-empty segments are `segs` |
| NbManager.NamedNotebookPathSlashes | IPython/html/services/notebooks/nbmanager.py:64-65 | doubled, leading and trailing slashes do not change the split |
| NbManager.NamedNotebookPathIdempotent | IPython/html/services/notebooks/nbmanager.py:64-75 | splitting `path + name` gives back `(name, path)`, and splitting a returned directory path gives it back with no name |
| NbManager.NamedNotebookPathEmpty | IPython/html/services/notebooks/nbmanager.py:67-74 | the empty path names no notebook and stands for "/" |
| NbManager.CreateNotebookModel | IPython/html/services/notebooks/nbmanager.py:169-181 | the save call uses the name `increment_filename('Untitled', path)` and the given path; a given model is saved as is, otherwise a fresh model holding the new notebook, that name and the path |
| NbManager.FreshModel | IPython/html/services/notebooks/nbmanager.py:173-178 | the fresh model holds exactly the keys content, name and path, with the values assigned |
| NbManager.BaseCreateNotebookModel | IPython/html/services/notebooks/nbmanager.py:129-136 | with the base `increment_filename`, which returns its name unchanged, a new notebook is saved as "Untitled" |
| NbManager.SetEntryLookup | IPython/html/services/notebooks/nbmanager.py:188 | after the assignment the key holds the new value and every other key keeps its old one |
| NbManager.SetEntryKeys | IPython/html/services/notebooks/nbmanager.py:188 | assigning an existing key keeps the set of keys; a new key is added to it |
| NbManager.SetMetadataName | IPython/html/services/notebooks/nbmanager.py:188 | `nb.metadata.name = name` succeeds iff the notebook has a metadata dictionary; then only metadata's "name" changes and the notebook's keys stay the same |
| NbManager.CopyNotebook | IPython/html/services/notebooks/nbmanager.py:183-190 | the copy is named `increment_filename(name + '-Copy', path)`, carries that name in its metadata and is written to the same path |
| NbManager.BaseCopyNotebook | IPython/html/services/notebooks/nbmanager.py:186-189 | with the base `increment_filename` the copy of "a" is named "a-Copy" and keeps the notebook's keys |
| NbManager.ListCheckpoints | IPython/html/services/notebooks/nbmanager.py:201-203 | a store without checkpoints lists none |
| ContentManager.ContentModel | IPython/html/services/contents/contentmanager.py:101-120 | stating a missing node raises ENOTDIR iff a name on the way is a file and ENOENT otherwise; otherwise the model echoes the name, path and type it was given, with an empty MIME type and the node's stat size |
| ContentManager.ListModels | IPython/html/services/contents/contentmanager.py:86-99 | one model per listed name in listing order, or the stat error of a listed name that is missing; the type is dir iff the entry is a directory, and notebook iff it is not one and the name ends with ".ipynb" |
| ContentManager.ListContents | IPython/html/services/contents/contentmanager.py:65-69 | listing a missing path fails with ENOENT, and listing a file or a path below a file with ENOTDIR |
| ContentManager.ListContentsOfListing | IPython/html/services/contents/contentmanager.py:86-99 | for a directory and a faithful `os.listdir`, every model names a child and every child is named, with no hidden-name filtering |
| ContentManager.CandidatesDistinct | IPython/html/services/contents/contentmanager.py:163-164 | different indices give candidates at different locations |
| ContentManager.TriedBound | IPython/html/services/contents/contentmanager.py:161-168 | candidates that are all directories are no more than the nodes of the tree, so the search stops |
| ContentManager.LeastFreeIndex | IPython/html/services/contents/contentmanager.py:161-168 | the chosen index is not a directory and every smaller one is |
| ContentManager.IncrementFilename | IPython/html/services/contents/contentmanager.py:161-169 | the name is `basename` followed by a decimal index, and its location is not a directory |
| ContentManager.IncrementFilenameLeast | IPython/html/services/contents/contentmanager.py:161-169 | if candidates 0..n-1 are directories and candidate n is not, the name is `basename + str(n)` |
| ContentManager.IncrementFilenameSkipsOnlyDirs | IPython/html/services/contents/contentmanager.py:165-166 | a file with candidate name 0 does not block it: the name is chosen although something exists at that location |
| ContentManager.NewFolder | IPython/html/services/contents/contentmanager.py:139-152 | a given name is returned, otherwise the allocated "new_folder" name; on success the folder is a directory; on failure the tree is unchanged and the status is 409, 403 or 400 |
| ContentManager.NewFolderOutcome | IPython/html/services/contents/contentmanager.py:143-151 | 409 iff the location exists; 403 iff the deepest existing ancestor is a read-only directory; 400 iff it is a file; success keeps the tree well formed |
| ContentManager.NewFolderUnnamed | IPython/html/services/contents/contentmanager.py:139-140 | without a name, the folder is `new_folderN` for the least N whose candidate is not a directory |
| ContentManager.DeleteContentAsWritten | IPython/html/services/contents/contentmanager.py:171-185 | an OS path equal to the content directory gives 403 and removes nothing; 404 iff the path differs and the node is missing with no file on the way; success removes the whole subtree; failures leave the tree unchanged |
| ContentManager.DeleteRootBypass | IPython/html/services/contents/contentmanager.py:175-176 | the name "" under the root passes the string check and removes the whole content directory, while no name gives 403 |
| ContentManager.DeleteFileRejected | IPython/html/services/contents/contentmanager.py:177-183 | deleting a file ends in 400 and leaves the tree as it was |
| ContentManager.DeleteContent | IPython/html/services/contents/contentmanager.py:171-185 | corrected deletion: 403 iff the location is the root; 404 iff it is another missing location with no file on the way; a missing location below a file gives 400; success removes exactly the subtree; failures change nothing |
| ContentManager.DeleteContentValid | IPython/html/services/contents/contentmanager.py:171-185 | corrected deletion keeps the tree well formed and removes a file whose directory is writable |
| FileManager.FmOsPathIsGetOsPath | IPython/html/services/contents/filemanager.py:37-41 | stripping outer slashes first gives the same OS path as the contents manager's `get_os_path` without a name |
| FileManager.Visible | IPython/html/services/contents/filemanager.py:43-54 | the names kept are exactly the listed names not starting with '.' |
| FileManager.VisibleConcat | IPython/html/services/contents/filemanager.py:52-55 | filtering keeps listing order: it commutes with concatenation |
| FileManager.PosixSplitSegments | IPython/html/services/contents/filemanager.py:78 | for a path with segments and no trailing slash, `posixpath.split` gives the last segment as tail and a head whose stripped segments are the others |
| FileManager.GetSummary | IPython/html/services/contents/filemanager.py:68-87 | a missing node raises ENOTDIR iff a name on the way is a file and ENOENT otherwise; the type is dir iff the node is a directory, notebook iff it is a file whose OS path ends with ".ipynb"; the size is 0 for a directory and the file's length otherwise; the timestamps are the node's |
| FileManager.SummaryNotebook | IPython/html/services/contents/filemanager.py:71-77 | under a root without a trailing slash, a file is a notebook iff its last segment ends with ".ipynb" |
| FileManager.FmOsPathLast | IPython/html/services/contents/filemanager.py:74 | the OS path ends with ".ipynb" iff the last segment does |
| FileManager.SummaryNames | IPython/html/services/contents/filemanager.py:78-82 | the summary's name is the last segment and its path designates the segments before it |
| FileManager.Summaries | IPython/html/services/contents/filemanager.py:52-55 | a summary of `path/name` for each name in order, or the error of the summary of one of the names |
| FileManager.GetDirectoryContents | IPython/html/services/contents/filemanager.py:48-56 | a missing directory raises ENOENT, and a file or a path below one ENOTDIR; otherwise one summary per visible name |
| FileManager.ChildSummary | IPython/html/services/contents/filemanager.py:55 | `'/'.join((path, name))` designates the child, and its summary is named after it |
| FileManager.DirectoryContentsOfListing | IPython/html/services/contents/filemanager.py:48-56 | for a directory and a faithful listing, one summary per visible child in listing order, named after it, and no visible child is left out |
| FileManager.GetFileContents | IPython/html/services/contents/filemanager.py:58-66 | succeeds iff the node is a file; the model has encoding "base64", content that decodes to the file's bytes, and the file's summary |
| FileManager.GetContents | IPython/html/services/contents/filemanager.py:89-98 | 404 iff nothing is at the stripped path; a directory gives its listing; a file gives a base64 model that decodes to its bytes |
| FileManager.RenameFile | IPython/html/services/contents/filemanager.py:100-115 | 404 iff the source is missing; 400 iff the source exists and the destination's parent is missing or the destination exists; EACCES iff the directories `rename(2)` writes to (both parents, and a directory that changes parent) are not all writable; failures change nothing; success is `os.rename` and returns the destination's summary with the source's modification time |
| FileManager.RenameFileEffect | IPython/html/services/contents/filemanager.py:106-115 | a successful rename re-roots the source subtree at the destination, changes nothing else and keeps the tree well formed |
| FileManager.MakeParents | IPython/html/services/contents/filemanager.py:120-125 | the walk keeps every existing node and on success leaves every visited location in place |
| FileManager.MakeParentsReady | IPython/html/services/contents/filemanager.py:120-125 | a walk that finds every directory in place changes nothing |
| FileManager.MakeParentsValid | IPython/html/services/contents/filemanager.py:120-125 | the walk keeps the tree well formed, even when a `mkdir` stops it early |
| FileManager.Store | IPython/html/services/contents/filemanager.py:127-131 | a payload that is not base64 fails before anything is written; on success the file holds the decoded bytes in a directory and the answer is its summary |
| FileManager.StoreIdempotent | IPython/html/services/contents/filemanager.py:127-131 | storing the same file again changes nothing |
| FileManager.CreateFile | IPython/html/services/contents/filemanager.py:117-131 | on success the file holds the decoded payload inside a directory and the answer is its summary; BadPayload iff the directory walk succeeded and the payload does not decode |
| FileManager.CreateFileReadBack | IPython/html/services/contents/filemanager.py:117-131 | reading a created file back gives base64 content that decodes to the payload's bytes |
| FileManager.CreateFileIdempotent | IPython/html/services/contents/filemanager.py:117-131 | creating the same file twice gives the tree and answer of the first time |
| FileManager.CreateFileValid | IPython/html/services/contents/filemanager.py:117-131 | `create_file` keeps the tree well formed, whether it succeeds or stops part-way |
| FileTree.Mkdir | IPython/html/services/contents/filemanager.py:124-125 | `os.mkdir` succeeds iff the location is missing and its parent is a writable directory, and then adds only a fresh directory; EEXIST iff the location exists |
| FileTree.MkdirValid | IPython/html/services/contents/filemanager.py:125 | `os.mkdir` of a proper location keeps the tree well formed |
| FileTree.DeepestExisting | IPython/html/services/contents/contentmanager.py:144 | the deepest existing ancestor is a prefix of the target and nothing below it on the way is present |
| FileTree.MakedirsEffect | IPython/html/services/contents/contentmanager.py:144 | a successful `os.makedirs` makes every prefix of the target a directory, keeps the old nodes and adds only fresh directories on the way; EEXIST iff the target exists |
| FileTree.MakedirsSucceeds | IPython/html/services/contents/contentmanager.py:143-144 | `os.makedirs` succeeds iff the target is missing and its deepest existing ancestor is a writable directory |
| FileTree.MakedirsError | IPython/html/services/contents/contentmanager.py:145-151 | a failure on a missing target is EACCES at a read-only directory or ENOTDIR at a file |
| FileTree.MakedirsValid | IPython/html/services/contents/contentmanager.py:144 | `os.makedirs` keeps the tree well formed |
| FileTree.Rmtree | IPython/html/services/contents/contentmanager.py:178 | `shutil.rmtree` fails with ENOENT iff the target is missing with no file on the way, and with ENOTDIR iff it is a file or lies below one; success removes exactly the subtree of a directory |
| FileTree.BelowFileDeepest | IPython/html/services/contents/filemanager.py:70 | in a well-formed tree, a missing location gives ENOTDIR exactly when its deepest existing prefix is a file |
| FileTree.RemoveSubtreeValid | IPython/html/services/contents/contentmanager.py:178 | removing anything but the root keeps the tree well formed |
| FileTree.Rename | IPython/html/services/contents/filemanager.py:114 | for a missing destination (all `rename_file` passes it), `os.rename` succeeds only when the source exists and the destination lies in a directory and not below the source, and then moves the subtree; EACCES iff those hold but a directory losing or gaining the entry, or a directory changing parent, is read-only |
| FileTree.RenameSkipsInnerPermissions | IPython/html/services/contents/filemanager.py:114 | a writable directory in a writable directory moves even when a directory inside it is read-only |
| FileTree.RenameEffect | IPython/html/services/contents/filemanager.py:114 | after `os.rename` the source subtree sits under the destination and every other node is unchanged |
| FileTree.RenameValid | IPython/html/services/contents/filemanager.py:114 | `os.rename` keeps the tree well formed |
| FileTree.WriteFile | IPython/html/services/contents/filemanager.py:129-130 | writing fails with EISDIR iff the location is a directory; success puts exactly the bytes there and changes nothing else |
| FileTree.WriteFileAgain | IPython/html/services/contents/filemanager.py:129-130 | writing the same bytes again changes nothing |
| FileTree.WriteFileValid | IPython/html/services/contents/filemanager.py:129-130 | writing a file keeps the tree well formed |
| Base64.EncodeLinesRoundTrip | IPython/html/services/contents/filemanager.py:63 | `decodestring(encodestring(data)) == data` |
| Base64.DecodeEncode | IPython/html/services/contents/filemanager.py:128 | decoding the encoding of whole groups puts out their bytes and continues with what follows; a padded last group puts out its bytes and ends the input |
| Base64.EncodeLength | IPython/html/services/contents/filemanager.py:63 | n bytes encode into 4 * ceil(n / 3) characters |
| Base64.EncodeLinesLineLength | IPython/html/services/contents/filemanager.py:63 | the encoded text is made of complete lines of at most 76 characters |
| Base64.GroupRoundTrip | IPython/html/services/contents/filemanager.py:128 | at a group boundary, four characters put out their three bytes and leave the decoder at the next boundary |
| Base64.TailOneRoundTrip | IPython/html/services/contents/filemanager.py:128 | two characters and two pads put out one byte and end the input, whatever follows |
| Base64.TailTwoRoundTrip | IPython/html/services/contents/filemanager.py:128 | three characters and a pad put out two bytes and end the input, whatever follows |
| Base64.DecodeIgnoresNonCode | IPython/html/services/contents/filemanager.py:128 | characters outside the alphabet and "=" (line breaks, spaces, any stray character) do not change what `decodestring` returns |
| Base64.DecodeWithoutPads | IPython/html/services/contents/filemanager.py:128 | without any "=", decoding fails, with "Incorrect padding", exactly when the alphabet characters do not fill whole groups of four |
| Base64.LeadingPadSkipped | IPython/html/services/contents/filemanager.py:128 | "=YWJj" decodes to "abc": a pad at the start of a group is skipped |
| Base64.ClosingPadEndsInput | IPython/html/services/contents/filemanager.py:128 | "YQ==YQ==" decodes to "a": the closing pad ends the input |
| Base64.TrailingPadSkipped | IPython/html/services/contents/filemanager.py:128 | "YWJj=" decodes to "abc": a pad after a complete group is skipped |
| Json.Lookup | IPython/nbformat/validator.py:43 | a dictionary lookup finds a value iff the key is present, and the value is that key's |
| Json.EscapeRoundTrip | IPython/nbformat/validator.py:93 | unescaping a reference token undoes escaping it |
| Json.PointerRoundTrip | IPython/nbformat/validator.py:93 | every token list, written as a pointer, parses back to itself |
| Json.SingleTokenPointer | IPython/nbformat/validator.py:52 | "/name" for a plain member name parses to the single token name |
| Validator.RootOf | IPython/nbformat/validator.py:72-73 | without a schema, or with a falsy one, pointers are followed in the input itself; otherwise in the schema given |
| Validator.Resolve | IPython/nbformat/validator.py:61-103 | scalars are returned unchanged, a list keeps its length, an object that is not a reference keeps its keys in order, and `$ref` next to another key is an error |
| Validator.ResolveArray | IPython/nbformat/validator.py:76-79 | a list resolves iff every element does, and then element by element |
| Validator.ResolveItemsElementwise | IPython/nbformat/validator.py:77-79 | the list loop succeeds iff each remaining element resolves, and then holds each one's resolution at its place |
| Validator.ResolveObject | IPython/nbformat/validator.py:83-97 | an object that is not a reference resolves iff it has no "$ref" key and every value resolves, and then keeps each key with its value resolved |
| Validator.ResolveEntriesEntrywise | IPython/nbformat/validator.py:85-97 | the dictionary loop succeeds iff no remaining key is "$ref" and every remaining value resolves, and then holds each key with its value resolved |
| Validator.ResolveFollowsReference | IPython/nbformat/validator.py:89-94 | `{"$ref": p}` is replaced by the resolution of p's target in the root |
| Validator.ExampleReference | IPython/nbformat/validator.py:89-94 | in `{"a": {"$ref": "/b"}, "b": {"type": "string"}}` the reference resolves to `{"type": "string"}` |
| Validator.ExampleMixedReference | IPython/nbformat/validator.py:89-92 | `{"$ref": "/x", "extra": 1}` is a schema error |
| Validator.CyclicReferenceDiverges | IPython/nbformat/validator.py:93-94 | a reference to itself runs out of every amount of fuel, so `resolve_ref` does not terminate on it |
| Validator.ResolveFuelMonotone | IPython/nbformat/validator.py:61-103 | more fuel never changes an answer that did not run out of fuel |
| Validator.ResolveRefFree | IPython/nbformat/validator.py:99-101 | a document without "$ref" keys resolves to itself |
| Validator.ResolvedRefFree | IPython/nbformat/validator.py:86-97 | a successful resolution contains no "$ref" key anywhere |
| Validator.ResolveIdempotent | IPython/nbformat/validator.py:61-103 | a second resolution of a resolved document is the identity, whatever its root and fuel |
| Validator.SelectDraft | IPython/nbformat/validator.py:43-49 | the draft-04 URI selects draft 4, the draft-03 URI draft 3, and any other `$schema` value is an unsupported version |
| Validator.Validate | IPython/nbformat/validator.py:43-58 | a bad `$schema` fails first; otherwise validation succeeds iff the schema resolves and has a "/notebook" member, and then returns the engine's errors for that member |
| Validator.ValidateDispatch | IPython/nbformat/validator.py:43-52 | for a schema with a resolvable "/notebook" member, each URI picks its engine and any other URI fails before the engine runs |
| Validator.IsValid | IPython/nbformat/validator.py:16-27 | `isvalid` is true exactly when `validate` returns no error, and fails when `validate` does |

## Left out

- Loading the schema file and the process-wide `_schema_json` cache: the schema document is a parameter of `Validator.Validate`.
- The jsonschema engine (`Draft4Validator`/`Draft3Validator` and `iter_errors`) is an uninterpreted function parameter. No property of the error list beyond its emptiness is stated.
- JSON Pointer follows section 4 of RFC 6901 strictly; quirks of the jsonpointer library (such as its handling of a non-string pointer) are not modelled beyond the `NonStringRef` error.
- Validator.Resolve: a `$ref` cycle is cut off by the fuel bound; `OutOfFuel` stands for the Python recursion that never ends (or ends in a recursion-depth error).
- `os.listdir` order and contents, `os.stat` timestamps and directory sizes are inputs, not computed; `tz.utcfromtimestamp` and `ctime()` formatting are left out and timestamps are opaque integers.
- Paths.Locate: an absolute name (one starting with '/') makes `os.path.join` drop the root. `Paths.GetOsPath` computes that string, but the lemmas tying it to a tree location require a relative name. "." and ".." segments are not resolved.
- FileTree.Makedirs: the model is atomic. A real `os.makedirs` that fails part-way keeps the directories it made; the model returns the original tree on failure.
- FileTree.Rmtree: a real `shutil.rmtree` that hits a permission error part-way leaves a partly deleted subtree; the model refuses the whole removal up front with EACCES.
- FileTree.WriteFile: file permissions on overwrite are not modelled; only a new file needs a writable directory.
- Base64.Decode: Python's ASCII encode of the payload before decoding, and the UnicodeEncodeError it raises on non-ASCII text, are left out; the decoder skips such characters as `a2b_base64` skips bytes above 0x7f.
- FileTree.Mkdir and FileTree.WriteFile answer ENOENT for a missing parent even below a file, where the system says ENOTDIR. The managers never reach that case: `os.makedirs` and the `create_file` walk create or check every parent first.
- `url_encode` and `url_decode` wrap urllib `quote`/`unquote`, which are not modelled.
- `_notebook_dir_changed` (absolute-path handling and `os.mkdir` of the notebook directory) is configuration handling with I/O, not modelled.
- `read_notebook_object`, `write_notebook_object` and `save_notebook_model` belong to concrete stores: the first is the `nb` parameter of `NbManager.CopyNotebook`, the others are returned as call records.
- `current.new_notebook` and `current.new_metadata` are the `blank` parameter of `NbManager.CreateNotebookModel`.
- The `NotImplementedError` stubs of the notebook manager (`list_notebooks`, `get_notebook_model`, `save_notebook_model`, `update_notebook_model`, `delete_notebook_model` and the checkpoint operations other than `list_checkpoints`) have no behaviour to model.
- Concurrency: every operation is atomic over the tree; races between an existence check and the call that follows are out of scope.
- Logging calls in `rename_file` have no effect on the result and are left out.
- Json: numbers are integers. JSON floats, including the falsy `0.0` that `if not schema` tests, are not represented.
- NbManager.FreshModel and NbManager.SetEntryKeys: the entry list keeps assignment order, while a Python 2 dict iterates in hash order; only the key sets and values correspond to the source.
- FileTree.Rename: an existing destination gives EEXIST, where rename(2) replaces a file or an empty directory and renaming a path onto itself does nothing; `rename_file` rejects an existing destination with 400 before the call (IPython/html/services/contents/filemanager.py:111-112), so the managers never reach that case.

## Findings

| source | as written | input that shows it | evidently intended | confidence | as-written member | corrected member |
|---|---|---|---|---|---|---|
| IPython/html/services/contents/contentmanager.py:175-176 | the root is recognised by comparing the joined OS path string with `content_dir` | name "" with content path "/" and a content directory written without a trailing slash: the joined path is the directory plus "/", the comparison fails and `shutil.rmtree` removes the whole content directory | the root is never deleted, as the 403 message says | not executed | ContentManager.DeleteRootBypass | ContentManager.DeleteContent |
| IPython/html/services/contents/contentmanager.py:177-178 | every target is handed to `shutil.rmtree` | deleting an existing file: `rmtree` cannot list it, raises ENOTDIR, the request fails with 400 and the file stays | a file is removed, as the docstring "Delete a file or folder" says | not executed | ContentManager.DeleteFileRejected | ContentManager.DeleteContentValid |

=== FILE: base64.dfy ===
/** The transfer encoding of file payloads: `base64.encodestring` (the
    base64 alphabet of section 6.8 of RFC 2045, with a line break after every
    57 input bytes, so no line exceeds 76 characters) and
    `base64.decodestring`. */
module Base64 {
  import opened Results
  import opened Strings

  newtype byte = x: int | 0 <= x < 256

  datatype DecodeError = IncorrectPadding

  predicate IsAlphabetChar(c: char) {
    ('A' <= c <= 'Z') || ('a' <= c <= 'z') || ('0' <= c <= '9') || c == '+' || c == '/'
  }

  function AlphabetChar(i: nat): (c: char)
    requires i < 64
    ensures IsAlphabetChar(c)
  {
    if i < 26 then (('A' as int) + i) as char
    else if i < 52 then (('a' as int) + (i - 26)) as char
    else if i < 62 then (('0' as int) + (i - 52)) as char
    else if i == 62 then '+'
    else '/'
  }

  function CharValue(c: char): (v: nat)
    requires IsAlphabetChar(c)
    ensures v < 64
  {
    if 'A' <= c <= 'Z' then (c as int) - ('A' as int)
    else if 'a' <= c <= 'z' then (c as int) - ('a' as int) + 26
    else if '0' <= c <= '9' then (c as int) - ('0' as int) + 52
    else if c == '+' then 62
    else 63
  }

  lemma CharValueOfAlphabetChar(i: nat)
    requires i < 64
    ensures CharValue(AlphabetChar(i)) == i
  {
  }

  predicate IsCodeChar(c: char) {
    IsAlphabetChar(c) || c == '='
  }

  /** Three bytes as four characters, six bits each. */
  function Group(a: byte, b: byte, c: byte): (r: string)
    ensures |r| == 4 && forall i :: 0 <= i < 4 ==> IsAlphabetChar(r[i])
  {
    var x, y, z := a as int, b as int, c as int;
    [AlphabetChar(x / 4), AlphabetChar((x % 4) * 16 + y / 16),
     AlphabetChar((y % 16) * 4 + z / 64), AlphabetChar(z % 64)]
  }

  /** A last group of one byte: two characters and two pads. */
  function TailOne(a: byte): (r: string)
    ensures |r| == 4 && IsAlphabetChar(r[0]) && IsAlphabetChar(r[1]) && r[2] == '=' && r[3] == '='
  {
    var x := a as int;
    [AlphabetChar(x / 4), AlphabetChar((x % 4) * 16), '=', '=']
  }

  /** A last group of two bytes: three characters and one pad. */
  function TailTwo(a: byte, b: byte): (r: string)
    ensures |r| == 4 && IsAlphabetChar(r[0]) && IsAlphabetChar(r[1]) && IsAlphabetChar(r[2]) && r[3] == '='
  {
    var x, y := a as int, b as int;
    [AlphabetChar(x / 4), AlphabetChar((x % 4) * 16 + y / 16), AlphabetChar((y % 16) * 4), '=']
  }

  /** `binascii.b2a_base64` without its trailing newline: every three bytes
      become four characters, and a short last group is padded with '='. */
  function Encode(data: seq<byte>): (r: string)
    ensures forall i :: 0 <= i < |r| ==> IsCodeChar(r[i])
    decreases |data|
  {
    if |data| == 0 then ""
    else if |data| == 1 then TailOne(data[0])
    else if |data| == 2 then TailTwo(data[0], data[1])
    else Group(data[0], data[1], data[2]) + Encode(data[3..])
  }

  /** `base64.MAXBINSIZE`: the input bytes per output line. */
  const MaxBinSize: nat := 57

  /** `base64.encodestring(data)`: one encoded line, ended by "\n", per 57
      bytes of input. */
  function EncodeLines(data: seq<byte>): string
    decreases |data|
  {
    if |data| == 0 then ""
    else
      var n := if |data| < MaxBinSize then |data| else MaxBinSize;
      Encode(data[..n]) + "\n" + EncodeLines(data[n..])
  }

  /** The code characters of `s` (the alphabet and '='), in order. */
  function CodeChars(s: string): (r: string)
    ensures forall i :: 0 <= i < |r| ==> IsCodeChar(r[i])
  {
    if |s| == 0 then ""
    else if IsCodeChar(s[0]) then [s[0]] + CodeChars(s[1..])
    else CodeChars(s[1..])
  }

  /** What `a2b_base64` carries from one character to the next: the
      position in the current group of four (`quad_pos`), and the decoded
      bits not yet output (`leftchar`) with their number (`leftbits`). */
  datatype DecodeState = DecodeState(quadPos: nat, leftChar: nat, leftBits: nat)

  const Start: DecodeState := DecodeState(0, 0, 0)

  function Pow2(n: nat): (p: nat)
    ensures p >= 1
  {
    if n == 0 then 1 else 2 * Pow2(n - 1)
  }

  /** An alphabet character's six bits shifted in; once eight bits are
      held, the top eight go out as a byte and the rest stay. */
  function Shift(st: DecodeState, v: nat, out: seq<byte>): (DecodeState, seq<byte>) {
    var acc := st.leftChar * 64 + v;
    var bits := st.leftBits + 6;
    var quad := (st.quadPos + 1) % 4;
    if bits >= 8 then
      var left := bits - 8;
      (DecodeState(quad, acc % Pow2(left), left), out + [((acc / Pow2(left)) % 256) as byte])
    else (DecodeState(quad, acc, bits), out)
  }

  /** `binascii_find_valid(s, len, 1)` at a pad: the first code character
      after it, a pad included. */
  function NextCodeChar(s: string): Option<char> {
    if |s| == 0 then None
    else if IsCodeChar(s[0]) then Some(s[0])
    else NextCodeChar(s[1..])
  }

  /** The loop of `binascii.a2b_base64` from state `st`, with `out`
      decoded so far. A pad in the first two positions of a group, or in
      the third when the next code character is not a pad, is skipped;
      any other pad ends the input. Every other character outside the
      alphabet is skipped. Bits still held at the end are an error. */
  function DecodeFrom(s: string, st: DecodeState, out: seq<byte>): Result<seq<byte>, DecodeError>
    decreases |s|
  {
    if |s| == 0 then
      if st.leftBits != 0 then Err(IncorrectPadding) else Ok(out)
    else if s[0] == '=' then
      if st.quadPos < 2 || (st.quadPos == 2 && NextCodeChar(s[1..]) != Some('=')) then DecodeFrom(s[1..], st, out)
      else Ok(out)
    else if IsAlphabetChar(s[0]) then
      var (st2, out2) := Shift(st, CharValue(s[0]), out);
      DecodeFrom(s[1..], st2, out2)
    else DecodeFrom(s[1..], st, out)
  }

  /** `base64.decodestring(s)`, that is `binascii.a2b_base64(s)`. */
  function Decode(s: string): Result<seq<byte>, DecodeError> {
    DecodeFrom(s, Start, [])
  }

  // ----- round trip -----

  lemma DecodeAlphabetStep(s: string, st: DecodeState, out: seq<byte>)
    requires |s| > 0 && IsAlphabetChar(s[0])
    ensures var next := Shift(st, CharValue(s[0]), out);
            DecodeFrom(s, st, out) == DecodeFrom(s[1..], next.0, next.1)
  {
  }

  /** The first character of a group: six bits held, no byte yet. */
  lemma ShiftFirst(x: byte, out: seq<byte>)
    ensures Shift(Start, (x as int) / 4, out) == (DecodeState(1, (x as int) / 4, 6), out)
  {
  }

  /** The second character completes the first byte; four bits stay. */
  lemma ShiftSecond(x: byte, y: byte, out: seq<byte>)
    ensures var v := ((x as int) % 4) * 16 + (y as int) / 16;
            Shift(DecodeState(1, (x as int) / 4, 6), v, out) == (DecodeState(2, (y as int) / 16, 4), out + [x])
  {
    var i, j := x as int, y as int;
    assert Pow2(4) == 16;
    var acc := (i / 4) * 64 + ((i % 4) * 16 + j / 16);
    assert acc == 16 * i + j / 16;
    assert acc / 16 == i && acc % 16 == j / 16;
    assert j / 16 < 16;
  }

  /** The third character completes the second byte; two bits stay. */
  lemma ShiftThird(y: byte, z: byte, out: seq<byte>)
    ensures var v := ((y as int) % 16) * 4 + (z as int) / 64;
            Shift(DecodeState(2, (y as int) / 16, 4), v, out) == (DecodeState(3, (z as int) / 64, 2), out + [y])
  {
    var j, k := y as int, z as int;
    assert Pow2(2) == 4;
    var acc := (j / 16) * 64 + ((j % 16) * 4 + k / 64);
    assert acc == 4 * j + k / 64;
    assert acc / 4 == j && acc % 4 == k / 64;
  }

  /** The fourth character completes the third byte and nothing stays. */
  lemma ShiftFourth(z: byte, out: seq<byte>)
    ensures Shift(DecodeState(3, (z as int) / 64, 2), (z as int) % 64, out) == (Start, out + [z])
  {
    var k := z as int;
    assert Pow2(0) == 1;
    assert (k / 64) * 64 + k % 64 == k;
  }

  /** The six-bit values of a group's characters. */
  lemma GroupValues(a: byte, b: byte, c: byte)
    ensures var g := Group(a, b, c);
            var x, y, z := a as int, b as int, c as int;
            && CharValue(g[0]) == x / 4 && CharValue(g[1]) == (x % 4) * 16 + y / 16
            && CharValue(g[2]) == (y % 16) * 4 + z / 64 && CharValue(g[3]) == z % 64
  {
    var x, y, z := a as int, b as int, c as int;
    CharValueOfAlphabetChar(x / 4);
    CharValueOfAlphabetChar((x % 4) * 16 + y / 16);
    CharValueOfAlphabetChar((y % 16) * 4 + z / 64);
    CharValueOfAlphabetChar(z % 64);
  }

  /** A group at a group boundary puts out its three bytes and leaves the
      decoder at the next boundary. */
  lemma GroupRoundTrip(a: byte, b: byte, c: byte, rest: string, out: seq<byte>)
    ensures DecodeFrom(Group(a, b, c) + rest, Start, out) == DecodeFrom(rest, Start, out + [a, b, c])
  {
    var x, y, z := a as int, b as int, c as int;
    var g := Group(a, b, c);
    var q := g + rest;
    GroupValues(a, b, c);
    assert q[0] == g[0] && q[1..][0] == g[1] && q[2..][0] == g[2] && q[3..][0] == g[3];
    assert q[1..][1..] == q[2..] && q[2..][1..] == q[3..] && q[3..][1..] == rest;
    assert DecodeFrom(q, Start, out) == DecodeFrom(q[1..], DecodeState(1, x / 4, 6), out) by {
      DecodeAlphabetStep(q, Start, out);
      ShiftFirst(a, out);
    }
    assert DecodeFrom(q[1..], DecodeState(1, x / 4, 6), out)
           == DecodeFrom(q[2..], DecodeState(2, y / 16, 4), out + [a]) by {
      DecodeAlphabetStep(q[1..], DecodeState(1, x / 4, 6), out);
      ShiftSecond(a, b, out);
    }
    assert DecodeFrom(q[2..], DecodeState(2, y / 16, 4), out + [a])
           == DecodeFrom(q[3..], DecodeState(3, z / 64, 2), out + [a] + [b]) by {
      DecodeAlphabetStep(q[2..], DecodeState(2, y / 16, 4), out + [a]);
      ShiftThird(b, c, out + [a]);
    }
    assert DecodeFrom(q[3..], DecodeState(3, z / 64, 2), out + [a] + [b])
           == DecodeFrom(rest, Start, out + [a] + [b] + [c]) by {
      DecodeAlphabetStep(q[3..], DecodeState(3, z / 64, 2), out + [a] + [b]);
      ShiftFourth(c, out + [a] + [b]);
    }
    assert out + [a] + [b] + [c] == out + [a, b, c];
  }

  /** Two characters and two pads put out one byte and end the input. */
  lemma TailOneRoundTrip(a: byte, rest: string, out: seq<byte>)
    ensures DecodeFrom(TailOne(a) + rest, Start, out) == Ok(out + [a])
  {
    var x := a as int;
    var q := TailOne(a) + rest;
    CharValueOfAlphabetChar(x / 4);
    CharValueOfAlphabetChar((x % 4) * 16);
    assert CharValue(q[0]) == x / 4 && CharValue(q[1]) == (x % 4) * 16 + 0 / 16;
    ShiftFirst(a, out);
    ShiftSecond(a, 0, out);
    DecodeAlphabetStep(q, Start, out);
    DecodeAlphabetStep(q[1..], DecodeState(1, x / 4, 6), out);
    assert q[1..][1..] == q[2..] && q[2..][1..] == q[3..];
    assert q[2..][0] == '=' && q[3..][0] == '=';
    assert NextCodeChar(q[3..]) == Some('=');
  }

  /** Three characters and a pad put out two bytes and end the input. */
  lemma TailTwoRoundTrip(a: byte, b: byte, rest: string, out: seq<byte>)
    ensures DecodeFrom(TailTwo(a, b) + rest, Start, out) == Ok(out + [a, b])
  {
    var x, y := a as int, b as int;
    var q := TailTwo(a, b) + rest;
    CharValueOfAlphabetChar(x / 4);
    CharValueOfAlphabetChar((x % 4) * 16 + y / 16);
    CharValueOfAlphabetChar((y % 16) * 4);
    assert CharValue(q[0]) == x / 4 && CharValue(q[1]) == (x % 4) * 16 + y / 16;
    assert CharValue(q[2]) == (y % 16) * 4 + 0 / 64;
    ShiftFirst(a, out);
    ShiftSecond(a, b, out);
    ShiftThird(b, 0, out + [a]);
    DecodeAlphabetStep(q, Start, out);
    DecodeAlphabetStep(q[1..], DecodeState(1, x / 4, 6), out);
    DecodeAlphabetStep(q[2..], DecodeState(2, y / 16, 4), out + [a]);
    assert q[1..][1..] == q[2..] && q[2..][1..] == q[3..];
    assert q[3..][0] == '=';
    assert out + [a] + [b] == out + [a, b];
  }

  lemma EncodeCons(data: seq<byte>)
    requires |data| >= 3
    ensures Encode(data) == Group(data[0], data[1], data[2]) + Encode(data[3..])
  {
  }

  /** The encoding of the first three bytes, then the rest. */
  lemma DecodeEncodeStep(data: seq<byte>, rest: string, out: seq<byte>)
    requires |data| >= 3
    ensures DecodeFrom(Encode(data) + rest, Start, out)
            == DecodeFrom(Encode(data[3..]) + rest, Start, out + [data[0], data[1], data[2]])
  {
    var g := Group(data[0], data[1], data[2]);
    EncodeCons(data);
    assert Encode(data) + rest == g + (Encode(data[3..]) + rest);
    GroupRoundTrip(data[0], data[1], data[2], Encode(data[3..]) + rest, out);
  }

  /** One or two bytes end in a padded group. */
  lemma DecodeEncodeShort(data: seq<byte>, rest: string, out: seq<byte>)
    requires 1 <= |data| <= 2
    ensures DecodeFrom(Encode(data) + rest, Start, out) == Ok(out + data)
  {
    if |data| == 1 {
      assert Encode(data) == TailOne(data[0]) && data == [data[0]];
      TailOneRoundTrip(data[0], rest, out);
    } else {
      assert Encode(data) == TailTwo(data[0], data[1]) && data == [data[0], data[1]];
      TailTwoRoundTrip(data[0], data[1], rest, out);
    }
  }

  /** Decoding undoes encoding: whole groups leave the decoder ready for
      what follows, and a padded last group ends the input. */
  lemma DecodeEncode(data: seq<byte>, rest: string, out: seq<byte>)
    ensures DecodeFrom(Encode(data) + rest, Start, out)
            == if |data| % 3 == 0 then DecodeFrom(rest, Start, out + data) else Ok(out + data)
  {
    if |data| % 3 == 0 {
      DecodeEncodeWhole(data, rest, out);
    } else {
      DecodeEncodePadded(data, rest, out);
    }
  }

  /** Whole groups put out their bytes and leave the decoder ready for
      what follows. */
  lemma {:induction false} DecodeEncodeWhole(data: seq<byte>, rest: string, out: seq<byte>)
    requires |data| % 3 == 0
    ensures DecodeFrom(Encode(data) + rest, Start, out) == DecodeFrom(rest, Start, out + data)
    decreases |data|
  {
    if |data| == 0 {
      assert Encode(data) + rest == rest;
      assert out + data == out;
    } else {
      ThreeFewer(|data|);
      var out3 := out + [data[0], data[1], data[2]];
      DecodeEncodeStep(data, rest, out);
      DecodeEncodeWhole(data[3..], rest, out3);
      AppendThree(out, data);
    }
  }

  /** A padded last group ends the input after the bytes. */
  lemma {:induction false} DecodeEncodePadded(data: seq<byte>, rest: string, out: seq<byte>)
    requires |data| % 3 != 0
    ensures DecodeFrom(Encode(data) + rest, Start, out) == Ok(out + data)
    decreases |data|
  {
    if |data| <= 2 {
      DecodeEncodeShort(data, rest, out);
    } else {
      ThreeFewer(|data|);
      var out3 := out + [data[0], data[1], data[2]];
      DecodeEncodeStep(data, rest, out);
      DecodeEncodePadded(data[3..], rest, out3);
      AppendThree(out, data);
    }
  }

  lemma ThreeFewer(n: nat)
    requires n >= 3 || n % 3 == 0
    ensures n != 0 ==> n >= 3
    ensures n >= 3 ==> (n - 3) % 3 == n % 3
  {
  }

  lemma AppendThree(out: seq<byte>, data: seq<byte>)
    requires |data| >= 3
    ensures out + [data[0], data[1], data[2]] + data[3..] == out + data
  {
    assert data == [data[0], data[1], data[2]] + data[3..];
  }

  /** A pad's look-ahead sees through characters outside the alphabet. */
  lemma {:induction false} NextCodeCharOfCodeChars(s: string)
    ensures NextCodeChar(CodeChars(s)) == NextCodeChar(s)
    decreases |s|
  {
    if |s| > 0 {
      NextCodeCharOfCodeChars(s[1..]);
      if IsCodeChar(s[0]) {
        assert CodeChars(s)[0] == s[0];
      }
    }
  }

  /** Characters outside the alphabet and '=' make no difference, from any
      state. */
  lemma {:induction false} DecodeFromCodeChars(s: string, st: DecodeState, out: seq<byte>)
    ensures DecodeFrom(s, st, out) == DecodeFrom(CodeChars(s), st, out)
    decreases |s|
  {
    if |s| > 0 {
      var c := CodeChars(s);
      if !IsCodeChar(s[0]) {
        DecodeFromCodeChars(s[1..], st, out);
      } else {
        assert c[0] == s[0] && c[1..] == CodeChars(s[1..]);
        if s[0] == '=' {
          NextCodeCharOfCodeChars(s[1..]);
          DecodeFromCodeChars(s[1..], st, out);
        } else {
          var next := Shift(st, CharValue(s[0]), out);
          DecodeFromCodeChars(s[1..], next.0, next.1);
        }
      }
    }
  }

  /** `decodestring` ignores every character outside the alphabet and
      '=': line breaks, spaces and any other stray character. */
  lemma DecodeIgnoresNonCode(s: string)
    ensures Decode(s) == Decode(CodeChars(s))
  {
    DecodeFromCodeChars(s, Start, []);
  }

  /** The bits held at each position of a group: 0, 6, 4 and 2. */
  function HeldBits(quadPos: nat): nat {
    if quadPos == 0 then 0 else if quadPos == 1 then 6 else if quadPos == 2 then 4 else 2
  }

  /** Without pads the decoder only counts: it fails exactly when the
      characters stop inside a group. */
  lemma {:induction false} DecodeAlphabetOnly(s: string, st: DecodeState, out: seq<byte>)
    requires forall i :: 0 <= i < |s| ==> IsAlphabetChar(s[i])
    requires st.quadPos < 4 && st.leftBits == HeldBits(st.quadPos)
    ensures DecodeFrom(s, st, out).Ok? <==> (st.quadPos + |s|) % 4 == 0
    decreases |s|
  {
    if |s| > 0 {
      var next := Shift(st, CharValue(s[0]), out);
      ShiftHeld(st, CharValue(s[0]), out);
      DecodeAlphabetOnly(s[1..], next.0, next.1);
      QuadCount(st.quadPos, |s|);
    }
  }

  /** One alphabet character moves the decoder one position along its
      group and keeps the held bit count in step. */
  lemma ShiftHeld(st: DecodeState, v: nat, out: seq<byte>)
    requires st.quadPos < 4 && st.leftBits == HeldBits(st.quadPos)
    ensures Shift(st, v, out).0.quadPos == (st.quadPos + 1) % 4
    ensures Shift(st, v, out).0.leftBits == HeldBits(Shift(st, v, out).0.quadPos)
  {
  }

  lemma QuadCount(q: nat, n: nat)
    requires q < 4 && n > 0
    ensures ((q + 1) % 4 + (n - 1)) % 4 == (q + n) % 4
  {
  }

  lemma {:induction false} CodeCharsWithoutPad(s: string)
    requires '=' !in s
    ensures forall i :: 0 <= i < |CodeChars(s)| ==> IsAlphabetChar(CodeChars(s)[i])
    decreases |s|
  {
    if |s| > 0 {
      assert s[0] != '=' by { assert s[0] in s; }
      assert '=' !in s[1..] by {
        forall i | 0 <= i < |s[1..]| ensures s[1..][i] != '=' {
          assert s[1..][i] == s[i + 1] && s[i + 1] in s;
        }
      }
      CodeCharsWithoutPad(s[1..]);
    }
  }

  /** Without any '=', `decodestring` fails exactly when the alphabet
      characters do not fill whole groups of four. */
  lemma DecodeWithoutPads(s: string)
    requires '=' !in s
    ensures Decode(s).Ok? <==> |CodeChars(s)| % 4 == 0
    ensures Decode(s).Err? ==> Decode(s).error == IncorrectPadding
  {
    DecodeIgnoresNonCode(s);
    CodeCharsWithoutPad(s);
    DecodeAlphabetOnly(CodeChars(s), Start, []);
  }

  lemma EncodedAbc()
    ensures Group(97, 98, 99) == "YWJj"
  {
    assert 97 / 4 == 24 && (97 % 4) * 16 + 98 / 16 == 22 && (98 % 16) * 4 + 99 / 64 == 9 && 99 % 64 == 35;
    assert AlphabetChar(24) == 'Y' && AlphabetChar(22) == 'W' && AlphabetChar(9) == 'J' && AlphabetChar(35) == 'j';
  }

  lemma EncodedA()
    ensures TailOne(97) == "YQ=="
  {
  }

  /** `a2b_base64` tolerates a pad early in a group: it is skipped. */
  lemma LeadingPadSkipped()
    ensures Decode("=YWJj") == Ok([97, 98, 99])
  {
    var s := "=YWJj";
    assert Decode(s) == DecodeFrom(s[1..], Start, []);
    EncodedAbc();
    assert s[1..] == Group(97, 98, 99) + "";
    GroupRoundTrip(97, 98, 99, "", []);
    assert [] + [97 as byte, 98, 99] == [97, 98, 99];
  }

  /** A closing pad ends the input, whatever follows it. */
  lemma ClosingPadEndsInput()
    ensures Decode("YQ==YQ==") == Ok([97])
  {
    EncodedA();
    assert "YQ==YQ==" == TailOne(97) + "YQ==";
    TailOneRoundTrip(97, "YQ==", []);
    assert [] + [97 as byte] == [97];
  }

  /** A pad after a complete group is skipped. */
  lemma TrailingPadSkipped()
    ensures Decode("YWJj=") == Ok([97, 98, 99])
  {
    EncodedAbc();
    assert "YWJj=" == Group(97, 98, 99) + "=";
    GroupRoundTrip(97, 98, 99, "=", []);
    assert [] + [97 as byte, 98, 99] == [97, 98, 99];
    assert DecodeFrom("=", Start, [97, 98, 99]) == DecodeFrom("", Start, [97, 98, 99]);
  }

  lemma {:induction false} EncodeLength(data: seq<byte>)
    ensures |Encode(data)| == 4 * ((|data| + 2) / 3)
    decreases |data|
  {
    var n := |data|;
    if n >= 3 {
      EncodeLength(data[3..]);
      EncodeCons(data);
      assert (n + 2) / 3 == (n - 3 + 2) / 3 + 1;
    } else if n == 0 {
      assert Encode(data) == "";
    } else if n == 1 {
      assert Encode(data) == TailOne(data[0]);
    } else {
      assert Encode(data) == TailTwo(data[0], data[1]);
    }
  }

  /** Encoding a whole number of groups and then the rest is encoding the
      concatenation. */
  lemma {:induction false} EncodeConcat(x: seq<byte>, y: seq<byte>)
    requires |x| % 3 == 0
    ensures Encode(x + y) == Encode(x) + Encode(y)
    decreases |x|
  {
    if |x| > 0 {
      assert (x + y)[3..] == x[3..] + y;
      assert (x + y)[0] == x[0] && (x + y)[1] == x[1] && (x + y)[2] == x[2];
      EncodeConcat(x[3..], y);
      if |y| == 0 {
        assert x + y == x;
      }
    } else {
      assert x + y == y;
    }
  }

  lemma {:induction false} CodeCharsConcat(s: string, t: string)
    ensures CodeChars(s + t) == CodeChars(s) + CodeChars(t)
    decreases |s|
  {
    if |s| > 0 {
      assert (s + t)[1..] == s[1..] + t;
      CodeCharsConcat(s[1..], t);
    } else {
      assert s + t == t;
    }
  }

  lemma {:induction false} CodeCharsKeepsCode(s: string)
    requires forall i :: 0 <= i < |s| ==> IsCodeChar(s[i])
    ensures CodeChars(s) == s
    decreases |s|
  {
    if |s| > 0 {
      CodeCharsKeepsCode(s[1..]);
      assert [s[0]] + s[1..] == s;
    }
  }

  /** Dropping the line breaks of `encodestring` leaves the plain encoding. */
  lemma {:induction false} CodeCharsOfLines(data: seq<byte>)
    ensures CodeChars(EncodeLines(data)) == Encode(data)
    decreases |data|
  {
    if |data| > 0 {
      var n := if |data| < MaxBinSize then |data| else MaxBinSize;
      var line := Encode(data[..n]);
      var rest := EncodeLines(data[n..]);
      assert EncodeLines(data) == (line + "\n") + rest;
      CodeCharsConcat(line + "\n", rest);
      CodeCharsConcat(line, "\n");
      assert CodeChars("\n") == "";
      CodeCharsKeepsCode(line);
      assert CodeChars(line + "\n") == line;
      CodeCharsOfLines(data[n..]);
      assert CodeChars(EncodeLines(data)) == line + Encode(data[n..]);
      if n == MaxBinSize {
        EncodeConcat(data[..n], data[n..]);
        assert data[..n] + data[n..] == data;
      } else {
        assert data[..n] == data;
        assert data[n..] == [];
      }
    }
  }

  /** `decodestring(encodestring(data)) == data` for every byte string. */
  lemma EncodeLinesRoundTrip(data: seq<byte>)
    ensures Decode(EncodeLines(data)) == Ok(data)
  {
    DecodeIgnoresNonCode(EncodeLines(data));
    CodeCharsOfLines(data);
    DecodeEncode(data, "", []);
    assert Encode(data) + "" == Encode(data);
    assert [] + data == data;
  }

  /** Text made of complete lines of at most 76 characters. */
  predicate ShortLines(r: string) {
    (r == "" || r[|r| - 1] == '\n')
    && forall i :: 0 <= i < |Split(r, '\n')| ==> |Split(r, '\n')[i]| <= 76
  }

  /** One short line in front of short lines keeps them short. */
  lemma PrependLine(line: string, rest: string)
    requires |line| <= 76 && '\n' !in line && ShortLines(rest)
    ensures ShortLines(line + "\n" + rest)
  {
    var r := line + "\n" + rest;
    SplitWithoutSep(line, '\n');
    SplitAround(line, '\n', rest);
    var parts := Split(r, '\n');
    assert parts == [line] + Split(rest, '\n');
    forall i | 0 <= i < |parts| ensures |parts[i]| <= 76 {
      if i > 0 {
        assert parts[i] == Split(rest, '\n')[i - 1];
      }
    }
  }

  /** At most 57 bytes encode into at most 76 characters, none a line break. */
  lemma EncodedLine(chunk: seq<byte>)
    requires |chunk| <= MaxBinSize
    ensures |Encode(chunk)| <= 76 && '\n' !in Encode(chunk)
  {
    var line := Encode(chunk);
    EncodeLength(chunk);
    assert (|chunk| + 2) / 3 <= 19;
    forall i | 0 <= i < |line| ensures line[i] != '\n' {
      assert IsCodeChar(line[i]);
    }
  }

  lemma {:induction false} EncodeLinesLineLength(data: seq<byte>)
    ensures ShortLines(EncodeLines(data))
    decreases |data|
  {
    if |data| > 0 {
      var n := if |data| < MaxBinSize then |data| else MaxBinSize;
      EncodeLinesLineLength(data[n..]);
      EncodedLine(data[..n]);
      PrependLine(Encode(data[..n]), EncodeLines(data[n..]));
    }
  }
}

=== FILE: contentmanager.dfy ===
/** The base contents manager: listing a directory, content models, folder
    creation with allocated names, and deletion, all addressed through
    `get_os_path(name, content_path)` under the content directory. */
module ContentManager {
  import opened Results
  import opened Strings
  import opened Paths
  import opened FileTree
  import opened Service

  /** The dictionary `content_model` builds. */
  datatype ContentEntry = ContentEntry(
    name: string,
    path: string,
    ftype: Option<ContentType>,
    mimeType: string,
    lastModified: int,
    size: nat)

  /** `content_model(name, content_path, ftype)`: stats the node (a missing
      one raises ENOENT, or ENOTDIR below a file) and echoes the arguments
      it was given. */
  function ContentModel(t: Tree, name: string, contentPath: string, ftype: Option<ContentType>)
    : (r: Result<ContentEntry, Failure>)
    ensures r.Ok? <==> Locate(Some(name), contentPath) in t
    ensures r == Err(Os(ENOTDIR)) <==> Locate(Some(name), contentPath) !in t && BelowFile(t, Locate(Some(name), contentPath))
    ensures r == Err(Os(ENOENT)) <==> Locate(Some(name), contentPath) !in t && !BelowFile(t, Locate(Some(name), contentPath))
    ensures r.Ok? ==> r.value.name == name && r.value.path == contentPath && r.value.ftype == ftype
                      && r.value.mimeType == ""
                      && r.value.size == StatSize(t[Locate(Some(name), contentPath)])
  {
    var l := Locate(Some(name), contentPath);
    if l !in t then Err(Os(LookupErrno(t, l)))
    else Ok(ContentEntry(name, contentPath, ftype, "", t[l].stamp.mtime, StatSize(t[l])))
  }

  /** The type `list_contents` gives an entry: a directory first, then a
      notebook by the name's extension, otherwise a file. */
  function Classify(t: Tree, name: string, contentPath: string): ContentType {
    if IsDir(t, Locate(Some(name), contentPath)) then DirType
    else if EndsWith(name, Notebook) then NotebookType
    else FileType
  }

  /** The models of the listed names, in listing order; the first name that
      cannot be stated aborts the listing. */
  function ListModels(t: Tree, contentPath: string, names: seq<string>)
    : (r: Result<seq<ContentEntry>, Failure>)
    ensures r.Ok? <==> forall i :: 0 <= i < |names| ==> Locate(Some(names[i]), contentPath) in t
    ensures r.Err? ==> exists i :: 0 <= i < |names| && Locate(Some(names[i]), contentPath) !in t
                                   && r.error == Os(LookupErrno(t, Locate(Some(names[i]), contentPath)))
    ensures r.Ok? ==>
      |r.value| == |names|
      && forall i :: 0 <= i < |names| ==>
           var l := Locate(Some(names[i]), contentPath);
           && r.value[i].name == names[i] && r.value[i].path == contentPath
           && r.value[i].ftype.Some?
           && (r.value[i].ftype.value == DirType <==> IsDir(t, l))
           && (r.value[i].ftype.value == NotebookType <==> !IsDir(t, l) && EndsWith(names[i], Notebook))
    decreases |names|
  {
    if |names| == 0 then Ok([])
    else
      var m :- ContentModel(t, names[0], contentPath, Some(Classify(t, names[0], contentPath)));
      var rest :- ListModels(t, contentPath, names[1..]);
      assert forall i :: 1 <= i < |names| ==> names[i] == names[1..][i - 1];
      Ok([m] + rest)
  }

  /** `list_contents(content_path)`, given what `os.listdir` returns for
      the directory: listing a missing path fails with ENOENT, and listing
      a file or a path below one with ENOTDIR. */
  function ListContents(t: Tree, contentPath: string, names: seq<string>)
    : (r: Result<seq<ContentEntry>, Failure>)
    ensures var dir := Locate(None, contentPath);
            && (dir !in t && !BelowFile(t, dir) ==> r == Err(Os(ENOENT)))
            && (dir !in t && BelowFile(t, dir) ==> r == Err(Os(ENOTDIR)))
            && (dir in t && t[dir].File? ==> r == Err(Os(ENOTDIR)))
  {
    var dir := Locate(None, contentPath);
    if dir !in t then Err(Os(LookupErrno(t, dir)))
    else if t[dir].File? then Err(Os(ENOTDIR))
    else ListModels(t, contentPath, names)
  }

  /** Listing a directory yields one model per child, each child once, and
      types each child by the tree and its name. */
  lemma ListContentsOfListing(t: Tree, contentPath: string, names: seq<string>)
    requires Valid(t) && IsDir(t, Segments(contentPath))
    requires IsListing(t, Segments(contentPath), names)
    ensures var r := ListContents(t, contentPath, names);
            r.Ok? && |r.value| == |names|
            && (forall i :: 0 <= i < |names| ==> Segments(contentPath) + [r.value[i].name] in t)
            && (forall k :: k in t && |k| == |Segments(contentPath)| + 1 && IsPrefix(Segments(contentPath), k)
                  ==> exists i :: 0 <= i < |names| && r.value[i].name == k[|k| - 1])
  {
    var dir := Segments(contentPath);
    assert Locate(None, contentPath) == dir;
    forall i | 0 <= i < |names| ensures Locate(Some(names[i]), contentPath) == dir + [names[i]] {
      SegmentOfSegment(names[i]);
    }
    var r := ListContents(t, contentPath, names);
    forall k | k in t && |k| == |dir| + 1 && IsPrefix(dir, k)
      ensures exists i :: 0 <= i < |names| && r.value[i].name == k[|k| - 1]
    {
      var i :| 0 <= i < |names| && names[i] == k[|dir|];
      assert r.value[i].name == k[|k| - 1];
    }
  }

  // ----- increment_filename -----

  /** The node the `i`th candidate name designates. */
  function Candidate(basename: string, contentPath: string, i: nat): Location {
    Locate(Some(basename + Decimal(i)), contentPath)
  }

  lemma CandidatesDistinct(basename: string, contentPath: string, i: nat, j: nat)
    requires Candidate(basename, contentPath, i) == Candidate(basename, contentPath, j)
    ensures i == j
  {
    var dir := Segments(contentPath);
    var a, b := Segments(basename + Decimal(i)), Segments(basename + Decimal(j));
    assert dir + a == dir + b;
    assert a == (dir + a)[|dir|..];
    assert b == (dir + b)[|dir|..];
    DecimalIsSegment(i);
    DecimalIsSegment(j);
    SegmentsAppendInjective(basename, Decimal(i), Decimal(j));
    DecimalInjective(i, j);
  }

  /** The values `f` takes below `n`. */
  ghost function Image<T>(f: nat -> T, n: nat): set<T> {
    set i: nat | i < n :: f(i)
  }

  /** An injective map takes `n` distinct values below `n`. */
  lemma {:induction false} ImageSize<T>(f: nat -> T, n: nat)
    requires forall i: nat, j: nat :: i < n && j < n && f(i) == f(j) ==> i == j
    ensures |Image(f, n)| == n
  {
    if n > 0 {
      ImageSize(f, n - 1);
      var a, x := Image(f, n - 1), f(n - 1);
      forall y | y in Image(f, n) ensures y in a + {x} {
        var i: nat :| i < n && f(i) == y;
      }
      assert Image(f, n) == a + {x};
      assert x !in a by {
        forall y | y in a ensures y != x {
          var i: nat :| i < n - 1 && f(i) == y;
        }
      }
    }
  }

  /** Candidates that are all directories fit in the tree, so the search
      below stops. */
  lemma TriedBound(t: Tree, basename: string, contentPath: string, n: nat)
    requires forall i :: 0 <= i < n ==> IsDir(t, Candidate(basename, contentPath, i))
    ensures n <= |t.Keys|
  {
    var f := (i: nat) => Candidate(basename, contentPath, i);
    forall i: nat, j: nat | i < n && j < n && f(i) == f(j) ensures i == j {
      CandidatesDistinct(basename, contentPath, i, j);
    }
    ImageSize(f, n);
    assert Image(f, n) <= t.Keys;
    SubsetSize(Image(f, n), t.Keys);
  }

  lemma {:induction false} SubsetSize<T>(a: set<T>, b: set<T>)
    requires a <= b
    ensures |a| <= |b|
    decreases |a|
  {
    if a != {} {
      var x :| x in a;
      SubsetSize(a - {x}, b - {x});
    }
  }

  /** The least index from `i` on whose candidate is not a directory. */
  function FreeIndexFrom(t: Tree, basename: string, contentPath: string, i: nat): (n: nat)
    requires forall j :: 0 <= j < i ==> IsDir(t, Candidate(basename, contentPath, j))
    ensures i <= n && !IsDir(t, Candidate(basename, contentPath, n))
    ensures forall j :: 0 <= j < n ==> IsDir(t, Candidate(basename, contentPath, j))
    decreases |t.Keys| - i
  {
    if !IsDir(t, Candidate(basename, contentPath, i)) then i
    else
      TriedBound(t, basename, contentPath, i + 1);
      FreeIndexFrom(t, basename, contentPath, i + 1)
  }

  /** The index `increment_filename` settles on. */
  function LeastFreeIndex(t: Tree, basename: string, contentPath: string): (n: nat)
    ensures !IsDir(t, Candidate(basename, contentPath, n))
    ensures forall j :: 0 <= j < n ==> IsDir(t, Candidate(basename, contentPath, j))
  {
    FreeIndexFrom(t, basename, contentPath, 0)
  }

  /** `increment_filename(basename, content_path)`: `basename` followed by
      the least index whose name is not an existing directory. */
  function IncrementFilename(t: Tree, basename: string, contentPath: string): (name: string)
    ensures !IsDir(t, Locate(Some(name), contentPath))
    ensures exists n: nat :: name == basename + Decimal(n)
  {
    basename + Decimal(LeastFreeIndex(t, basename, contentPath))
  }

  /** The allocated name is the only one of its form that is free while
      every earlier candidate is a directory. */
  lemma IncrementFilenameLeast(t: Tree, basename: string, contentPath: string, n: nat)
    requires !IsDir(t, Candidate(basename, contentPath, n))
    requires forall j :: 0 <= j < n ==> IsDir(t, Candidate(basename, contentPath, j))
    ensures IncrementFilename(t, basename, contentPath) == basename + Decimal(n)
  {
    FreeIndexFromIs(t, basename, contentPath, 0, n);
  }

  /** The search from any earlier index stops at the first free one. */
  lemma {:induction false} FreeIndexFromIs(t: Tree, basename: string, contentPath: string, i: nat, n: nat)
    requires i <= n && !IsDir(t, Candidate(basename, contentPath, n))
    requires forall j :: 0 <= j < n ==> IsDir(t, Candidate(basename, contentPath, j))
    ensures FreeIndexFrom(t, basename, contentPath, i) == n
    decreases n - i
  {
    if i < n {
      assert IsDir(t, Candidate(basename, contentPath, i));
      FreeIndexFromIs(t, basename, contentPath, i + 1, n);
    }
  }

  /** Only directories block a name: a file of that name is skipped over
      by the search and then collides. */
  lemma IncrementFilenameSkipsOnlyDirs(t: Tree, basename: string, contentPath: string)
    requires Candidate(basename, contentPath, 0) in t && !IsDir(t, Candidate(basename, contentPath, 0))
    ensures IncrementFilename(t, basename, contentPath) == basename + Decimal(0)
    ensures Locate(Some(IncrementFilename(t, basename, contentPath)), contentPath) in t
  {
    IncrementFilenameLeast(t, basename, contentPath, 0);
  }

  // ----- new_folder -----

  /** `new_folder(name, path)`: `makedirs` on the named (or allocated)
      location, with its errors mapped to HTTP statuses. */
  function NewFolder(t: Tree, name: Option<string>, path: string, env: Env): (r: Outcome<string>)
    ensures name.Some? && r.result.Ok? ==> r.result.value == name.value
    ensures name.None? && r.result.Ok? ==> r.result.value == IncrementFilename(t, "new_folder", path)
    ensures r.result.Ok? ==> IsDir(r.tree, Locate(Some(r.result.value), path))
    ensures r.result.Err? ==> r.tree == t && r.result.error in {Http(409), Http(403), Http(400)}
  {
    var n := if name.None? then IncrementFilename(t, "new_folder", path) else name.value;
    var l := Locate(Some(n), path);
    var made := Makedirs(t, l, env);
    if made.Ok? then
      MakedirsEffectOk(t, l, env);
      Outcome(made.value, Ok(n))
    else if made.error == EEXIST then Outcome(t, Err(Http(409)))
    else if made.error == EACCES then Outcome(t, Err(Http(403)))
    else Outcome(t, Err(Http(400)))
  }

  /** A successful `makedirs` leaves its target a directory, whatever the
      tree looked like. */
  lemma {:induction false} MakedirsEffectOk(t: Tree, l: Location, env: Env)
    requires Makedirs(t, l, env).Ok?
    ensures IsDir(Makedirs(t, l, env).value, l)
    decreases |l|
  {
  }

  /** On a valid tree: 409 exactly when the folder's location is taken, 403
      exactly when the nearest existing ancestor is a read-only directory,
      400 exactly when it is a file; success adds the folder and keeps the
      tree valid. */
  lemma NewFolderOutcome(t: Tree, name: Option<string>, path: string, env: Env)
    requires Valid(t)
    ensures var n := if name.None? then IncrementFilename(t, "new_folder", path) else name.value;
            var l := Locate(Some(n), path);
            var d := DeepestExisting(t, l);
            var r := NewFolder(t, name, path, env);
            && (r.result == Err(Http(409)) <==> l in t)
            && (r.result == Err(Http(403)) <==> l !in t && IsDir(t, d) && !t[d].writable)
            && (r.result == Err(Http(400)) <==> l !in t && d in t && t[d].File?)
            && (r.result.Ok? ==> l !in t && Valid(r.tree))
  {
    var n := if name.None? then IncrementFilename(t, "new_folder", path) else name.value;
    var l := Locate(Some(n), path);
    MakedirsEffect(t, l, env);
    MakedirsSucceeds(t, l, env);
    if l !in t {
      MakedirsError(t, l, env);
    }
    if Makedirs(t, l, env).Ok? {
      MakedirsValid(t, l, env);
    }
  }

  /** Without a name, the folder gets the first `new_folderN` that is not a
      directory. */
  lemma NewFolderUnnamed(t: Tree, path: string, env: Env, n: nat)
    requires !IsDir(t, Candidate("new_folder", path, n))
    requires forall j :: 0 <= j < n ==> IsDir(t, Candidate("new_folder", path, j))
    ensures var r := NewFolder(t, None, path, env);
            r.result.Ok? ==> r.result.value == "new_folder" + Decimal(n)
  {
    IncrementFilenameLeast(t, "new_folder", path, n);
  }

  // ----- delete_content -----

  /** `delete_content(name, content_path)` as written: the root check
      compares OS path strings, and everything else goes to `rmtree`. */
  function DeleteContentAsWritten(root: string, t: Tree, name: Option<string>, contentPath: string)
    : (r: Outcome<()>)
    ensures GetOsPath(root, name, contentPath) == root ==> r == Outcome(t, Err(Http(403)))
    ensures r.result.Ok? ==> r.tree == RemoveSubtree(t, Locate(name, contentPath))
    ensures r.result == Err(Http(404)) <==> GetOsPath(root, name, contentPath) != root && Locate(name, contentPath) !in t
                                            && !BelowFile(t, Locate(name, contentPath))
    ensures r.result.Err? ==> r.tree == t
  {
    if GetOsPath(root, name, contentPath) != root then
      var removed := Rmtree(t, Locate(name, contentPath));
      if removed.Ok? then Outcome(removed.value, Ok(()))
      else if removed.error == ENOENT then Outcome(t, Err(Http(404)))
      else Outcome(t, Err(Http(400)))
    else Outcome(t, Err(Http(403)))
  }

  /** The empty name is joined as a trailing slash, so with a root written
      without one the string check passes and the whole content directory,
      root included, is removed. */
  lemma DeleteRootBypass(root: string, t: Tree, contentPath: string)
    requires PlainRoot(root) && Segments(contentPath) == []
    requires Valid(t) && RemovalAllowed(t, [])
    ensures var r := DeleteContentAsWritten(root, t, Some(""), contentPath);
            r.result.Ok? && r.tree == map[]
    ensures DeleteContentAsWritten(root, t, None, contentPath).result == Err(Http(403))
  {
    assert Parts(Some(""), contentPath) == [""];
    assert !EndsWith(root, "/");
    assert JoinStep(root, "") == root + "/" + "";
    assert OsJoin(root, [""]) == OsJoin(root + "/", []);
    assert GetOsPath(root, Some(""), contentPath) != root;
    assert Locate(Some(""), contentPath) == [];
    var r := RemoveSubtree(t, []);
    assert forall k :: IsPrefix([], k);
    assert r == map[];
  }

  /** A file is handed to `rmtree`, which cannot list it: the request fails
      with 400 and the file stays. */
  lemma DeleteFileRejected(root: string, t: Tree, name: Option<string>, contentPath: string)
    requires PlainRoot(root) && RelativeName(name) && Valid(t)
    requires Locate(name, contentPath) in t && t[Locate(name, contentPath)].File?
    ensures DeleteContentAsWritten(root, t, name, contentPath) == Outcome(t, Err(Http(400)))
  {
    GetOsPathLocates(root, name, contentPath);
  }

  /** `delete_content` as evidently intended: the root is recognised by its
      location rather than by its spelling, and a file is removed with
      `os.remove`. */
  function DeleteContent(t: Tree, name: Option<string>, contentPath: string): (r: Outcome<()>)
    ensures var l := Locate(name, contentPath);
            && (r.result == Err(Http(403)) <==> l == [])
            && (r.result == Err(Http(404)) <==> l != [] && l !in t && !BelowFile(t, l))
            && (r.result == Err(Http(400)) && l !in t ==> BelowFile(t, l))
            && (l != [] && l !in t && BelowFile(t, l) ==> r.result == Err(Http(400)))
            && (r.result.Ok? ==> l in t && r.tree == RemoveSubtree(t, l))
            && (r.result.Err? ==> r.tree == t)
  {
    var l := Locate(name, contentPath);
    if l == [] then Outcome(t, Err(Http(403)))
    else
      var removed := if l in t && t[l].File? then RemoveFile(t, l) else Rmtree(t, l);
      if removed.Ok? then Outcome(removed.value, Ok(()))
      else if removed.error == ENOENT then Outcome(t, Err(Http(404)))
      else Outcome(t, Err(Http(400)))
  }

  /** The corrected deletion never takes the root and keeps a tree valid,
      and it removes a file whose directory is writable. */
  lemma DeleteContentValid(t: Tree, name: Option<string>, contentPath: string)
    requires Valid(t)
    ensures Valid(DeleteContent(t, name, contentPath).tree)
    ensures var l := Locate(name, contentPath);
            l in t && t[l].File? && RemovalAllowed(t, l)
            ==> DeleteContent(t, name, contentPath).result.Ok?
                && l !in DeleteContent(t, name, contentPath).tree
  {
    var l := Locate(name, contentPath);
    if l != [] {
      RemoveSubtreeValid(t, l);
    }
  }
}

=== FILE: filemanager.dfy ===
/** The file manager: API paths (slash-separated, relative to the root)
    mapped onto the storage tree, summaries of entries, directory listings
    without hidden entries, file contents in base64, renaming and creating
    files. */
module FileManager {
  import opened Results
  import opened Strings
  import opened Paths
  import opened FileTree
  import opened Service
  import Base64

  /** `get_os_path(path)`: outer slashes stripped, empty segments dropped,
      the rest joined onto the root. */
  function FmOsPath(root: string, path: string): string {
    OsJoin(root, Segments(Strip(path, '/')))
  }

  /** Stripping first changes nothing: the file manager reaches the same OS
      path as the contents manager does without a name, so it designates
      `Segments(path)`. */
  lemma FmOsPathIsGetOsPath(root: string, path: string)
    ensures FmOsPath(root, path) == GetOsPath(root, None, path)
  {
    SegmentsStrip(path);
    assert Parts(None, path) == Segments(path);
  }

  /** `is_hidden(name, path)` */
  predicate IsHidden(name: string) {
    StartsWith(name, ".")
  }

  /** The names a listing keeps, in listing order. */
  function Visible(names: seq<string>): (r: seq<string>)
    ensures forall i :: 0 <= i < |r| ==> !IsHidden(r[i]) && r[i] in names
    ensures forall i :: 0 <= i < |names| && !IsHidden(names[i]) ==> names[i] in r
  {
    if |names| == 0 then []
    else if IsHidden(names[0]) then Visible(names[1..])
    else [names[0]] + Visible(names[1..])
  }

  /** Filtering keeps the order: it commutes with concatenation. */
  lemma {:induction false} VisibleConcat(a: seq<string>, b: seq<string>)
    ensures Visible(a + b) == Visible(a) + Visible(b)
  {
    if |a| > 0 {
      assert (a + b)[1..] == a[1..] + b;
      VisibleConcat(a[1..], b);
    } else {
      assert a + b == b;
    }
  }

  // ----- posixpath.split -----

  /** `posixpath.split(p)`: the tail is the text after the last slash; the
      head is the rest, with trailing slashes removed unless it is all
      slashes. */
  function PosixSplit(p: string): (r: (string, string)) {
    (TrimHead(RawHeadOf(p)), TailOf(p))
  }

  /** The text after the last slash. */
  function TailOf(p: string): (tail: string)
    ensures |tail| <= |p| && '/' !in tail
  {
    var parts := Split(p, '/');
    PosixSplitShape(p);
    parts[|parts| - 1]
  }

  /** The text up to and including the last slash. */
  function RawHeadOf(p: string): string {
    p[..|p| - |TailOf(p)|]
  }

  /** The head loses its trailing slashes unless it is nothing but slashes. */
  function TrimHead(head: string): string {
    if head != "" && !AllSlashes(head) then RStrip(head, '/') else head
  }

  /** Trimming the head does not move its segments. */
  lemma TrimHeadSegments(head: string)
    ensures Segments(Strip(TrimHead(head), '/')) == Segments(head)
  {
    SegmentsStrip(TrimHead(head));
    if head != "" && !AllSlashes(head) {
      SegmentsRStrip(head);
    }
  }

  predicate AllSlashes(s: string) {
    forall i :: 0 <= i < |s| ==> s[i] == '/'
  }

  /** A path is its head followed by its tail, the head being empty or
      ending in a slash; the tail has no slash. */
  lemma PosixSplitShape(p: string)
    ensures var parts := Split(p, '/');
            var tail := parts[|parts| - 1];
            |tail| <= |p| && '/' !in tail
            && (|parts| == 1 ==> p == tail)
            && (|parts| >= 2 ==> p == Join(parts[..|parts| - 1], '/') + "/" + tail)
  {
    var parts := Split(p, '/');
    if |parts| >= 2 {
      JoinLast(parts, '/');
    }
  }

  /** The text before the tail is empty or the joined pieces and a slash. */
  lemma RawHead(p: string, parts: seq<string>)
    requires parts == Split(p, '/')
    ensures && TailOf(p) == parts[|parts| - 1]
            && (|parts| == 1 ==> RawHeadOf(p) == "")
            && (|parts| >= 2 ==> RawHeadOf(p) == Join(parts[..|parts| - 1], '/') + "/")
  {
    PosixSplitShape(p);
  }

  /** The segments before the tail are the non-empty pieces before it. */
  lemma RawHeadSegments(p: string, parts: seq<string>)
    requires parts == Split(p, '/')
    ensures Segments(RawHeadOf(p)) == NonEmpty(parts[..|parts| - 1])
  {
    RawHead(p, parts);
    HeadOfPieces(parts, RawHeadOf(p));
  }

  /** The text before the last of some slash-free pieces, rejoined, has the
      non-empty earlier pieces as its segments. */
  lemma HeadOfPieces(parts: seq<string>, head: string)
    requires |parts| >= 1 && forall i :: 0 <= i < |parts| ==> '/' !in parts[i]
    requires |parts| == 1 ==> head == ""
    requires |parts| >= 2 ==> head == Join(parts[..|parts| - 1], '/') + "/"
    ensures Segments(head) == NonEmpty(parts[..|parts| - 1])
  {
    var init := parts[..|parts| - 1];
    if |parts| == 1 {
      SegmentsOfEmpty();
      assert init == [];
    } else {
      assert forall i :: 0 <= i < |init| ==> '/' !in init[i] by {
        assert forall i :: 0 <= i < |init| ==> init[i] == parts[i];
      }
      SegmentsOfJoinSlash(init);
    }
  }

  /** Without a trailing slash, the last piece is the last segment. */
  lemma LastPiece(p: string, parts: seq<string>)
    requires Segments(p) != [] && !EndsWith(p, "/") && parts == Split(p, '/')
    ensures parts[|parts| - 1] != ""
    ensures Segments(p) == NonEmpty(parts[..|parts| - 1]) + [parts[|parts| - 1]]
  {
    assert Segments(p) == NonEmpty(parts);
    LastOfPieces(parts, p);
  }

  /** A text that is some pieces joined by slashes and does not end in a
      slash has a non-empty last piece, which is its last segment. */
  lemma LastOfPieces(parts: seq<string>, p: string)
    requires |parts| >= 1 && NonEmpty(parts) != [] && !EndsWith(p, "/") && Join(parts, '/') == p
    ensures var tail := parts[|parts| - 1];
            tail != "" && NonEmpty(parts) == NonEmpty(parts[..|parts| - 1]) + [tail]
  {
    if parts[|parts| - 1] == "" {
      EmptyLastPiece(parts);
    } else {
      NonEmptyLast(parts);
    }
  }

  /** A non-empty last piece is kept last by the filter. */
  lemma NonEmptyLast(parts: seq<string>)
    requires |parts| >= 1 && parts[|parts| - 1] != ""
    ensures NonEmpty(parts) == NonEmpty(parts[..|parts| - 1]) + [parts[|parts| - 1]]
  {
    var init, tail := parts[..|parts| - 1], parts[|parts| - 1];
    calc {
      NonEmpty(parts);
      { assert parts == init + [tail]; }
      NonEmpty(init + [tail]);
      { NonEmptyConcat(init, [tail]); }
      NonEmpty(init) + NonEmpty([tail]);
      { NonEmptyOne(tail); }
      NonEmpty(init) + [tail];
    }
  }

  lemma NonEmptyOne(s: string)
    requires s != ""
    ensures NonEmpty([s]) == [s]
  {
    assert [s][1..] == [];
  }

  /** For a path not ending in a slash, the summary name is the last
      segment and the summary path holds the segments before it. */
  lemma PosixSplitSegments(p: string)
    requires Segments(p) != [] && !EndsWith(p, "/")
    ensures PosixSplit(p).1 == Segments(p)[|Segments(p)| - 1]
    ensures Segments(Strip(PosixSplit(p).0, '/')) == Segments(p)[..|Segments(p)| - 1]
  {
    var parts := Split(p, '/');
    var init, segs := NonEmpty(parts[..|parts| - 1]), Segments(p);
    LastPiece(p, parts);
    RawHead(p, parts);
    assert segs == init + [TailOf(p)];
    assert segs[|segs| - 1] == TailOf(p) && segs[..|segs| - 1] == init;
    TrimHeadSegments(RawHeadOf(p));
    RawHeadSegments(p, parts);
  }

  // ----- summaries -----

  /** The dictionary `get_summary` builds. */
  datatype Summary = Summary(
    ftype: ContentType,
    name: string,
    path: string,
    lastModified: int,
    created: int,
    size: nat)

  /** `get_summary(path)`: a missing node fails `os.stat` (ENOENT, or
      ENOTDIR below a file); the type comes from the tree and the spelling
      of the OS path, the names from the spelling of the API path. */
  function GetSummary(root: string, t: Tree, path: string): (r: Result<Summary, Failure>)
    ensures r.Ok? <==> Segments(path) in t
    ensures r == Err(Os(ENOTDIR)) <==> Segments(path) !in t && BelowFile(t, Segments(path))
    ensures r == Err(Os(ENOENT)) <==> Segments(path) !in t && !BelowFile(t, Segments(path))
    ensures r.Ok? ==> var n := t[Segments(path)];
                      && (r.value.ftype == DirType <==> n.Dir?)
                      && (r.value.ftype == NotebookType <==> n.File? && EndsWith(FmOsPath(root, path), Notebook))
                      && r.value.size == (if n.Dir? then 0 else |n.data|)
                      && r.value.lastModified == n.stamp.mtime && r.value.created == n.stamp.ctime
  {
    var l := Segments(path);
    if l !in t then Err(Os(LookupErrno(t, l)))
    else
      var n := t[l];
      var ftype := if n.Dir? then DirType
                   else if EndsWith(FmOsPath(root, path), Notebook) then NotebookType
                   else FileType;
      var (head, tail) := PosixSplit(path);
      Ok(Summary(ftype, tail, Strip(head, '/'), n.stamp.mtime, n.stamp.ctime,
                 if ftype != DirType then StatSize(n) else 0))
  }

  /** Under a plain root, a file is a notebook exactly when its last
      segment carries the notebook extension. */
  lemma SummaryNotebook(root: string, t: Tree, path: string)
    requires PlainRoot(root) && Valid(t)
    requires Segments(path) in t && t[Segments(path)].File?
    ensures var segs := Segments(path);
            GetSummary(root, t, path).value.ftype == NotebookType
            <==> EndsWith(segs[|segs| - 1], Notebook)
  {
    assert Segments(path) != [];
    FmOsPathLast(root, path);
  }

  /** Under a plain root the OS path ends with the last segment, after a
      slash. */
  lemma FmOsPathLast(root: string, path: string)
    requires PlainRoot(root) && Segments(path) != []
    ensures EndsWith(FmOsPath(root, path), Notebook)
            <==> EndsWith(Segments(path)[|Segments(path)| - 1], Notebook)
  {
    var segs := Segments(path);
    FmOsPathIsGetOsPath(root, path);
    GetOsPathShape(root, None, path);
    assert Parts(None, path) == segs;
    assert FmOsPath(root, path) == root + "/" + Join(segs, '/');
    JoinedEnds(root, segs);
  }

  /** A slash path ends with a suffix free of slashes exactly when its last
      segment does. */
  lemma JoinedEnds(x: string, segs: seq<string>)
    requires |segs| >= 1 && IsSegment(segs[|segs| - 1])
    ensures EndsWith(x + "/" + Join(segs, '/'), Notebook) <==> EndsWith(segs[|segs| - 1], Notebook)
  {
    var h := if |segs| == 1 then x else x + "/" + Join(segs[..|segs| - 1], '/');
    JoinAfter(x, segs);
    EndsWithAfterSlash(h, segs[|segs| - 1], Notebook);
  }


  /** The summary names the last segment, below the remaining segments. */
  lemma SummaryNames(root: string, t: Tree, path: string)
    requires Segments(path) in t && Segments(path) != [] && !EndsWith(path, "/")
    ensures var segs := Segments(path);
            var s := GetSummary(root, t, path).value;
            s.name == segs[|segs| - 1] && Segments(s.path) == segs[..|segs| - 1]
  {
    PosixSplitSegments(path);
  }

  // ----- listing -----

  /** The summaries of `path/name` for each name, in order. */
  function Summaries(root: string, t: Tree, path: string, names: seq<string>)
    : (r: Result<seq<Summary>, Failure>)
    ensures r.Ok? <==> forall i :: 0 <= i < |names| ==> Segments(path + "/" + names[i]) in t
    ensures r.Err? ==> exists i :: 0 <= i < |names| && GetSummary(root, t, path + "/" + names[i]) == Err(r.error)
    ensures r.Ok? ==> |r.value| == |names|
                      && forall i :: 0 <= i < |names| ==> r.value[i] == GetSummary(root, t, path + "/" + names[i]).value
  {
    MapResults((name: string) => GetSummary(root, t, path + "/" + name), names)
  }

  /** `get_directory_contents(path)`, given what `os.listdir` returns for
      the directory: a summary for every entry that is not hidden. */
  function GetDirectoryContents(root: string, t: Tree, path: string, names: seq<string>)
    : (r: Result<seq<Summary>, Failure>)
    ensures var l := Segments(path);
            && (l !in t && !BelowFile(t, l) ==> r == Err(Os(ENOENT)))
            && (l !in t && BelowFile(t, l) ==> r == Err(Os(ENOTDIR)))
            && (l in t && t[l].File? ==> r == Err(Os(ENOTDIR)))
    ensures r.Ok? ==> |r.value| == |Visible(names)|
  {
    var l := Segments(path);
    if l !in t then Err(Os(LookupErrno(t, l)))
    else if t[l].File? then Err(Os(ENOTDIR))
    else Summaries(root, t, path, Visible(names))
  }

  /** The summary of a child is named after the child. */
  lemma ChildSummary(root: string, t: Tree, path: string, name: string)
    requires IsSegment(name)
    ensures Segments(path + "/" + name) == Segments(path) + [name]
    ensures Segments(path + "/" + name) in t ==> GetSummary(root, t, path + "/" + name).value.name == name
  {
    SegmentsAround(path, name);
    SegmentOfSegment(name);
    var p := path + "/" + name;
    SplitAround(path, '/', name);
    SplitWithoutSep(name, '/');
    assert p == path + ['/'] + name;
  }

  /** Every listed child has a summary named after it. */
  lemma SummariesNamed(root: string, t: Tree, path: string, names: seq<string>)
    requires forall i :: 0 <= i < |names| ==> IsSegment(names[i]) && Segments(path) + [names[i]] in t
    ensures var r := Summaries(root, t, path, names);
            r.Ok? && |r.value| == |names| && forall i :: 0 <= i < |names| ==> r.value[i].name == names[i]
  {
    forall i | 0 <= i < |names|
      ensures Segments(path + "/" + names[i]) in t
      ensures GetSummary(root, t, path + "/" + names[i]).value.name == names[i]
    {
      ChildSummary(root, t, path, names[i]);
    }
  }

  /** Listing a directory gives one summary per visible child, in listing
      order, named after it, and leaves every hidden child out. */
  lemma DirectoryContentsOfListing(root: string, t: Tree, path: string, names: seq<string>)
    requires IsDir(t, Segments(path)) && IsListing(t, Segments(path), names)
    ensures var r := GetDirectoryContents(root, t, path, names);
            var shown := Visible(names);
            r.Ok? && |r.value| == |shown|
            && (forall i :: 0 <= i < |shown| ==> r.value[i].name == shown[i] && !IsHidden(shown[i]))
            && (forall k :: k in t && |k| == |Segments(path)| + 1 && IsPrefix(Segments(path), k) && !IsHidden(k[|k| - 1])
                  ==> k[|k| - 1] in shown)
  {
    var dir := Segments(path);
    var shown := Visible(names);
    forall i | 0 <= i < |shown| ensures IsSegment(shown[i]) && dir + [shown[i]] in t {
      var j :| 0 <= j < |names| && names[j] == shown[i];
    }
    SummariesNamed(root, t, path, shown);
    var r := GetDirectoryContents(root, t, path, names);
    assert r == Summaries(root, t, path, shown);
    assert r.Ok? && |r.value| == |shown|;
    assert forall i :: 0 <= i < |shown| ==> r.value[i].name == shown[i] && !IsHidden(shown[i]);
    forall k | k in t && |k| == |dir| + 1 && IsPrefix(dir, k) && !IsHidden(k[|k| - 1])
      ensures k[|k| - 1] in shown
    {
      var j :| 0 <= j < |names| && names[j] == k[|dir|];
    }
  }

  // ----- file contents -----

  /** The model `get_file_contents` returns. */
  datatype FileModel = FileModel(summary: Summary, encoding: string, content: string)

  /** `get_file_contents(path)`: the summary, and the file's bytes through
      `base64.encodestring`; opening a directory fails with EISDIR. */
  function GetFileContents(root: string, t: Tree, path: string): (r: Result<FileModel, Failure>)
    ensures r.Ok? <==> Segments(path) in t && t[Segments(path)].File?
    ensures r.Ok? ==> r.value.encoding == "base64"
                      && Base64.Decode(r.value.content) == Ok(t[Segments(path)].data)
                      && Ok(r.value.summary) == GetSummary(root, t, path)
  {
    var summary :- GetSummary(root, t, path);
    var n := t[Segments(path)];
    if n.Dir? then Err(Os(EISDIR))
    else
      Base64.EncodeLinesRoundTrip(n.data);
      Ok(FileModel(summary, "base64", Base64.EncodeLines(n.data)))
  }

  datatype Contents = Listing(entries: seq<Summary>) | Loaded(file: FileModel)

  /** `get_contents(path)`: 404 for a missing node, otherwise a listing of
      a directory or the contents of a file. */
  function GetContents(root: string, t: Tree, path: string, names: seq<string>)
    : (r: Result<Contents, Failure>)
    ensures r == Err(Http(404)) <==> Segments(path) !in t
    ensures IsDir(t, Segments(path)) ==> r == (var l :- GetDirectoryContents(root, t, Strip(path, '/'), names); Ok(Listing(l)))
    ensures Segments(path) in t && t[Segments(path)].File?
            ==> r.Ok? && r.value.Loaded? && r.value.file.encoding == "base64"
                && Base64.Decode(r.value.file.content) == Ok(t[Segments(path)].data)
  {
    var p := Strip(path, '/');
    SegmentsStrip(path);
    var l := Segments(p);
    if l !in t then Err(Http(404))
    else if t[l].Dir? then
      var entries :- GetDirectoryContents(root, t, p, names);
      Ok(Listing(entries))
    else
      Ok(Loaded(GetFileContents(root, t, p).value))
  }

  // ----- rename_file -----

  /** `rename_file(src, dest)`: 404 for a missing source, 400 for a
      destination whose directory is missing or that already exists, then
      `os.rename` (whose errors escape) and the summary of the destination. */
  function RenameFile(root: string, t: Tree, src: string, dst: string): (r: Outcome<Summary>)
    ensures var s, d := Segments(src), Segments(dst);
            && (r.result == Err(Http(404)) <==> s !in t)
            && (r.result == Err(Http(400)) <==> s in t && ((d != [] && Parent(d) !in t) || d in t))
            && (r.result == Err(Os(EACCES)) <==> s in t && d !in t && d != [] && IsDir(t, Parent(d))
                                                  && !IsPrefix(s, d) && !RenameAllowed(t, s, d))
            && (r.result.Err? ==> r.tree == t)
            && (r.result.Ok? ==> Rename(t, s, d).Ok? && r.tree == Rename(t, s, d).value
                                 && r.result == GetSummary(root, r.tree, dst)
                                 && r.result.value.lastModified == t[s].stamp.mtime)
  {
    var s, d := Segments(src), Segments(dst);
    if s !in t then Outcome(t, Err(Http(404)))
    else if d != [] && Parent(d) !in t then Outcome(t, Err(Http(400)))
    else if d in t then Outcome(t, Err(Http(400)))
    else
      var moved := Rename(t, s, d);
      if moved.Err? then Outcome(t, Err(Os(moved.error)))
      else
        RenameLands(t, s, d);
        Outcome(moved.value, GetSummary(root, moved.value, dst))
  }

  /** A successful rename re-roots the source subtree at the destination,
      changes nothing else, and keeps the tree valid. */
  lemma RenameFileEffect(root: string, t: Tree, src: string, dst: string)
    requires Valid(t) && RenameFile(root, t, src, dst).result.Ok?
    ensures var r := RenameFile(root, t, src, dst);
            MovedTree(t, Segments(src), Segments(dst), r.tree) && Valid(r.tree)
            && Segments(dst) in r.tree && r.tree[Segments(dst)] == t[Segments(src)]
  {
    var s, d := Segments(src), Segments(dst);
    RenameEffect(t, s, d);
    RenameValid(t, s, d);
    assert s[|s|..] == [];
    assert d + s[|s|..] == d;
  }

  // ----- create_file -----

  /** All steps of the directory walk find what they need: each location
      the walk visits exists, as a directory where the OS path ends in a
      slash. */
  predicate ParentsReady(t: Tree, d: Location, parts: seq<string>)
    decreases |parts|
  {
    parts == []
    || (var trailing := parts[0] == "";
        var d2 := if trailing then d else d + [parts[0]];
        d2 in t && (!trailing || t[d2].Dir?) && ParentsReady(t, d2, parts[1..]))
  }

  /** The directory walk of `create_file`: join each piece onto the
      location so far and `os.mkdir` it when `os.path.exists` says it is
      missing. An empty piece only appends a slash, and a slash after a
      file makes it look missing. The first failing `mkdir` stops the walk,
      keeping the directories already made. */
  function MakeParents(t: Tree, d: Location, parts: seq<string>, env: Env): (r: Outcome<()>)
    ensures forall k :: k in t ==> k in r.tree && r.tree[k] == t[k]
    ensures r.result.Ok? ==> ParentsReady(r.tree, d, parts)
    ensures r.result.Err? ==> r.result.error.Os?
    decreases |parts|
  {
    if parts == [] then Outcome(t, Ok(()))
    else
      var trailing := parts[0] == "";
      var d2 := if trailing then d else d + [parts[0]];
      if d2 in t && (!trailing || t[d2].Dir?) then MakeParents(t, d2, parts[1..], env)
      else
        var made := Mkdir(t, d2, env);
        if made.Err? then Outcome(t, Err(Os(made.error)))
        else MakeParents(made.value, d2, parts[1..], env)
  }

  /** A walk that finds everything in place changes nothing. */
  lemma {:induction false} MakeParentsReady(t: Tree, d: Location, parts: seq<string>, env: Env)
    requires ParentsReady(t, d, parts)
    ensures MakeParents(t, d, parts, env) == Outcome(t, Ok(()))
    decreases |parts|
  {
    if parts != [] {
      var d2 := if parts[0] == "" then d else d + [parts[0]];
      MakeParentsReady(t, d2, parts[1..], env);
    }
  }

  /** Every node of `t` is still in `u`, and every directory is still a
      directory. */
  predicate KeepsDirs(t: Tree, u: Tree) {
    forall k :: k in t ==> k in u && (t[k].Dir? ==> u[k].Dir?)
  }

  /** A walk that finds everything in place still does so once nodes are
      added and files rewritten. */
  lemma {:induction false} ParentsReadyKept(t: Tree, u: Tree, d: Location, parts: seq<string>)
    requires ParentsReady(t, d, parts) && KeepsDirs(t, u)
    ensures ParentsReady(u, d, parts)
    decreases |parts|
  {
    if parts != [] {
      var d2 := if parts[0] == "" then d else d + [parts[0]];
      ParentsReadyKept(t, u, d2, parts[1..]);
    }
  }

  /** The walk keeps a tree valid, even when it stops early. */
  lemma {:induction false} MakeParentsValid(t: Tree, d: Location, parts: seq<string>, env: Env)
    requires Valid(t) && AllSegments(d)
    requires forall i :: 0 <= i < |parts| ==> '/' !in parts[i]
    ensures Valid(MakeParents(t, d, parts, env).tree)
    decreases |parts|
  {
    if parts != [] {
      var trailing := parts[0] == "";
      var d2 := if trailing then d else d + [parts[0]];
      assert AllSegments(d2);
      if !(d2 in t && (!trailing || t[d2].Dir?)) {
        var made := Mkdir(t, d2, env);
        if made.Ok? {
          MkdirValid(t, d2, env);
          MakeParentsValid(made.value, d2, parts[1..], env);
        }
      } else {
        MakeParentsValid(t, d2, parts[1..], env);
      }
    }
  }

  /** `create_file(model, path)` with the model's base64 content: make the
      directories named before the last slash, then store the file. */
  function CreateFile(root: string, t: Tree, content: string, path: string, env: Env): (r: Outcome<Summary>)
    ensures r.result.Ok? ==>
              var l := Segments(path);
              Base64.Decode(content).Ok? && l in r.tree && r.tree[l] == File(Base64.Decode(content).value, env.now)
              && l != [] && IsDir(r.tree, Parent(l))
              && r.result == GetSummary(root, r.tree, path)
    ensures r.result == Err(BadPayload) <==> MakeParents(t, [], DirPieces(path), env).result.Ok? && Base64.Decode(content).Err?
  {
    var made := MakeParents(t, [], DirPieces(path), env);
    if made.result.Err? then Outcome(made.tree, Err(made.result.error))
    else Store(root, made.tree, content, path, env)
  }

  /** Decode the payload, write the bytes and summarise the file; a payload
      that is not base64 fails before anything is written. */
  function Store(root: string, t: Tree, content: string, path: string, env: Env): (r: Outcome<Summary>)
    ensures r.result.Ok? ==>
              var l := Segments(path);
              Base64.Decode(content).Ok? && l in r.tree && r.tree[l] == File(Base64.Decode(content).value, env.now)
              && l != [] && IsDir(r.tree, Parent(l))
              && r.result == GetSummary(root, r.tree, path)
    ensures r.result == Err(BadPayload) <==> Base64.Decode(content).Err?
    ensures r.result.Err? ==> r.tree == t
    ensures r.result.Ok? ==> KeepsDirs(t, r.tree)
                             && forall k :: k in t && k != Segments(path) ==> r.tree[k] == t[k]
  {
    var data := Base64.Decode(content);
    if data.Err? then Outcome(t, Err(BadPayload))
    else
      var written := WriteFile(t, Segments(path), data.value, env);
      if written.Err? then Outcome(t, Err(Os(written.error)))
      else Outcome(written.value, GetSummary(root, written.value, path))
  }

  /** Storing the same file again changes nothing. */
  lemma StoreIdempotent(root: string, t: Tree, content: string, path: string, env: Env)
    requires Store(root, t, content, path, env).result.Ok?
    ensures var r := Store(root, t, content, path, env);
            Store(root, r.tree, content, path, env) == r
  {
    var l := Segments(path);
    var data := Base64.Decode(content).value;
    var w := WriteFile(t, l, data, env);
    assert w.Ok?;
    var t2 := w.value;
    assert Store(root, t, content, path, env) == Outcome(t2, GetSummary(root, t2, path));
    WriteFileAgain(t, l, data, env);
  }

  /** `path.split('/')[:-1]`: the pieces before the last slash. */
  function DirPieces(path: string): (r: seq<string>)
    ensures forall i :: 0 <= i < |r| ==> '/' !in r[i]
  {
    var parts := Split(path, '/');
    parts[..|parts| - 1]
  }

  /** Reading a created file back gives base64 content that decodes to the
      bytes the payload carried. */
  lemma CreateFileReadBack(root: string, t: Tree, content: string, path: string, env: Env)
    requires CreateFile(root, t, content, path, env).result.Ok?
    ensures var r := GetFileContents(root, CreateFile(root, t, content, path, env).tree, path);
            r.Ok? && r.value.encoding == "base64"
            && Base64.Decode(r.value.content) == Base64.Decode(content)
  {
  }

  /** Creating the same file twice leaves the tree and the answer of the
      first time. */
  lemma CreateFileIdempotent(root: string, t: Tree, content: string, path: string, env: Env)
    requires CreateFile(root, t, content, path, env).result.Ok?
    ensures var r := CreateFile(root, t, content, path, env);
            CreateFile(root, r.tree, content, path, env) == r
  {
    var made := MakeParents(t, [], DirPieces(path), env);
    assert made.result.Ok?;
    var r := Store(root, made.tree, content, path, env);
    assert CreateFile(root, t, content, path, env) == r;
    ParentsReadyKept(made.tree, r.tree, [], DirPieces(path));
    MakeParentsReady(r.tree, [], DirPieces(path), env);
    StoreIdempotent(root, made.tree, content, path, env);
  }

  /** `create_file` keeps the tree valid, whether it succeeds or stops
      part-way. */
  lemma CreateFileValid(root: string, t: Tree, content: string, path: string, env: Env)
    requires Valid(t)
    ensures Valid(CreateFile(root, t, content, path, env).tree)
  {
    MakeParentsValid(t, [], DirPieces(path), env);
    var made := MakeParents(t, [], DirPieces(path), env);
    var data := Base64.Decode(content);
    if made.result.Ok? && data.Ok? && WriteFile(made.tree, Segments(path), data.value, env).Ok? {
      WriteFileValid(made.tree, Segments(path), data.value, env);
    }
  }
}

=== FILE: filetree.dfy ===
/** The storage tree under the content root, and the operating-system calls
    the managers make on it: `os.stat`, `os.path.isdir`/`exists`,
    `os.mkdir`, `os.makedirs`, `shutil.rmtree`, `os.remove`, `os.rename`
    and writing a file. A node is addressed by its location: the names of
    the directories from the root down to it. */
module FileTree {
  import opened Results
  import opened Strings
  import Base64

  type byte = Base64.byte

  type Location = seq<string>

  /** The `st_mtime` and `st_ctime` of a node, as opaque numbers. */
  datatype Stamp = Stamp(mtime: int, ctime: int)

  /** A directory carries the size `os.stat` reports for it and whether
      entries may be created in or removed from it. */
  datatype Node =
    | Dir(stamp: Stamp, statSize: nat, writable: bool)
    | File(data: seq<byte>, stamp: Stamp)

  type Tree = map<Location, Node>

  datatype Errno = ENOENT | EEXIST | EACCES | ENOTDIR | EISDIR | EINVAL

  /** What the system gives a node it creates: its timestamps and, for a
      directory, its `st_size`. */
  datatype Env = Env(now: Stamp, dirSize: nat)

  function NewDir(env: Env): Node {
    Dir(env.now, env.dirSize, true)
  }

  /** `st_size`: the byte count of a file, the reported size of a directory. */
  function StatSize(n: Node): nat {
    if n.File? then |n.data| else n.statSize
  }

  function Parent(l: Location): Location
    requires l != []
  {
    l[..|l| - 1]
  }

  predicate IsPrefix(p: Location, l: Location) {
    |p| <= |l| && l[..|p|] == p
  }

  predicate IsDir(t: Tree, l: Location) {
    l in t && t[l].Dir?
  }

  /** A well-formed tree: the root is a directory, every name is a proper
      segment, and every other node sits in a directory that exists. */
  predicate Valid(t: Tree) {
    IsDir(t, [])
    && forall l :: l in t && l != [] ==> AllSegments(l) && IsDir(t, Parent(l))
  }

  lemma {:induction false} PrefixClosed(t: Tree, l: Location, n: nat)
    requires Valid(t) && l in t && n <= |l|
    ensures IsDir(t, l[..n]) || n == |l|
    ensures l[..n] in t
    decreases |l| - n
  {
    if n < |l| {
      if n + 1 < |l| {
        PrefixClosed(t, l, n + 1);
        assert Parent(l[..n + 1]) == l[..n];
      } else {
        assert l[..n] == Parent(l);
      }
    } else {
      assert l[..n] == l;
    }
  }

  /** No node lies below a location that is not in a valid tree. */
  lemma NoOrphans(t: Tree, l: Location, k: Location)
    requires Valid(t) && l !in t && IsPrefix(l, k)
    ensures k !in t
  {
    if k in t {
      PrefixClosed(t, k, |l|);
    }
  }

  // ----- looking a location up -----

  /** Resolving `l` meets a file before its last name. */
  predicate BelowFile(t: Tree, l: Location) {
    exists i :: 0 <= i < |l| && l[..i] in t && t[l[..i]].File?
  }

  /** Why the system finds no node at `l` (`os.stat`, `os.listdir`): a
      name on the way that is a file gives ENOTDIR, a missing one ENOENT. */
  function LookupErrno(t: Tree, l: Location): Errno {
    if BelowFile(t, l) then ENOTDIR else ENOENT
  }

  /** In a valid tree a missing location lies below a file exactly when
      its deepest existing prefix is a file. */
  lemma BelowFileDeepest(t: Tree, l: Location)
    requires Valid(t) && l !in t
    ensures DeepestExisting(t, l) in t
    ensures BelowFile(t, l) <==> t[DeepestExisting(t, l)].File?
  {
    var d := DeepestExisting(t, l);
    assert d in t;
    if t[d].File? {
      assert l[..|d|] == d;
    }
    if BelowFile(t, l) {
      var i :| 0 <= i < |l| && l[..i] in t && t[l[..i]].File?;
      assert i <= |d|;
      if i < |d| {
        PrefixClosed(t, d, i);
        assert d[..i] == l[..i];
      } else {
        assert l[..i] == d;
      }
    }
  }

  // ----- os.mkdir and os.makedirs -----

  /** `os.mkdir(l)` */
  function Mkdir(t: Tree, l: Location, env: Env): (r: Result<Tree, Errno>)
    ensures r.Ok? <==> l !in t && l != [] && IsDir(t, Parent(l)) && t[Parent(l)].writable
    ensures r.Ok? ==> r.value.Keys == t.Keys + {l} && r.value[l] == NewDir(env)
                      && forall k :: k in t ==> r.value[k] == t[k]
    ensures r == Err(EEXIST) <==> l in t
  {
    if l in t then Err(EEXIST)
    else if l == [] || Parent(l) !in t then Err(ENOENT)
    else if !t[Parent(l)].Dir? then Err(ENOTDIR)
    else if !t[Parent(l)].writable then Err(EACCES)
    else Ok(t[l := NewDir(env)])
  }

  lemma MkdirValid(t: Tree, l: Location, env: Env)
    requires Valid(t) && AllSegments(l) && Mkdir(t, l, env).Ok?
    ensures Valid(Mkdir(t, l, env).value)
  {
  }

  /** The longest prefix of `l` present in the tree. */
  function DeepestExisting(t: Tree, l: Location): (d: Location)
    ensures IsPrefix(d, l)
    ensures d in t || d == []
    ensures forall i :: |d| < i <= |l| ==> l[..i] !in t
  {
    if l in t || l == [] then l
    else
      var d := DeepestExisting(t, Parent(l));
      assert forall i :: |d| < i < |l| ==> l[..i] == Parent(l)[..i];
      assert l[..|l|] == l;
      d
  }

  /** `os.makedirs(l)`: create the missing ancestors first (an ancestor that
      turns out to exist is tolerated), then `os.mkdir(l)` itself. */
  function Makedirs(t: Tree, l: Location, env: Env): (r: Result<Tree, Errno>)
    decreases |l|
  {
    if l != [] && Parent(l) !in t then
      match Makedirs(t, Parent(l), env)
      case Err(e) => if e == EEXIST then Mkdir(t, l, env) else Err(e)
      case Ok(t2) => Mkdir(t2, l, env)
    else Mkdir(t, l, env)
  }

  /** What a successful `makedirs` did: every prefix of `l` is now a
      directory, the old nodes are untouched, and each new node is a fresh
      directory on the way to `l`. */
  predicate MadeDirs(t: Tree, l: Location, env: Env, t2: Tree) {
    (forall i :: 0 <= i <= |l| ==> IsDir(t2, l[..i]) || i == 0)
    && (forall k :: k in t ==> k in t2 && t2[k] == t[k])
    && (forall k :: k in t2 && k !in t ==> IsPrefix(k, l) && k != [] && t2[k] == NewDir(env))
  }

  lemma {:induction false} MakedirsEffect(t: Tree, l: Location, env: Env)
    requires Valid(t)
    ensures Makedirs(t, l, env).Ok? ==> l !in t && MadeDirs(t, l, env, Makedirs(t, l, env).value)
    ensures Makedirs(t, l, env) == Err(EEXIST) <==> l in t
    decreases |l|
  {
    var r := Makedirs(t, l, env);
    if l != [] && Parent(l) !in t {
      var p := Parent(l);
      MakedirsEffect(t, p, env);
      NoOrphans(t, p, l);
      var inner := Makedirs(t, p, env);
      if inner.Ok? {
        var t2 := inner.value;
        if r.Ok? {
          forall i | 0 <= i <= |l| ensures IsDir(r.value, l[..i]) || i == 0 {
            if i < |l| {
              assert l[..i] == p[..i];
            } else {
              assert l[..i] == l;
            }
          }
          forall k | k in r.value && k !in t
            ensures IsPrefix(k, l) && k != [] && r.value[k] == NewDir(env)
          {
            if k != l {
              assert k in t2;
              assert IsPrefix(k, p);
            }
          }
        }
        assert r == Err(EEXIST) ==> l in t2;
      }
    } else {
      if r.Ok? {
        forall i | 0 <= i <= |l| ensures IsDir(r.value, l[..i]) || i == 0 {
          if i < |l| {
            PrefixClosed(t, Parent(l), i);
            assert l[..i] == Parent(l)[..i];
          } else {
            assert l[..i] == l;
          }
        }
      }
    }
  }

  /** `makedirs` succeeds exactly when the target is missing and its
      deepest existing ancestor is a writable directory. */
  lemma {:induction false} MakedirsSucceeds(t: Tree, l: Location, env: Env)
    requires Valid(t)
    ensures var d := DeepestExisting(t, l);
            Makedirs(t, l, env).Ok? <==> l !in t && IsDir(t, d) && t[d].writable
    decreases |l|
  {
    if l != [] && Parent(l) !in t {
      MakedirsSucceeds(t, Parent(l), env);
      MakedirsEffect(t, Parent(l), env);
      NoOrphans(t, Parent(l), l);
      var inner := Makedirs(t, Parent(l), env);
      if inner.Ok? {
        assert IsDir(inner.value, Parent(l));
      }
    }
  }

  /** Why `makedirs` fails on a missing target: its deepest existing
      ancestor is a read-only directory (EACCES) or a file (ENOTDIR). */
  lemma {:induction false} MakedirsError(t: Tree, l: Location, env: Env)
    requires Valid(t) && l !in t
    ensures var d := DeepestExisting(t, l);
            var r := Makedirs(t, l, env);
            r.Err? ==> d in t && ((r.error == EACCES && t[d].Dir? && !t[d].writable)
                                  || (r.error == ENOTDIR && t[d].File?))
    decreases |l|
  {
    assert l != [];
    if Parent(l) !in t {
      MakedirsError(t, Parent(l), env);
      MakedirsEffect(t, Parent(l), env);
      var inner := Makedirs(t, Parent(l), env);
      if inner.Ok? {
        var t2 := inner.value;
        assert t2[Parent(l)] == NewDir(env);
      }
    }
  }

  lemma MakedirsValid(t: Tree, l: Location, env: Env)
    requires Valid(t) && AllSegments(l) && Makedirs(t, l, env).Ok?
    ensures Valid(Makedirs(t, l, env).value)
  {
    MakedirsEffect(t, l, env);
    var t2 := Makedirs(t, l, env).value;
    forall k | k in t2 && k != []
      ensures AllSegments(k) && IsDir(t2, Parent(k))
    {
      if k !in t {
        assert IsPrefix(k, l);
        assert IsDir(t2, l[..|k| - 1]) || |k| - 1 == 0;
        assert Parent(k) == l[..|k| - 1];
        forall i | 0 <= i < |k| ensures IsSegment(k[i]) {
          assert k[i] == l[i];
        }
      }
    }
  }

  // ----- removal -----

  /** The tree without `l` and everything below it. */
  function RemoveSubtree(t: Tree, l: Location): (r: Tree)
    ensures forall k :: k in r <==> k in t && !IsPrefix(l, k)
    ensures forall k :: k in r ==> r[k] == t[k]
  {
    map k | k in t && !IsPrefix(l, k) :: t[k]
  }

  /** Removing a directory's content needs that directory writable, and
      removing `l` itself needs its parent writable. */
  predicate RemovalAllowed(t: Tree, l: Location) {
    (l == [] || (Parent(l) in t && t[Parent(l)].Dir? && t[Parent(l)].writable))
    && forall k :: k in t && IsPrefix(l, k) && k != l ==>
         Parent(k) in t && t[Parent(k)].Dir? && t[Parent(k)].writable
  }

  /** `shutil.rmtree(l)`: its first `os.listdir` fails on a missing path
      (ENOENT, or ENOTDIR below a file) and on a file (ENOTDIR); otherwise
      the whole subtree goes. */
  function Rmtree(t: Tree, l: Location): (r: Result<Tree, Errno>)
    ensures r == Err(ENOENT) <==> l !in t && !BelowFile(t, l)
    ensures r == Err(ENOTDIR) <==> (l in t && t[l].File?) || (l !in t && BelowFile(t, l))
    ensures r.Ok? ==> IsDir(t, l) && r.value == RemoveSubtree(t, l)
  {
    if l !in t then Err(LookupErrno(t, l))
    else if t[l].File? then Err(ENOTDIR)
    else if !RemovalAllowed(t, l) then Err(EACCES)
    else Ok(RemoveSubtree(t, l))
  }

  /** `os.remove(l)` on a file. */
  function RemoveFile(t: Tree, l: Location): (r: Result<Tree, Errno>)
    ensures r == Err(ENOENT) <==> l !in t && !BelowFile(t, l)
    ensures r.Ok? ==> l in t && t[l].File? && r.value == RemoveSubtree(t, l)
  {
    if l !in t then Err(LookupErrno(t, l))
    else if t[l].Dir? then Err(EISDIR)
    else if !RemovalAllowed(t, l) then Err(EACCES)
    else Ok(RemoveSubtree(t, l))
  }

  /** Removing anything but the root keeps a tree valid. */
  lemma RemoveSubtreeValid(t: Tree, l: Location)
    requires Valid(t) && l != []
    ensures Valid(RemoveSubtree(t, l))
  {
    var r := RemoveSubtree(t, l);
    forall k | k in r && k != [] ensures IsDir(r, Parent(k)) {
      assert IsDir(t, Parent(k));
    }
    assert !IsPrefix(l, []);
  }

  // ----- os.rename -----

  /** The node at `dst + s` for each node at `src + s`. */
  function Moved(t: Tree, src: Location, dst: Location): (m: Tree)
    ensures forall k :: k in t && IsPrefix(src, k) ==> dst + k[|src|..] in m && m[dst + k[|src|..]] == t[k]
    ensures forall k :: k in m ==> IsPrefix(dst, k) && src + k[|dst|..] in t && m[k] == t[src + k[|dst|..]]
  {
    var keys := set j | j in t && IsPrefix(src, j) :: dst + j[|src|..];
    forall k | k in keys ensures IsPrefix(dst, k) && src + k[|dst|..] in t {
      var j :| j in t && IsPrefix(src, j) && k == dst + j[|src|..];
      assert k[|dst|..] == j[|src|..];
      assert j == src + j[|src|..];
    }
    var m := map k | k in keys :: t[src + k[|dst|..]];
    forall k | k in t && IsPrefix(src, k) ensures dst + k[|src|..] in m && m[dst + k[|src|..]] == t[k] {
      assert (dst + k[|src|..])[|dst|..] == k[|src|..];
      assert k == src + k[|src|..];
    }
    m
  }

  /** The subtree at `src` re-rooted at `dst`, everything else in place. */
  function MoveSubtree(t: Tree, src: Location, dst: Location): Tree {
    RemoveSubtree(t, src) + Moved(t, src, dst)
  }

  /** What `rename(2)` needs write permission on: the directories holding
      the source and the destination, and a directory that changes parent
      (its ".." entry is rewritten). Nothing below the source matters. */
  predicate RenameAllowed(t: Tree, src: Location, dst: Location)
    requires src != [] && dst != []
  {
    IsDir(t, Parent(src)) && t[Parent(src)].writable
    && IsDir(t, Parent(dst)) && t[Parent(dst)].writable
    && (IsDir(t, src) && Parent(src) != Parent(dst) ==> t[src].writable)
  }

  /** `os.rename(src, dst)` for a destination that does not exist. */
  function Rename(t: Tree, src: Location, dst: Location): (r: Result<Tree, Errno>)
    ensures r.Ok? ==> src in t && dst !in t && dst != [] && IsDir(t, Parent(dst))
                      && !IsPrefix(src, dst) && r.value == MoveSubtree(t, src, dst)
    ensures r == Err(EACCES) <==> src in t && dst !in t && dst != [] && IsDir(t, Parent(dst))
                                  && !IsPrefix(src, dst) && !RenameAllowed(t, src, dst)
  {
    if src !in t then Err(LookupErrno(t, src))
    else if dst in t then Err(EEXIST)
    else if dst == [] || Parent(dst) !in t then Err(LookupErrno(t, dst))
    else if !t[Parent(dst)].Dir? then Err(ENOTDIR)
    else if IsPrefix(src, dst) then Err(EINVAL)
    else if !RenameAllowed(t, src, dst) then Err(EACCES)
    else Ok(MoveSubtree(t, src, dst))
  }

  /** A read-only directory inside a moved directory does not stop the
      move: only the directories that gain or lose an entry are checked. */
  lemma RenameSkipsInnerPermissions(t: Tree, src: Location, dst: Location, inner: Location)
    requires Valid(t) && IsDir(t, src) && t[src].writable && src != []
    requires dst !in t && dst != [] && IsDir(t, Parent(dst)) && t[Parent(dst)].writable
    requires t[Parent(src)].writable && !IsPrefix(src, dst)
    requires IsPrefix(src, inner) && inner != src && IsDir(t, inner) && !t[inner].writable
    ensures Rename(t, src, dst).Ok?
  {
  }

  /** The source node itself lands at the destination. */
  lemma RenameLands(t: Tree, src: Location, dst: Location)
    requires Rename(t, src, dst).Ok?
    ensures dst in Rename(t, src, dst).value && Rename(t, src, dst).value[dst] == t[src]
  {
    assert dst + src[|src|..] == dst;
  }

  /** `r` is `t` with the subtree at `src` re-rooted at `dst` and nothing
      else changed. */
  predicate MovedTree(t: Tree, src: Location, dst: Location, r: Tree) {
    src !in r
    && (forall k :: k in t && IsPrefix(src, k) ==> dst + k[|src|..] in r && r[dst + k[|src|..]] == t[k])
    && (forall k :: k in t && !IsPrefix(src, k) ==> k in r && r[k] == t[k])
    && (forall k :: k in r ==> (k in t && !IsPrefix(src, k)) || (IsPrefix(dst, k) && src + k[|dst|..] in t))
  }

  /** What a rename does: the source subtree appears under the destination
      and nothing else changes. */
  lemma RenameEffect(t: Tree, src: Location, dst: Location)
    requires Valid(t) && Rename(t, src, dst).Ok?
    ensures MovedTree(t, src, dst, Rename(t, src, dst).value)
  {
    var r := Rename(t, src, dst).value;
    forall k | k in t && !IsPrefix(src, k) ensures k in r && r[k] == t[k] {
      if IsPrefix(dst, k) {
        NoOrphans(t, dst, k);
      }
    }
    assert src != [];
    if src in r {
      assert IsPrefix(dst, src);
      NoOrphans(t, dst, src);
    }
  }

  /** Where a node below the source lands, and where its parent lands. */
  lemma MovedLocation(src: Location, dst: Location, j: Location)
    requires AllSegments(dst) && AllSegments(j) && IsPrefix(src, j)
    ensures AllSegments(dst + j[|src|..])
    ensures j == src ==> dst + j[|src|..] == dst
    ensures j != src ==> IsPrefix(src, Parent(j))
                         && Parent(dst + j[|src|..]) == dst + Parent(j)[|src|..]
  {
    var k := dst + j[|src|..];
    forall i | 0 <= i < |k| ensures IsSegment(k[i]) {
      if i >= |dst| {
        assert k[i] == j[|src| + i - |dst|];
      }
    }
    if j != src {
      assert |j| > |src|;
      assert Parent(j)[..|src|] == j[..|src|];
    }
  }

  lemma MovedNodeValid(t: Tree, src: Location, dst: Location, r: Tree, k: Location)
    requires Valid(t) && AllSegments(dst) && dst != [] && IsDir(t, Parent(dst)) && !IsPrefix(src, Parent(dst))
    requires MovedTree(t, src, dst, r)
    requires k in r && IsPrefix(dst, k) && src + k[|dst|..] in t
    ensures AllSegments(k) && IsDir(r, Parent(k))
  {
    var j := src + k[|dst|..];
    assert IsPrefix(src, j);
    assert j[|src|..] == k[|dst|..];
    assert k == dst + j[|src|..];
    MovedLocation(src, dst, j);
    if j != src {
      assert Parent(j) in t;
    }
  }

  lemma MoveValid(t: Tree, src: Location, dst: Location, r: Tree)
    requires Valid(t) && AllSegments(dst) && src != [] && dst != []
    requires IsDir(t, Parent(dst)) && !IsPrefix(src, dst)
    requires MovedTree(t, src, dst, r)
    ensures Valid(r)
  {
    assert !IsPrefix(src, []);
    assert !IsPrefix(src, Parent(dst));
    forall k | k in r && k != [] ensures AllSegments(k) && IsDir(r, Parent(k)) {
      if k in t && !IsPrefix(src, k) {
        KeptNodeValid(t, src, dst, r, k);
      } else {
        MovedNodeValid(t, src, dst, r, k);
      }
    }
  }

  lemma KeptNodeValid(t: Tree, src: Location, dst: Location, r: Tree, k: Location)
    requires Valid(t) && src != [] && MovedTree(t, src, dst, r)
    requires k in t && k != [] && !IsPrefix(src, k)
    ensures AllSegments(k) && IsDir(r, Parent(k))
  {
    assert !IsPrefix(src, Parent(k));
  }

  lemma RenameValid(t: Tree, src: Location, dst: Location)
    requires Valid(t) && AllSegments(dst) && Rename(t, src, dst).Ok?
    ensures Valid(Rename(t, src, dst).value)
  {
    RenameEffect(t, src, dst);
    MoveValid(t, src, dst, Rename(t, src, dst).value);
  }

  // ----- writing a file -----

  /** `open(l, 'w').write(data)`: a directory cannot be opened for writing;
      a new file needs a writable parent directory. */
  function WriteFile(t: Tree, l: Location, data: seq<byte>, env: Env): (r: Result<Tree, Errno>)
    ensures r.Ok? ==> l != [] && IsDir(t, Parent(l)) && !IsDir(t, l)
    ensures r.Ok? ==> r.value.Keys == t.Keys + {l} && r.value[l] == File(data, env.now)
                      && forall k :: k in t && k != l ==> r.value[k] == t[k]
    ensures r == Err(EISDIR) <==> IsDir(t, l)
  {
    if IsDir(t, l) then Err(EISDIR)
    else if l == [] || Parent(l) !in t then Err(ENOENT)
    else if !t[Parent(l)].Dir? then Err(ENOTDIR)
    else if l !in t && !t[Parent(l)].writable then Err(EACCES)
    else Ok(t[l := File(data, env.now)])
  }

  /** Writing the same bytes again at the same moment changes nothing. */
  lemma WriteFileAgain(t: Tree, l: Location, data: seq<byte>, env: Env)
    requires WriteFile(t, l, data, env).Ok?
    ensures var t2 := WriteFile(t, l, data, env).value;
            WriteFile(t2, l, data, env) == Ok(t2)
  {
    var t2 := WriteFile(t, l, data, env).value;
    assert Parent(l) != l;
    assert IsDir(t2, Parent(l)) && l in t2 && !IsDir(t2, l);
    assert t2[l := File(data, env.now)] == t2;
  }

  lemma WriteFileValid(t: Tree, l: Location, data: seq<byte>, env: Env)
    requires Valid(t) && AllSegments(l) && WriteFile(t, l, data, env).Ok?
    ensures Valid(WriteFile(t, l, data, env).value)
  {
    var r := WriteFile(t, l, data, env).value;
    forall k | k in r && k != [] ensures IsDir(r, Parent(k)) {
      if k in t {
        assert Parent(k) != l;
      }
    }
  }

  // ----- os.listdir -----

  /** `names` is what `os.listdir(dir)` returns: each child of `dir`
      exactly once, in some order. */
  predicate IsListing(t: Tree, dir: Location, names: seq<string>) {
    (forall i :: 0 <= i < |names| ==> IsSegment(names[i]) && dir + [names[i]] in t)
    && (forall i, j :: 0 <= i < j < |names| ==> names[i] != names[j])
    && (forall k :: k in t && |k| == |dir| + 1 && IsPrefix(dir, k) ==> k[|dir|] in names)
  }
}

=== FILE: json.dfy ===
/** JSON values as Python's `json` module hands them to the schema code, and
    JSON Pointer evaluation (section 4 of RFC 6901) over them. */
module Json {
  import opened Results
  import opened Strings

  /** A JSON value. Objects keep their entries in dictionary iteration order,
      which decides which error `resolve_ref` meets first. Numbers are
      integers. */
  datatype Json =
    | JNull
    | JBool(b: bool)
    | JNum(n: int)
    | JStr(s: string)
    | JArr(items: seq<Json>)
    | JObj(entries: seq<(string, Json)>)

  function Keys(entries: seq<(string, Json)>): seq<string> {
    seq(|entries|, i requires 0 <= i < |entries| => entries[i].0)
  }

  /** Python truthiness: `not x` holds of null, false, 0, "", [] and {}. */
  predicate Falsy(j: Json) {
    match j
    case JNull => true
    case JBool(b) => !b
    case JNum(n) => n == 0
    case JStr(s) => s == ""
    case JArr(items) => items == []
    case JObj(entries) => entries == []
  }

  /** `d[key]` on a dictionary: the value of the first entry with that key.
      A Python dictionary never holds a key twice; an entry list may, and
      then only the first entry is ever found. */
  function Lookup(entries: seq<(string, Json)>, key: string): (r: Option<Json>)
    ensures r.Some? <==> key in Keys(entries)
    ensures r.Some? ==> exists i :: 0 <= i < |entries| && entries[i] == (key, r.value)
  {
    if |entries| == 0 then None
    else if entries[0].0 == key then
      assert Keys(entries)[0] == key;
      Some(entries[0].1)
    else
      var r := Lookup(entries[1..], key);
      assert Keys(entries) == [entries[0].0] + Keys(entries[1..]);
      if r.Some? then
        ghost var i :| 0 <= i < |entries[1..]| && entries[1..][i] == (key, r.value);
        assert entries[i + 1] == (key, r.value);
        r
      else r
  }

  // ----- JSON Pointer -----

  datatype PointerError =
    | NotRooted          // a non-empty pointer must start with '/'
    | NoSuchMember       // an object lacks the referenced member
    | BadIndex           // an array token that is not a decimal index
    | IndexOutOfRange    // an array index past the end (including "-")
    | NotIndexable       // a token applied to a scalar

  /** Reference-token unescaping, section 4 of RFC 6901: first "~1" becomes
      "/", then "~0" becomes "~". */
  function Unescape(token: string): string {
    Replace(Replace(token, "~1", "/"), "~0", "~")
  }

  /** Token escaping, section 3 of RFC 6901: "~" is written "~0" and "/"
      is written "~1". */
  function Escape(token: string): (r: string)
    ensures '/' !in r
  {
    if |token| == 0 then ""
    else
      var head := if token[0] == '~' then "~0" else if token[0] == '/' then "~1" else [token[0]];
      head + Escape(token[1..])
  }

  function UnescapeAll(parts: seq<string>): (r: seq<string>)
    ensures |r| == |parts|
  {
    if parts == [] then [] else [Unescape(parts[0])] + UnescapeAll(parts[1..])
  }

  function EscapeAll(tokens: seq<string>): (r: seq<string>)
    ensures |r| == |tokens| && forall i :: 0 <= i < |r| ==> '/' !in r[i]
  {
    if tokens == [] then [] else [Escape(tokens[0])] + EscapeAll(tokens[1..])
  }

  /** Splits a pointer into its unescaped reference tokens. */
  function ParsePointer(pointer: string): Result<seq<string>, PointerError> {
    var parts := Split(pointer, '/');
    if parts[0] != "" then Err(NotRooted)
    else Ok(UnescapeAll(parts[1..]))
  }

  /** Writes a token list as a pointer string. */
  function RenderPointer(tokens: seq<string>): string {
    if tokens == [] then "" else "/" + Join(EscapeAll(tokens), '/')
  }

  /** An array index token: "0" or a digit string without a leading zero. */
  predicate IsArrayIndex(token: string) {
    |token| >= 1 && (forall i :: 0 <= i < |token| ==> IsDigit(token[i]))
    && (token[0] == '0' ==> |token| == 1)
  }

  /** Evaluates reference tokens against a document, one level per token. */
  function Evaluate(doc: Json, tokens: seq<string>): (r: Result<Json, PointerError>)
    ensures tokens == [] ==> r == Ok(doc)
    decreases |tokens|
  {
    if tokens == [] then Ok(doc)
    else
      var t := tokens[0];
      match doc
      case JObj(entries) =>
        var v := Lookup(entries, t);
        if v.None? then Err(NoSuchMember) else Evaluate(v.value, tokens[1..])
      case JArr(items) =>
        if t == "-" then Err(IndexOutOfRange)
        else if !IsArrayIndex(t) then Err(BadIndex)
        else
          var k := ParseDecimal(t);
          if k >= |items| then Err(IndexOutOfRange) else Evaluate(items[k], tokens[1..])
      case _ => Err(NotIndexable)
  }

  /** `jsonpointer.resolve_pointer(doc, pointer)` */
  function ResolvePointer(doc: Json, pointer: string): Result<Json, PointerError> {
    var tokens :- ParsePointer(pointer);
    Evaluate(doc, tokens)
  }

  // ----- the escaping round trip -----

  /** Escapes only "~"; the state between the two unescaping passes. */
  function EscapeTilde(token: string): string {
    if |token| == 0 then ""
    else (if token[0] == '~' then "~0" else [token[0]]) + EscapeTilde(token[1..])
  }

  lemma {:induction false} UnescapeSlashes(token: string)
    ensures Replace(Escape(token), "~1", "/") == EscapeTilde(token)
  {
    if |token| > 0 {
      var rest := Escape(token[1..]);
      var tail := EscapeTilde(token[1..]);
      UnescapeSlashes(token[1..]);
      if token[0] == '/' {
        calc {
          Replace(Escape(token), "~1", "/");
          Replace("~1" + rest, "~1", "/");
          { ReplaceHit(rest, "~1", "/"); }
          "/" + tail;
          EscapeTilde(token);
        }
      } else if token[0] == '~' {
        assert Escape(token) == "~0" + rest;
        assert EscapeTilde(token) == "~0" + tail;
        EscapedTildeKept(rest, tail);
      } else {
        calc {
          Replace(Escape(token), "~1", "/");
          Replace([token[0]] + rest, "~1", "/");
          { ReplaceSkip(token[0], rest, "~1", "/"); }
          [token[0]] + tail;
          EscapeTilde(token);
        }
      }
    }
  }

  /** An escaped tilde is not an escaped slash. */
  lemma EscapedTildeKept(rest: string, tail: string)
    requires Replace(rest, "~1", "/") == tail
    ensures Replace("~0" + rest, "~1", "/") == "~0" + tail
  {
    var s := "~0" + rest;
    assert s[1] == '0';
    ReplaceMiss(s, "~1", "/");
    assert s[1..] == ['0'] + rest;
    ReplaceSkip('0', rest, "~1", "/");
    assert ['~'] + (['0'] + tail) == "~0" + tail;
  }

  lemma {:induction false} UnescapeTildes(token: string)
    ensures Replace(EscapeTilde(token), "~0", "~") == token
  {
    if |token| > 0 {
      var rest := EscapeTilde(token[1..]);
      UnescapeTildes(token[1..]);
      if token[0] == '~' {
        ReplaceHit(rest, "~0", "~");
      } else {
        ReplaceSkip(token[0], rest, "~0", "~");
      }
      assert [token[0]] + token[1..] == token;
    }
  }

  /** Unescaping undoes escaping. */
  lemma EscapeRoundTrip(token: string)
    ensures Unescape(Escape(token)) == token
  {
    UnescapeSlashes(token);
    UnescapeTildes(token);
  }

  /** Every token list, rendered as a pointer, parses back to itself. */
  lemma {:induction false} UnescapeEscapeAll(tokens: seq<string>)
    ensures UnescapeAll(EscapeAll(tokens)) == tokens
  {
    if tokens != [] {
      UnescapeEscapeAll(tokens[1..]);
      EscapeRoundTrip(tokens[0]);
      assert EscapeAll(tokens)[1..] == EscapeAll(tokens[1..]);
    }
  }

  lemma PointerRoundTrip(tokens: seq<string>)
    ensures ParsePointer(RenderPointer(tokens)) == Ok(tokens)
  {
    if tokens != [] {
      var escaped := EscapeAll(tokens);
      var body := Join(escaped, '/');
      var parts := Split(RenderPointer(tokens), '/');
      assert parts == [""] + escaped by {
        assert RenderPointer(tokens) == "" + ['/'] + body;
        SplitAround("", '/', body);
        SplitJoin(escaped, '/');
      }
      assert parts[1..] == escaped;
      UnescapeEscapeAll(tokens);
    } else {
      assert Split("", '/') == [""];
    }
  }

  /** A one-token pointer to a member whose name needs no escaping. */
  lemma SingleTokenPointer(name: string)
    requires IsSegment(name) && '~' !in name
    ensures ParsePointer("/" + name) == Ok([name])
  {
    SplitAround("", '/', name);
    SplitWithoutSep(name, '/');
    assert "" + ['/'] + name == "/" + name;
    var parts := Split("/" + name, '/');
    assert parts == ["", name];
    ReplaceAbsent(name, "~1", "/");
    ReplaceAbsent(name, "~0", "~");
    assert Unescape(parts[1]) == name;
    assert parts[1..] == [name];
    assert UnescapeAll([name]) == [name];
  }
}

=== FILE: nbmanager.dfy ===
/** The notebook manager base class: splitting a URL path into a notebook
    name and the directory holding it, and the naming done by the generic
    create and copy operations, whose storage calls are left to subclasses. */
module NbManager {
  import opened Results
  import opened Strings
  import opened Json
  import opened Service

  // ----- named_notebook_path -----

  /** `"/".join([''] + segs) + '/'`: a directory URL path. */
  function DirPath(segs: seq<string>): string {
    Join([""] + segs, '/') + "/"
  }

  /** A directory URL path starts and ends with a slash and designates
      exactly the segments it was built from. */
  lemma DirPathSegments(segs: seq<string>)
    requires AllSegments(segs)
    ensures var d := DirPath(segs);
            StartsWith(d, "/") && EndsWith(d, "/") && Segments(d) == segs
  {
    var j := Join([""] + segs, '/');
    if segs == [] {
      assert j == "";
      SegmentsTrailingSlash("");
      SegmentsOfEmpty();
    } else {
      assert ([""] + segs)[1..] == segs;
      assert j == "/" + Join(segs, '/');
      SegmentsTrailingSlash(j);
      SegmentsLeadingSlash(Join(segs, '/'));
      SegmentsOfJoin(segs);
    }
  }

  /** `named_notebook_path(notebook_path)`: the last non-empty segment is
      the notebook name when it carries the notebook extension; the path is
      what lies before the name, always starting and ending with '/'. */
  function NamedNotebookPath(notebookPath: string): (r: (Option<string>, string))
    ensures StartsWith(r.1, "/") && EndsWith(r.1, "/")
    ensures var segs := Segments(notebookPath);
            && (r.0.Some? <==> segs != [] && EndsWith(segs[|segs| - 1], Notebook))
            && (r.0.Some? ==> r.0.value == segs[|segs| - 1] && Segments(r.1) == segs[..|segs| - 1])
            && (r.0.None? ==> Segments(r.1) == segs)
  {
    var segs := Segments(notebookPath);
    var names := [""] + segs;
    if EndsWith(names[|names| - 1], Notebook) then
      assert segs != [];
      assert names[..|names| - 1] == [""] + segs[..|segs| - 1];
      DirPathSegments(segs[..|segs| - 1]);
      (Some(names[|names| - 1]), DirPath(segs[..|segs| - 1]))
    else
      DirPathSegments(segs);
      (None, DirPath(segs))
  }

  /** A name after a directory URL path is one more segment. */
  lemma DirPathThenName(segs: seq<string>, name: string)
    requires AllSegments(segs) && IsSegment(name)
    ensures Segments(DirPath(segs) + name) == segs + [name]
  {
    var x := Join([""] + segs, '/');
    assert DirPath(segs) + name == x + "/" + name;
    SegmentsAround(x, name);
    DirPathSegments(segs);
    SegmentsTrailingSlash(x);
    SegmentOfSegment(name);
  }

  /** Only the non-empty segments matter: doubled, leading and trailing
      slashes change nothing. */
  lemma NamedNotebookPathSlashes(a: string, b: string)
    ensures NamedNotebookPath(a + "//" + b) == NamedNotebookPath(a + "/" + b)
    ensures NamedNotebookPath("/" + a) == NamedNotebookPath(a)
    ensures NamedNotebookPath(a + "/") == NamedNotebookPath(a)
  {
    SegmentsDoubledSlash(a, b);
    SegmentsLeadingSlash(a);
    SegmentsTrailingSlash(a);
  }

  /** Splitting what a split returned gives the same answer: the path and
      name of a notebook, or the directory path alone. */
  lemma NamedNotebookPathIdempotent(notebookPath: string)
    ensures var (name, path) := NamedNotebookPath(notebookPath);
            && (name.Some? ==> NamedNotebookPath(path + name.value) == (name, path))
            && (name.None? ==> NamedNotebookPath(path) == (None, path))
  {
    var (name, path) := NamedNotebookPath(notebookPath);
    var segs := Segments(notebookPath);
    if name.Some? {
      var init := segs[..|segs| - 1];
      assert path == DirPath(init);
      DirPathThenName(init, name.value);
      assert init + [name.value] == segs;
    }
  }

  /** The empty path names no notebook and stands for the root. */
  lemma NamedNotebookPathEmpty()
    ensures NamedNotebookPath("") == (None, "/")
  {
    SegmentsOfEmpty();
    assert Join([""], '/') == "";
  }

  // ----- naming in create and copy -----

  /** The base `increment_filename`: a store without unique-name needs
      keeps the name it is given. */
  function BaseIncrementFilename(name: string, path: string): (r: string)
    ensures r == name
  {
    name
  }

  /** The call `save_notebook_model(model, name, path)` a creation ends in;
      saving itself belongs to a concrete store. */
  datatype SaveCall = SaveCall(model: Json, name: string, path: string)

  /** `create_notebook_model(model, path)`: the name comes from `increment`
      applied to "Untitled"; without a model, a fresh one holding `blank`
      (the new empty notebook), that name and the path is saved. */
  function CreateNotebookModel(model: Option<Json>, path: string, increment: (string, string) -> string, blank: Json)
    : (r: SaveCall)
    ensures r.name == increment("Untitled", path) && r.path == path
    ensures model.Some? ==> r.model == model.value
    ensures model.None? ==> r.model.JObj?
                            && Lookup(r.model.entries, "name") == Some(JStr(r.name))
                            && Lookup(r.model.entries, "path") == Some(JStr(path))
                            && Lookup(r.model.entries, "content") == Some(blank)
                            && Keys(r.model.entries) == ["content", "name", "path"]
  {
    var name := increment("Untitled", path);
    if model.Some? then SaveCall(model.value, name, path)
    else
      var entries := [("content", blank), ("name", JStr(name)), ("path", JStr(path))];
      FreshModel(blank, name, path);
      SaveCall(JObj(entries), name, path)
  }

  /** The three entries of a fresh model, in the order they are set. */
  lemma FreshModel(blank: Json, name: string, path: string)
    ensures var entries := [("content", blank), ("name", JStr(name)), ("path", JStr(path))];
            && Lookup(entries, "content") == Some(blank)
            && Lookup(entries, "name") == Some(JStr(name))
            && Lookup(entries, "path") == Some(JStr(path))
            && Keys(entries) == ["content", "name", "path"]
  {
    var entries := [("content", blank), ("name", JStr(name)), ("path", JStr(path))];
    assert entries[1..] == [("name", JStr(name)), ("path", JStr(path))];
    assert entries[1..][1..] == [("path", JStr(path))];
    assert "content"[0] != "path"[0] && "name"[0] != "path"[0];
    assert Lookup(entries[1..][1..], "path") == Some(JStr(path));
    assert Lookup(entries[1..], "path") == Some(JStr(path));
  }

  /** With the base `increment_filename` a new notebook is saved as
      "Untitled" under the requested path. */
  lemma BaseCreateNotebookModel(path: string, blank: Json)
    ensures var r := CreateNotebookModel(None, path, BaseIncrementFilename, blank);
            r.name == "Untitled" && Lookup(r.model.entries, "name") == Some(JStr("Untitled"))
  {
  }

  /** `d[key] = value` on a dictionary: the first entry with that key gets
      the new value in place, or a new entry goes last. */
  function SetEntry(entries: seq<(string, Json)>, key: string, value: Json): (r: seq<(string, Json)>)
    ensures |entries| <= |r| <= |entries| + 1
  {
    if |entries| == 0 then [(key, value)]
    else if entries[0].0 == key then [(key, value)] + entries[1..]
    else [entries[0]] + SetEntry(entries[1..], key, value)
  }

  /** After the assignment the key holds the new value and every other key
      its old one. */
  lemma {:induction false} SetEntryLookup(entries: seq<(string, Json)>, key: string, value: Json)
    ensures var r := SetEntry(entries, key, value);
            Lookup(r, key) == Some(value) && forall k :: k != key ==> Lookup(r, k) == Lookup(entries, k)
  {
    var r := SetEntry(entries, key, value);
    if |entries| > 0 {
      assert r[1..] == if entries[0].0 == key then entries[1..] else SetEntry(entries[1..], key, value);
      if entries[0].0 != key {
        SetEntryLookup(entries[1..], key, value);
      }
    }
  }

  /** The assignment keeps the key order, appending a new key last. */
  lemma {:induction false} SetEntryKeys(entries: seq<(string, Json)>, key: string, value: Json)
    ensures var r := SetEntry(entries, key, value);
            && (key in Keys(entries) ==> Keys(r) == Keys(entries))
            && (key !in Keys(entries) ==> Keys(r) == Keys(entries) + [key])
  {
    var r := SetEntry(entries, key, value);
    if |entries| == 0 {
      assert Keys(r) == [key];
    } else {
      assert Keys(entries) == [entries[0].0] + Keys(entries[1..]);
      assert Keys(r) == [r[0].0] + Keys(r[1..]);
      if entries[0].0 != key {
        SetEntryKeys(entries[1..], key, value);
      }
    }
  }

  datatype CopyError = NoMetadata

  /** `nb.metadata.name = name` on a notebook node: a notebook without a
      metadata dictionary has no attribute to set. */
  function SetMetadataName(nb: Json, name: string): (r: Result<Json, CopyError>)
    ensures r.Ok? <==> nb.JObj? && Lookup(nb.entries, "metadata").Some? && Lookup(nb.entries, "metadata").value.JObj?
    ensures r.Ok? ==> r.value.JObj? && Keys(r.value.entries) == Keys(nb.entries)
                      && (forall k :: k != "metadata" ==> Lookup(r.value.entries, k) == Lookup(nb.entries, k))
                      && var m := Lookup(r.value.entries, "metadata");
                         m.Some? && m.value.JObj? && Lookup(m.value.entries, "name") == Some(JStr(name))
                         && forall k :: k != "name" ==> Lookup(m.value.entries, k) == Lookup(Lookup(nb.entries, "metadata").value.entries, k)
  {
    if !nb.JObj? then Err(NoMetadata)
    else
      match Lookup(nb.entries, "metadata")
      case None => Err(NoMetadata)
      case Some(meta) =>
        if !meta.JObj? then Err(NoMetadata)
        else
          var meta2 := JObj(SetEntry(meta.entries, "name", JStr(name)));
          SetEntryLookup(meta.entries, "name", JStr(name));
          SetEntryLookup(nb.entries, "metadata", meta2);
          SetEntryKeys(nb.entries, "metadata", meta2);
          Ok(JObj(SetEntry(nb.entries, "metadata", meta2)))
  }

  /** The call `write_notebook_object(nb, path)` a copy ends in. */
  datatype WriteCall = WriteCall(nb: Json, path: string)

  /** `copy_notebook(name, path)` given the notebook `nb` that
      `read_notebook_object` returned: the copy is named by `increment`
      applied to the name with "-Copy" appended, the name goes into the
      notebook's metadata, and the notebook is written to the same path. */
  function CopyNotebook(nb: Json, name: string, path: string, increment: (string, string) -> string)
    : (r: Result<WriteCall, CopyError>)
    ensures r.Ok? <==> SetMetadataName(nb, increment(name + "-Copy", path)).Ok?
    ensures r.Ok? ==> r.value.path == path
                      && r.value.nb == SetMetadataName(nb, increment(name + "-Copy", path)).value
  {
    var copyName := increment(name + "-Copy", path);
    var renamed :- SetMetadataName(nb, copyName);
    Ok(WriteCall(renamed, path))
  }

  /** With the base `increment_filename`, the copy of "a" is named "a-Copy"
      in its metadata and nothing else in the notebook changes. */
  lemma BaseCopyNotebook(nb: Json, name: string, path: string)
    requires SetMetadataName(nb, name + "-Copy").Ok?
    ensures var r := CopyNotebook(nb, name, path, BaseIncrementFilename);
            r.Ok? && r.value.path == path
            && var m := Lookup(r.value.nb.entries, "metadata").value;
               Lookup(m.entries, "name") == Some(JStr(name + "-Copy"))
               && Keys(r.value.nb.entries) == Keys(nb.entries)
  {
  }

  /** The default `list_checkpoints`: a store without checkpoints has none
      to list. */
  function ListCheckpoints(name: string, path: string): (r: seq<string>)
    ensures |r| == 0
  {
    []
  }
}

=== FILE: paths.dfy ===
/** Path addressing: how an API path (slash-separated, relative to the
    content root) and an optional item name become an OS path string, and
    which node of the storage tree that string designates. */
module Paths {
  import opened Results
  import opened Strings

  /** One step of `posixpath.join`: an absolute piece restarts the path, a
      piece after an empty path or a trailing slash is appended as is,
      anything else is appended after a '/'. */
  function JoinStep(path: string, b: string): string {
    if StartsWith(b, "/") then b
    else if path == "" || EndsWith(path, "/") then path + b
    else path + "/" + b
  }

  /** `os.path.join(a, *ps)` on a POSIX system. */
  function OsJoin(a: string, ps: seq<string>): string
    decreases |ps|
  {
    if |ps| == 0 then a else OsJoin(JoinStep(a, ps[0]), ps[1..])
  }

  /** The pieces `get_os_path` hands to `os.path.join`: the non-empty
      segments of `path`, then `fname` when one is given. */
  function Parts(fname: Option<string>, path: string): seq<string> {
    Segments(path) + (if fname.Some? then [fname.value] else [])
  }

  /** `get_os_path(fname, path)` of the contents and notebook managers.
      With no segment and no name the result is the root itself. */
  function GetOsPath(root: string, fname: Option<string>, path: string): (r: string)
    ensures Segments(path) == [] && fname.None? ==> r == root
  {
    OsJoin(root, Parts(fname, path))
  }

  /** The tree node the OS reaches through `GetOsPath(root, fname, path)`:
      empty segments vanish, and a name containing slashes descends
      further. */
  function Locate(fname: Option<string>, path: string): (loc: seq<string>)
    ensures AllSegments(loc)
  {
    Segments(path) + (if fname.Some? then Segments(fname.value) else [])
  }

  /** Conditions under which the OS path string is the root, a slash and
      the joined parts: a non-empty root without a trailing slash, and a
      name that is not itself absolute. */
  predicate PlainRoot(root: string) {
    root != "" && root[|root| - 1] != '/'
  }

  predicate RelativeName(fname: Option<string>) {
    fname.None? || !StartsWith(fname.value, "/")
  }

  lemma {:induction false} OsJoinShape(x: string, ps: seq<string>)
    requires PlainRoot(x)
    requires |ps| >= 1
    requires AllSegments(ps[..|ps| - 1])
    requires !StartsWith(ps[|ps| - 1], "/")
    ensures OsJoin(x, ps) == x + "/" + Join(ps, '/')
    decreases |ps|
  {
    var p0 := ps[0];
    if |ps| == 1 {
      assert JoinStep(x, p0) == x + "/" + p0;
    } else {
      assert IsSegment(ps[..|ps| - 1][0]);
      assert !StartsWith(p0, "/") by {
        assert p0[0] != '/' by { assert p0[0] in p0; }
      }
      assert JoinStep(x, p0) == x + "/" + p0;
      var y := x + "/" + p0;
      assert y[|y| - 1] == p0[|p0| - 1];
      assert p0[|p0| - 1] in p0;
      assert ps[1..][..|ps[1..]| - 1] == ps[..|ps| - 1][1..];
      OsJoinShape(y, ps[1..]);
    }
  }

  /** Shape of `get_os_path`: the root when there are no parts, otherwise
      the root, a slash, and the parts joined by slashes. */
  lemma GetOsPathShape(root: string, fname: Option<string>, path: string)
    requires PlainRoot(root) && RelativeName(fname)
    ensures var ps := Parts(fname, path);
            GetOsPath(root, fname, path)
            == if ps == [] then root else root + "/" + Join(ps, '/')
  {
    var ps := Parts(fname, path);
    if ps != [] {
      var segs := Segments(path);
      if fname.Some? {
        assert ps[..|ps| - 1] == segs;
      } else {
        assert ps[..|ps| - 1] == segs[..|segs| - 1];
        assert ps[|ps| - 1] == segs[|segs| - 1];
        assert IsSegment(segs[|segs| - 1]);
        assert ps[|ps| - 1][0] in ps[|ps| - 1];
      }
      OsJoinShape(root, ps);
    }
  }

  /** `os.path.join` from an empty root or one ending in a slash: the
      parts are appended without a separator in front. */
  lemma OsJoinOpen(x: string, ps: seq<string>)
    requires x == "" || EndsWith(x, "/")
    requires |ps| >= 1
    requires AllSegments(ps[..|ps| - 1])
    requires !StartsWith(ps[|ps| - 1], "/")
    ensures OsJoin(x, ps) == x + Join(ps, '/')
  {
    if |ps| == 1 {
      OsJoinFirst(x, ps);
      assert ps[1..] == [];
    } else {
      var rest := ps[1..];
      assert IsSegment(ps[..|ps| - 1][0]);
      assert rest[..|rest| - 1] == ps[..|ps| - 1][1..];
      assert rest[|rest| - 1] == ps[|ps| - 1];
      assert ps == [ps[0]] + rest;
      OsJoinOpenStep(x, ps[0], rest);
    }
  }

  /** A segment first, then the remaining parts after a slash. */
  lemma OsJoinOpenStep(x: string, p0: string, rest: seq<string>)
    requires x == "" || EndsWith(x, "/")
    requires IsSegment(p0) && |rest| >= 1
    requires AllSegments(rest[..|rest| - 1])
    requires !StartsWith(rest[|rest| - 1], "/")
    ensures OsJoin(x, [p0] + rest) == x + Join([p0] + rest, '/')
  {
    SegmentNotAbsolute(p0);
    OsJoinFirst(x, [p0] + rest);
    assert ([p0] + rest)[1..] == rest;
    SegmentEnds(x, p0);
    OsJoinShape(x + p0, rest);
    JoinCons(p0, rest, '/');
  }

  /** The first join step from an empty root or one ending in a slash. */
  lemma OsJoinFirst(x: string, ps: seq<string>)
    requires x == "" || EndsWith(x, "/")
    requires |ps| >= 1 && !StartsWith(ps[0], "/")
    ensures OsJoin(x, ps) == OsJoin(x + ps[0], ps[1..])
  {
  }

  lemma SegmentNotAbsolute(p: string)
    requires IsSegment(p)
    ensures !StartsWith(p, "/")
  {
    assert p[0] in p;
  }

  /** A path ending in a segment is a plain root. */
  lemma SegmentEnds(x: string, p: string)
    requires IsSegment(p)
    ensures PlainRoot(x + p)
  {
    var y := x + p;
    assert y[|y| - 1] == p[|p| - 1];
    assert p[|p| - 1] in p;
  }

  /** The OS path string lies under the root, and the part after the root
      designates exactly `Locate(fname, path)`, whatever the spelling of
      the root. */
  lemma GetOsPathLocates(root: string, fname: Option<string>, path: string)
    requires RelativeName(fname)
    ensures var r := GetOsPath(root, fname, path);
            |root| <= |r| && r[..|root|] == root
            && Segments(r[|root|..]) == Locate(fname, path)
  {
    var r := GetOsPath(root, fname, path);
    var ps := Parts(fname, path);
    var segs := Segments(path);
    if ps == [] {
      assert fname.None? && segs == [];
      assert r == root;
      assert r[|root|..] == "";
    } else {
      var tail := Join(ps, '/');
      if PlainRoot(root) {
        GetOsPathShape(root, fname, path);
        assert r == root + "/" + tail;
        assert r[..|root|] == root;
        assert r[|root|..] == "/" + tail;
        SegmentsLeadingSlash(tail);
      } else {
        PartsShape(fname, path);
        OsJoinOpen(root, ps);
        assert r == root + tail;
        assert r[..|root|] == root;
        assert r[|root|..] == tail;
      }
      if fname.Some? {
        assert ps == segs + [fname.value];
        SegmentsOfJoinThen(segs, fname.value);
      } else {
        assert ps == segs;
        SegmentsOfJoin(segs);
      }
    }
  }

  /** All parts but the last are segments, and the last is not absolute
      when the name is relative. */
  lemma PartsShape(fname: Option<string>, path: string)
    requires RelativeName(fname) && Parts(fname, path) != []
    ensures var ps := Parts(fname, path);
            AllSegments(ps[..|ps| - 1]) && !StartsWith(ps[|ps| - 1], "/")
  {
    var ps := Parts(fname, path);
    var segs := Segments(path);
    if fname.Some? {
      assert ps[..|ps| - 1] == segs;
    } else {
      assert ps[..|ps| - 1] == segs[..|segs| - 1];
      assert ps[|ps| - 1] == segs[|segs| - 1];
      assert IsSegment(segs[|segs| - 1]);
      assert ps[|ps| - 1][0] in ps[|ps| - 1];
    }
  }

  /** Extra, leading or trailing slashes in the API path do not move the
      OS path. */
  lemma GetOsPathSlashInsensitive(root: string, fname: Option<string>, a: string, b: string)
    ensures GetOsPath(root, fname, a + "//" + b) == GetOsPath(root, fname, a + "/" + b)
    ensures GetOsPath(root, fname, "/" + a) == GetOsPath(root, fname, a)
    ensures GetOsPath(root, fname, a + "/") == GetOsPath(root, fname, a)
  {
    SegmentsDoubledSlash(a, b);
    SegmentsLeadingSlash(a);
    SegmentsTrailingSlash(a);
  }
}

=== FILE: results.dfy ===
/** Option and Result, the failure-carrying wrappers every other module uses.
    A Python function that raises is modelled as one returning `Err`. */
module Results {

  datatype Option<+T> = None | Some(value: T)

  datatype Result<+T, +E> = Ok(value: T) | Err(error: E) {

    predicate IsFailure() {
      Err?
    }

    function PropagateFailure<U>(): Result<U, E>
      requires Err?
    {
      Err(error)
    }

    function Extract(): T
      requires Ok?
    {
      value
    }
  }

  /** Applies `f` to each element in order, stopping at the first failure:
      a Python loop that raises on the first bad element. */
  function MapResults<A, B, E>(f: A -> Result<B, E>, xs: seq<A>): (r: Result<seq<B>, E>)
    ensures r.Ok? <==> forall i :: 0 <= i < |xs| ==> f(xs[i]).Ok?
    ensures r.Err? ==> exists i :: 0 <= i < |xs| && f(xs[i]) == Err(r.error)
    ensures r.Ok? ==> |r.value| == |xs| && forall i :: 0 <= i < |xs| ==> r.value[i] == f(xs[i]).value
    decreases |xs|
  {
    if |xs| == 0 then Ok([])
    else
      var head := f(xs[0]);
      var rest := MapResults(f, xs[1..]);
      if head.Err? then Err(head.error)
      else if rest.Err? then
        ghost var i :| 0 <= i < |xs[1..]| && f(xs[1..][i]) == Err(rest.error);
        assert f(xs[i + 1]) == Err(rest.error);
        Err(rest.error)
      else
        var r := [head.value] + rest.value;
        assert forall i :: 1 <= i < |xs| ==> xs[i] == xs[1..][i - 1] && r[i] == rest.value[i - 1];
        Ok(r)
  }
}

=== FILE: service.dfy ===
/** Vocabulary shared by the contents and file managers: the kinds of entry
    a model reports, how a request fails, and the tree a request leaves
    behind. */
module Service {
  import opened Results
  import opened FileTree

  datatype ContentType = DirType | NotebookType | FileType

  /** A request ends in an HTTP error raised on purpose, in an OS error the
      code does not catch (a server error), or in a payload that does not
      decode. */
  datatype Failure = Http(status: nat) | Os(errno: Errno) | BadPayload

  /** The tree after a request, together with its answer: a failed request
      may still have changed the tree. */
  datatype Outcome<T> = Outcome(tree: Tree, result: Result<T, Failure>)

  const Notebook := ".ipynb"
}

=== FILE: strings.dfy ===
/** The small slice of Python's `str` the storage layer relies on: `split`,
    `join`, `strip`, `startswith`/`endswith`, `replace` and `'%i' % n`, plus the
    "non-empty segments of a slash path" idiom every `get_os_path` repeats. */
module Strings {

  predicate StartsWith(s: string, prefix: string) {
    |prefix| <= |s| && s[..|prefix|] == prefix
  }

  predicate EndsWith(s: string, suffix: string) {
    |suffix| <= |s| && s[|s| - |suffix|..] == suffix
  }

  /** `sep.join(parts)` */
  function Join(parts: seq<string>, sep: char): string
  {
    if |parts| == 0 then ""
    else if |parts| == 1 then parts[0]
    else parts[0] + [sep] + Join(parts[1..], sep)
  }

  /** `s.split(sep)`: never empty, no piece contains `sep`, and joining the
      pieces back gives `s`. */
  function Split(s: string, sep: char): (parts: seq<string>)
    ensures |parts| >= 1
    ensures forall i :: 0 <= i < |parts| ==> sep !in parts[i]
    ensures Join(parts, sep) == s
    decreases |s|
  {
    if |s| == 0 then [""]
    else
      var rest := Split(s[1..], sep);
      if s[0] == sep then
        assert s == [sep] + s[1..];
        [""] + rest
      else
        var parts := [[s[0]] + rest[0]] + rest[1..];
        assert s == [s[0]] + s[1..];
        if |rest| == 1 then parts
        else
          assert Join(rest, sep) == rest[0] + [sep] + Join(rest[1..], sep);
          assert parts[1..] == rest[1..];
          parts
  }

  lemma {:induction false} SplitWithoutSep(s: string, sep: char)
    requires sep !in s
    ensures Split(s, sep) == [s]
    decreases |s|
  {
    if |s| > 0 {
      SplitWithoutSep(s[1..], sep);
      assert [s[0]] + s[1..] == s;
    }
  }

  /** Splitting distributes over a separator occurrence. */
  lemma {:induction false} SplitAround(a: string, sep: char, b: string)
    ensures Split(a + [sep] + b, sep) == Split(a, sep) + Split(b, sep)
    decreases |a|
  {
    var s := a + [sep] + b;
    if |a| == 0 {
      assert s == [sep] + b;
      assert s[1..] == b;
    } else {
      assert s[1..] == a[1..] + [sep] + b;
      SplitAround(a[1..], sep, b);
      if a[0] != sep {
        GlueFirst([a[0]], Split(a[1..], sep), Split(b, sep));
      }
    }
  }

  /** Gluing a prefix onto the first piece commutes with appending pieces. */
  lemma GlueFirst(x: string, ra: seq<string>, rb: seq<string>)
    requires |ra| >= 1
    ensures [x + (ra + rb)[0]] + (ra + rb)[1..] == ([x + ra[0]] + ra[1..]) + rb
  {
    assert (ra + rb)[1..] == ra[1..] + rb;
  }

  /** Splitting a join of separator-free pieces gives the pieces back. */
  lemma {:induction false} SplitJoin(parts: seq<string>, sep: char)
    requires |parts| >= 1
    requires forall i :: 0 <= i < |parts| ==> sep !in parts[i]
    ensures Split(Join(parts, sep), sep) == parts
  {
    if |parts| == 1 {
      SplitWithoutSep(parts[0], sep);
    } else {
      SplitWithoutSep(parts[0], sep);
      SplitJoin(parts[1..], sep);
      SplitAround(parts[0], sep, Join(parts[1..], sep));
      assert parts == [parts[0]] + parts[1..];
    }
  }

  /** Re-associating a sequence split after its first element. */
  lemma ConsConcat<T>(s: seq<T>, b: seq<T>)
    requires |s| >= 1
    ensures [s[0]] + (s[1..] + b) == s + b
  {
    assert s == [s[0]] + s[1..];
  }

  /** Joining a first piece before a non-empty rest puts a separator
      between them. */
  lemma JoinCons(head: string, rest: seq<string>, sep: char)
    requires |rest| >= 1
    ensures Join([head] + rest, sep) == head + [sep] + Join(rest, sep)
  {
    assert ([head] + rest)[1..] == rest;
  }

  /** The last piece of a join follows the last separator. */
  lemma {:induction false} JoinLast(parts: seq<string>, sep: char)
    requires |parts| >= 2
    ensures Join(parts, sep) == Join(parts[..|parts| - 1], sep) + [sep] + parts[|parts| - 1]
    decreases |parts|
  {
    if |parts| > 2 {
      JoinLast(parts[1..], sep);
      assert parts[1..][..|parts| - 2] == parts[..|parts| - 1][1..];
    }
  }

  /** A path with at least one piece is a head, a slash and the last piece. */
  lemma JoinAfter(x: string, parts: seq<string>)
    requires |parts| >= 1
    ensures x + "/" + Join(parts, '/')
            == (if |parts| == 1 then x else x + "/" + Join(parts[..|parts| - 1], '/')) + "/" + parts[|parts| - 1]
  {
    var j := Join(parts, '/');
    var last := parts[|parts| - 1];
    if |parts| >= 2 {
      var init := Join(parts[..|parts| - 1], '/');
      JoinLast(parts, '/');
      assert j == init + "/" + last;
      SlashAssoc(x, init, last);
    } else {
      assert j == last;
    }
  }

  lemma SlashAssoc(x: string, a: string, b: string)
    ensures x + "/" + (a + "/" + b) == (x + "/" + a) + "/" + b
  {
  }

  /** A suffix without slashes is decided by what follows the last slash. */
  lemma EndsWithAfterSlash(h: string, b: string, suffix: string)
    requires '/' !in suffix && '/' !in b
    ensures EndsWith(h + "/" + b, suffix) <==> EndsWith(b, suffix)
  {
    var s := h + "/" + b;
    if |suffix| <= |b| {
      assert s[|s| - |suffix|..] == b[|b| - |suffix|..];
    } else if |suffix| <= |s| {
      assert s[|s| - |suffix|..][|h| - (|s| - |suffix|)] == '/';
    }
  }

  /** The list comprehension `[p for p in parts if p != '']`. */
  function NonEmpty(parts: seq<string>): (r: seq<string>)
    ensures forall i :: 0 <= i < |r| ==> r[i] != ""
    ensures |r| <= |parts|
  {
    if |parts| == 0 then []
    else if parts[0] == "" then NonEmpty(parts[1..])
    else [parts[0]] + NonEmpty(parts[1..])
  }

  /** A character absent from every piece is absent from every kept piece. */
  lemma {:induction false} NonEmptyWithout(parts: seq<string>, c: char)
    requires forall i :: 0 <= i < |parts| ==> c !in parts[i]
    ensures forall i :: 0 <= i < |NonEmpty(parts)| ==> c !in NonEmpty(parts)[i]
  {
    if |parts| > 0 {
      NonEmptyWithout(parts[1..], c);
    }
  }

  /** Pieces ending in an empty one hold no segment at all or join to a
      text ending in a slash. */
  lemma EmptyLastPiece(parts: seq<string>)
    requires |parts| >= 1 && parts[|parts| - 1] == ""
    ensures NonEmpty(parts) == [] || EndsWith(Join(parts, '/'), "/")
  {
    if |parts| == 1 {
      NonEmptyOfBlank(parts);
    } else {
      JoinEmptyLast(parts);
    }
  }

  lemma JoinEmptyLast(parts: seq<string>)
    requires |parts| >= 2 && parts[|parts| - 1] == ""
    ensures EndsWith(Join(parts, '/'), "/")
  {
    var p, h := Join(parts, '/'), Join(parts[..|parts| - 1], '/');
    JoinLast(parts, '/');
    assert p == h + "/" + "";
    assert p == h + "/";
    assert p[|p| - 1..] == "/";
  }

  /** A lone empty piece is filtered away. */
  lemma NonEmptyOfBlank(parts: seq<string>)
    requires |parts| == 1 && parts[0] == ""
    ensures NonEmpty(parts) == []
  {
    assert NonEmpty(parts) == NonEmpty(parts[1..]);
  }

  lemma {:induction false} NonEmptyConcat(a: seq<string>, b: seq<string>)
    ensures NonEmpty(a + b) == NonEmpty(a) + NonEmpty(b)
  {
    if |a| > 0 {
      assert (a + b)[1..] == a[1..] + b;
      NonEmptyConcat(a[1..], b);
    } else {
      assert a + b == b;
    }
  }

  lemma {:induction false} NonEmptyIdentity(parts: seq<string>)
    requires forall i :: 0 <= i < |parts| ==> parts[i] != ""
    ensures NonEmpty(parts) == parts
  {
    if |parts| > 0 {
      NonEmptyIdentity(parts[1..]);
    }
  }

  /** A segment of a slash path: what survives `split('/')` and the
      empty-string filter. */
  predicate IsSegment(s: string) {
    s != "" && '/' !in s
  }

  predicate AllSegments(parts: seq<string>) {
    forall i :: 0 <= i < |parts| ==> IsSegment(parts[i])
  }

  /** `[p for p in s.split('/') if p != '']`: the segments of a slash path. */
  function Segments(s: string): (r: seq<string>)
    ensures AllSegments(r)
  {
    NonEmptyWithout(Split(s, '/'), '/');
    NonEmpty(Split(s, '/'))
  }

  /** The key fact behind slash-insensitivity: a slash splits the segments. */
  lemma SegmentsAround(a: string, b: string)
    ensures Segments(a + "/" + b) == Segments(a) + Segments(b)
  {
    SplitAround(a, '/', b);
    NonEmptyConcat(Split(a, '/'), Split(b, '/'));
  }

  lemma SegmentsOfEmpty()
    ensures Segments("") == []
  {
  }

  lemma SegmentsLeadingSlash(s: string)
    ensures Segments("/" + s) == Segments(s)
  {
    SegmentsAround("", s);
    assert "" + "/" + s == "/" + s;
  }

  /** Joined pieces and a slash have the non-empty pieces as segments. */
  lemma SegmentsOfJoinSlash(parts: seq<string>)
    requires |parts| >= 1 && forall i :: 0 <= i < |parts| ==> '/' !in parts[i]
    ensures Segments(Join(parts, '/') + "/") == NonEmpty(parts)
  {
    SegmentsTrailingSlash(Join(parts, '/'));
    SplitJoin(parts, '/');
  }

  lemma SegmentsTrailingSlash(s: string)
    ensures Segments(s + "/") == Segments(s)
  {
    SegmentsAround(s, "");
    assert s + "/" + "" == s + "/";
  }

  lemma SegmentsDoubledSlash(a: string, b: string)
    ensures Segments(a + "//" + b) == Segments(a + "/" + b)
  {
    calc {
      Segments(a + "//" + b);
      { assert a + "//" + b == a + "/" + ("/" + b); }
      Segments(a + "/" + ("/" + b));
      { SegmentsAround(a, "/" + b); }
      Segments(a) + Segments("/" + b);
      { SegmentsLeadingSlash(b); }
      Segments(a) + Segments(b);
      { SegmentsAround(a, b); }
      Segments(a + "/" + b);
    }
  }

  lemma SegmentOfSegment(s: string)
    requires IsSegment(s)
    ensures Segments(s) == [s]
  {
    SplitWithoutSep(s, '/');
  }

  /** Joining segments with '/' is undone by `Segments`. */
  lemma SegmentsOfJoin(parts: seq<string>)
    requires AllSegments(parts)
    ensures Segments(Join(parts, '/')) == parts
  {
    if |parts| == 0 {
    } else {
      SplitJoin(parts, '/');
      NonEmptyIdentity(parts);
    }
  }

  /** Joining segments followed by an arbitrary last piece: the last piece
      contributes its own segments. */
  lemma {:induction false} SegmentsOfJoinThen(parts: seq<string>, last: string)
    requires AllSegments(parts)
    ensures Segments(Join(parts + [last], '/')) == parts + Segments(last)
  {
    if |parts| == 0 {
      assert parts + [last] == [last];
    } else {
      var tail := parts[1..] + [last];
      var j := Join(tail, '/');
      assert Join(parts + [last], '/') == parts[0] + "/" + j by {
        assert parts + [last] == [parts[0]] + tail;
        JoinCons(parts[0], tail, '/');
      }
      assert Segments(parts[0] + "/" + j) == [parts[0]] + Segments(j) by {
        SegmentsAround(parts[0], j);
        SegmentOfSegment(parts[0]);
      }
      assert Segments(j) == parts[1..] + Segments(last) by {
        SegmentsOfJoinThen(parts[1..], last);
      }
      calc {
        Segments(Join(parts + [last], '/'));
        Segments(parts[0] + "/" + j);
        [parts[0]] + Segments(j);
        [parts[0]] + (parts[1..] + Segments(last));
        { ConsConcat(parts, Segments(last)); }
        parts + Segments(last);
      }
    }
  }

  /** `s.lstrip(c)` */
  function LStrip(s: string, c: char): (r: string)
    ensures |r| <= |s| && r == s[|s| - |r|..]
    ensures forall i :: 0 <= i < |s| - |r| ==> s[i] == c
    ensures |r| > 0 ==> r[0] != c
  {
    if |s| > 0 && s[0] == c then LStrip(s[1..], c) else s
  }

  /** `s.rstrip(c)` */
  function RStrip(s: string, c: char): (r: string)
    ensures |r| <= |s| && r == s[..|r|]
    ensures forall i :: |r| <= i < |s| ==> s[i] == c
    ensures |r| > 0 ==> r[|r| - 1] != c
  {
    if |s| > 0 && s[|s| - 1] == c then RStrip(s[..|s| - 1], c) else s
  }

  /** `s.strip(c)` */
  function Strip(s: string, c: char): string {
    RStrip(LStrip(s, c), c)
  }

  lemma {:induction false} SegmentsLStrip(s: string)
    ensures Segments(LStrip(s, '/')) == Segments(s)
    decreases |s|
  {
    if |s| > 0 && s[0] == '/' {
      SegmentsLStrip(s[1..]);
      SegmentsLeadingSlash(s[1..]);
      assert "/" + s[1..] == s;
    }
  }

  lemma {:induction false} SegmentsRStrip(s: string)
    ensures Segments(RStrip(s, '/')) == Segments(s)
    decreases |s|
  {
    if |s| > 0 && s[|s| - 1] == '/' {
      SegmentsRStrip(s[..|s| - 1]);
      SegmentsTrailingSlash(s[..|s| - 1]);
      assert s[..|s| - 1] + "/" == s;
    }
  }

  /** Stripping outer slashes never changes the segments. */
  lemma SegmentsStrip(s: string)
    ensures Segments(Strip(s, '/')) == Segments(s)
  {
    SegmentsLStrip(s);
    SegmentsRStrip(LStrip(s, '/'));
  }

  /** Appending a slash-free, non-empty piece to a path extends its last
      segment (or adds one). */
  lemma {:induction false} SplitAppendNoSep(a: string, d: string, sep: char)
    requires sep !in d
    ensures var pa := Split(a, sep);
            Split(a + d, sep) == pa[..|pa| - 1] + [pa[|pa| - 1] + d]
    decreases |a|
  {
    if |a| == 0 {
      SplitWithoutSep(d, sep);
      assert a + d == d;
    } else {
      assert (a + d)[1..] == a[1..] + d;
      SplitAppendNoSep(a[1..], d, sep);
    }
  }

  lemma SegmentsAppendNoSlash(a: string, d: string)
    requires IsSegment(d)
    ensures var pa := Split(a, '/');
            Segments(a + d) == NonEmpty(pa[..|pa| - 1]) + [pa[|pa| - 1] + d]
  {
    var pa := Split(a, '/');
    SplitAppendNoSep(a, d, '/');
    NonEmptyConcat(pa[..|pa| - 1], [pa[|pa| - 1] + d]);
  }

  /** Different slash-free suffixes on the same path give different
      segment lists. */
  lemma SegmentsAppendInjective(a: string, d1: string, d2: string)
    requires IsSegment(d1) && IsSegment(d2)
    requires Segments(a + d1) == Segments(a + d2)
    ensures d1 == d2
  {
    var pa := Split(a, '/');
    SegmentsAppendNoSlash(a, d1);
    SegmentsAppendNoSlash(a, d2);
    var s1 := Segments(a + d1);
    assert s1[|s1| - 1] == pa[|pa| - 1] + d1;
    assert pa[|pa| - 1] + d1 == pa[|pa| - 1] + d2;
    assert d1 == (pa[|pa| - 1] + d1)[|pa[|pa| - 1]|..];
  }

  // ----- `'%i' % n` for a non-negative integer -----

  predicate IsDigit(c: char) {
    '0' <= c <= '9'
  }

  function DigitChar(d: nat): (c: char)
    requires d < 10
    ensures IsDigit(c)
  {
    (('0' as int) + d) as char
  }

  function DigitValue(c: char): (d: nat)
    requires IsDigit(c)
    ensures d < 10
  {
    (c as int) - ('0' as int)
  }

  /** Decimal rendering: at least one digit, only digits, no leading zero. */
  function Decimal(n: nat): (r: string)
    ensures |r| >= 1
    ensures forall i :: 0 <= i < |r| ==> IsDigit(r[i])
    ensures r[0] == '0' ==> n == 0
  {
    if n < 10 then [DigitChar(n)] else Decimal(n / 10) + [DigitChar(n % 10)]
  }

  function ParseDecimal(s: string): nat
    requires forall i :: 0 <= i < |s| ==> IsDigit(s[i])
  {
    if |s| == 0 then 0
    else ParseDecimal(s[..|s| - 1]) * 10 + DigitValue(s[|s| - 1])
  }

  /** Parsing undoes the rendering, so the rendering is injective. */
  lemma {:induction false} DecimalRoundTrip(n: nat)
    ensures ParseDecimal(Decimal(n)) == n
  {
    if n >= 10 {
      DecimalRoundTrip(n / 10);
      var r := Decimal(n);
      assert r[..|r| - 1] == Decimal(n / 10);
    }
  }

  lemma DecimalInjective(m: nat, n: nat)
    requires Decimal(m) == Decimal(n)
    ensures m == n
  {
    DecimalRoundTrip(m);
    DecimalRoundTrip(n);
  }

  lemma DecimalIsSegment(n: nat)
    ensures IsSegment(Decimal(n))
  {
    var r := Decimal(n);
    assert forall i :: 0 <= i < |r| ==> r[i] != '/';
  }

  // ----- `s.replace(pat, rep)` -----

  /** Left-to-right, non-overlapping replacement of every occurrence. */
  function Replace(s: string, pat: string, rep: string): string
    requires |pat| > 0
    decreases |s|
  {
    if |s| < |pat| then s
    else if s[..|pat|] == pat then rep + Replace(s[|pat|..], pat, rep)
    else [s[0]] + Replace(s[1..], pat, rep)
  }

  lemma ReplaceSkip(c: char, s: string, pat: string, rep: string)
    requires |pat| > 0 && c != pat[0]
    ensures Replace([c] + s, pat, rep) == [c] + Replace(s, pat, rep)
  {
    var t := [c] + s;
    assert t[1..] == s;
    if |t| >= |pat| {
      assert t[..|pat|][0] == c;
    } else {
      assert |s| < |pat|;
    }
  }

  /** Where the pattern does not start, the first character is kept. */
  lemma ReplaceMiss(s: string, pat: string, rep: string)
    requires |pat| > 0 && |s| > 0 && !(|pat| <= |s| && s[..|pat|] == pat)
    ensures Replace(s, pat, rep) == [s[0]] + Replace(s[1..], pat, rep)
  {
  }

  lemma ReplaceHit(s: string, pat: string, rep: string)
    requires |pat| > 0
    ensures Replace(pat + s, pat, rep) == rep + Replace(s, pat, rep)
  {
    var t := pat + s;
    assert t[..|pat|] == pat;
    assert t[|pat|..] == s;
  }

  /** Nothing to replace when the pattern's first character never occurs. */
  lemma {:induction false} ReplaceAbsent(s: string, pat: string, rep: string)
    requires |pat| > 0 && pat[0] !in s
    ensures Replace(s, pat, rep) == s
  {
    if |s| > 0 {
      ReplaceAbsent(s[1..], pat, rep);
      ReplaceSkip(s[0], s[1..], pat, rep);
      assert [s[0]] + s[1..] == s;
    }
  }
}

=== FILE: validator.dfy ===
/** The notebook-schema validator: in-document `$ref` inlining
    (`resolve_ref`), draft selection by the schema's `$schema` URI, and the
    `validate` / `isvalid` pair. The JSON-Schema engine itself is a
    parameter. */
module Validator {
  import opened Results
  import opened Strings
  import opened Json

  datatype RefError =
    | SchemaError                // "$ref" next to other keys
    | BadPointer(e: PointerError) // the reference does not resolve
    | NonStringRef               // the "$ref" value is not a string
    | OutOfFuel                  // more nested references than the fuel allows

  /** An object of the exact shape `{"$ref": p}`. */
  predicate IsRefObject(j: Json) {
    j.JObj? && |j.entries| == 1 && j.entries[0].0 == "$ref"
  }

  /** No object anywhere inside `j` has a "$ref" key. */
  predicate RefFree(j: Json) {
    match j
    case JArr(items) => forall i :: 0 <= i < |items| ==> RefFree(items[i])
    case JObj(entries) =>
      "$ref" !in Keys(entries) && forall i :: 0 <= i < |entries| ==> RefFree(entries[i].1)
    case _ => true
  }

  /** `resolve_ref(node, schema=root)` for a truthy root; `ResolveRef`
      applies the falsy-schema rule before the first call. The fuel bounds how many references
      may be followed one inside another; Python keeps following them, so
      `OutOfFuel` stands for a resolution that never ends. */
  function Resolve(node: Json, root: Json, fuel: nat): (r: Result<Json, RefError>)
    ensures !node.JArr? && !node.JObj? ==> r == Ok(node)
    ensures node.JArr? && r.Ok? ==> r.value.JArr? && |r.value.items| == |node.items|
    ensures node.JObj? && !IsRefObject(node) && r.Ok?
            ==> r.value.JObj? && Keys(r.value.entries) == Keys(node.entries)
    ensures node.JObj? && "$ref" in Keys(node.entries) && !IsRefObject(node) ==> r.Err?
    decreases fuel, node, 1, 0
  {
    match node
    case JArr(items) =>
      var resolved :- ResolveItems(node, 0, root, fuel);
      Ok(JArr(resolved))
    case JObj(entries) =>
      if |entries| == 1 && entries[0].0 == "$ref" then
        if fuel == 0 then Err(OutOfFuel)
        else if !entries[0].1.JStr? then Err(NonStringRef)
        else
          match ResolvePointer(root, entries[0].1.s)
          case Err(e) => Err(BadPointer(e))
          case Ok(target) => Resolve(target, root, fuel - 1)
      else
        var resolved :- ResolveEntries(node, 0, root, fuel);
        Ok(JObj(resolved))
    case _ => Ok(node)
  }

  /** The list loop: resolves `items[i..]` in order, stopping at the first
      failure. */
  function ResolveItems(node: Json, i: nat, root: Json, fuel: nat): (r: Result<seq<Json>, RefError>)
    requires node.JArr? && i <= |node.items|
    ensures r.Ok? ==> |r.value| == |node.items| - i
    decreases fuel, node, 0, |node.items| - i
  {
    if i == |node.items| then Ok([])
    else
      var head :- Resolve(node.items[i], root, fuel);
      var tail :- ResolveItems(node, i + 1, root, fuel);
      Ok([head] + tail)
  }

  /** The dictionary loop: resolves the values of `entries[i..]` in order;
      meeting "$ref" here means the object has other keys too. */
  function ResolveEntries(node: Json, i: nat, root: Json, fuel: nat)
    : (r: Result<seq<(string, Json)>, RefError>)
    requires node.JObj? && i <= |node.entries|
    ensures r.Ok? ==> Keys(r.value) == Keys(node.entries[i..])
    ensures "$ref" in Keys(node.entries[i..]) ==> r.Err?
    decreases fuel, node, 0, |node.entries| - i
  {
    var entries := node.entries;
    if i == |entries| then Ok([])
    else
      assert Keys(entries[i..]) == [entries[i].0] + Keys(entries[i + 1..]);
      if entries[i].0 == "$ref" then Err(SchemaError)
      else
        var value :- Resolve(entries[i].1, root, fuel);
        var tail :- ResolveEntries(node, i + 1, root, fuel);
        assert Keys([(entries[i].0, value)] + tail) == [entries[i].0] + Keys(tail);
        Ok([(entries[i].0, value)] + tail)
  }

  /** The document whose pointers are followed: the one passed in, unless
      it is missing or falsy, in which case the input itself. */
  function RootOf(json: Json, schema: Option<Json>): (root: Json)
    ensures schema.None? || Falsy(schema.value) ==> root == json
    ensures schema.Some? && !Falsy(schema.value) ==> root == schema.value
  {
    if schema.None? || Falsy(schema.value) then json else schema.value
  }

  /** `resolve_ref(json, schema)` at the top level. */
  function ResolveRef(json: Json, schema: Option<Json>, fuel: nat): Result<Json, RefError> {
    Resolve(json, RootOf(json, schema), fuel)
  }

  // ----- structural lemmas -----

  /** A list resolves iff each element does, and then element by element. */
  lemma ResolveItemsElementwise(node: Json, i: nat, root: Json, fuel: nat)
    requires node.JArr? && i <= |node.items|
    ensures var r := ResolveItems(node, i, root, fuel);
            (r.Ok? <==> forall k :: i <= k < |node.items| ==> Resolve(node.items[k], root, fuel).Ok?)
            && (r.Ok? ==>
                  forall k :: i <= k < |node.items| ==> r.value[k - i] == Resolve(node.items[k], root, fuel).value)
  {
    if ResolveItems(node, i, root, fuel).Ok? {
      ResolveItemsOk(node, i, root, fuel);
    }
    if forall k :: i <= k < |node.items| ==> Resolve(node.items[k], root, fuel).Ok? {
      ResolveItemsAllOk(node, i, root, fuel);
    }
  }

  /** A successful list loop holds each item's resolution at its place. */
  lemma {:induction false} ResolveItemsOk(node: Json, i: nat, root: Json, fuel: nat)
    requires node.JArr? && i <= |node.items| && ResolveItems(node, i, root, fuel).Ok?
    ensures forall k :: i <= k < |node.items| ==>
              Resolve(node.items[k], root, fuel).Ok?
              && ResolveItems(node, i, root, fuel).value[k - i] == Resolve(node.items[k], root, fuel).value
    decreases |node.items| - i
  {
    if i < |node.items| {
      var head, tail := Resolve(node.items[i], root, fuel), ResolveItems(node, i + 1, root, fuel);
      var v := ResolveItems(node, i, root, fuel).value;
      assert head.Ok? && tail.Ok? && v == [head.value] + tail.value;
      ResolveItemsOk(node, i + 1, root, fuel);
      forall k | i <= k < |node.items|
        ensures Resolve(node.items[k], root, fuel).Ok? && v[k - i] == Resolve(node.items[k], root, fuel).value
      {
        if k > i {
          assert v[k - i] == tail.value[k - (i + 1)];
        }
      }
    }
  }

  /** The list loop succeeds once every item resolves. */
  lemma {:induction false} ResolveItemsAllOk(node: Json, i: nat, root: Json, fuel: nat)
    requires node.JArr? && i <= |node.items|
    requires forall k :: i <= k < |node.items| ==> Resolve(node.items[k], root, fuel).Ok?
    ensures ResolveItems(node, i, root, fuel).Ok?
    decreases |node.items| - i
  {
    if i < |node.items| {
      ResolveItemsAllOk(node, i + 1, root, fuel);
    }
  }

  lemma ResolveArray(items: seq<Json>, root: Json, fuel: nat)
    ensures var r := Resolve(JArr(items), root, fuel);
            (r.Ok? <==> forall k :: 0 <= k < |items| ==> Resolve(items[k], root, fuel).Ok?)
            && (r.Ok? ==>
                  && |r.value.items| == |items|
                  && forall k :: 0 <= k < |items| ==> r.value.items[k] == Resolve(items[k], root, fuel).value)
  {
    ResolveItemsElementwise(JArr(items), 0, root, fuel);
  }

  /** An object that is not a reference resolves iff it has no "$ref" key
      and each value resolves; then it keeps its keys, in order, with each
      value resolved. */
  lemma ResolveEntriesEntrywise(node: Json, i: nat, root: Json, fuel: nat)
    requires node.JObj? && i <= |node.entries|
    ensures var r := ResolveEntries(node, i, root, fuel);
            var es := node.entries;
            (r.Ok? <==> "$ref" !in Keys(es[i..])
                         && forall k :: i <= k < |es| ==> Resolve(es[k].1, root, fuel).Ok?)
            && (r.Ok? ==>
                  forall k :: i <= k < |es| ==> r.value[k - i] == (es[k].0, Resolve(es[k].1, root, fuel).value))
  {
    var es := node.entries;
    if ResolveEntries(node, i, root, fuel).Ok? {
      ResolveEntriesOk(node, i, root, fuel);
    }
    if "$ref" !in Keys(es[i..]) && forall k :: i <= k < |es| ==> Resolve(es[k].1, root, fuel).Ok? {
      ResolveEntriesAllOk(node, i, root, fuel);
    }
  }

  /** A successful dictionary loop holds each key with its value's
      resolution at its place. */
  lemma {:induction false} ResolveEntriesOk(node: Json, i: nat, root: Json, fuel: nat)
    requires node.JObj? && i <= |node.entries| && ResolveEntries(node, i, root, fuel).Ok?
    ensures forall k :: i <= k < |node.entries| ==>
              Resolve(node.entries[k].1, root, fuel).Ok?
              && ResolveEntries(node, i, root, fuel).value[k - i]
                 == (node.entries[k].0, Resolve(node.entries[k].1, root, fuel).value)
    decreases |node.entries| - i
  {
    var es := node.entries;
    if i < |es| {
      assert Keys(es[i..]) == [es[i].0] + Keys(es[i + 1..]);
      var tail := ResolveEntries(node, i + 1, root, fuel);
      assert tail.Ok?;
      ResolveEntriesOk(node, i + 1, root, fuel);
      assert ResolveEntries(node, i, root, fuel).value == [(es[i].0, Resolve(es[i].1, root, fuel).value)] + tail.value;
    }
  }

  /** The dictionary loop succeeds once there is no "$ref" key and every
      value resolves. */
  lemma {:induction false} ResolveEntriesAllOk(node: Json, i: nat, root: Json, fuel: nat)
    requires node.JObj? && i <= |node.entries| && "$ref" !in Keys(node.entries[i..])
    requires forall k :: i <= k < |node.entries| ==> Resolve(node.entries[k].1, root, fuel).Ok?
    ensures ResolveEntries(node, i, root, fuel).Ok?
    decreases |node.entries| - i
  {
    var es := node.entries;
    if i < |es| {
      assert Keys(es[i..]) == [es[i].0] + Keys(es[i + 1..]);
      ResolveEntriesAllOk(node, i + 1, root, fuel);
    }
  }

  lemma ResolveObject(entries: seq<(string, Json)>, root: Json, fuel: nat)
    requires !IsRefObject(JObj(entries))
    ensures var r := Resolve(JObj(entries), root, fuel);
            (r.Ok? <==> "$ref" !in Keys(entries)
                         && forall k :: 0 <= k < |entries| ==> Resolve(entries[k].1, root, fuel).Ok?)
            && (r.Ok? ==>
                  && |r.value.entries| == |entries|
                  && forall k :: 0 <= k < |entries| ==>
                       r.value.entries[k] == (entries[k].0, Resolve(entries[k].1, root, fuel).value))
  {
    assert JObj(entries).entries[0..] == entries;
    ResolveEntriesEntrywise(JObj(entries), 0, root, fuel);
  }

  /** A reference object is replaced by the resolution of its target. */
  lemma ResolveFollowsReference(pointer: string, target: Json, root: Json, fuel: nat)
    requires ResolvePointer(root, pointer) == Ok(target)
    ensures Resolve(JObj([("$ref", JStr(pointer))]), root, fuel)
            == if fuel == 0 then Err(OutOfFuel) else Resolve(target, root, fuel - 1)
  {
  }

  // ----- fuel -----

  /** More fuel never changes an outcome that did not run out of fuel: the
      model's answer is the answer of the Python code whenever that code
      terminates. */
  lemma {:induction false} ResolveFuelMonotone(node: Json, root: Json, fuel: nat)
    requires Resolve(node, root, fuel) != Err(OutOfFuel)
    ensures Resolve(node, root, fuel + 1) == Resolve(node, root, fuel)
    decreases fuel, node, 2
  {
    match node
    case JArr(items) =>
      ResolveItemsFuelMonotone(node, 0, root, fuel);
    case JObj(entries) =>
      if IsRefObject(node) {
        ReferenceFuelMonotone(node, root, fuel);
      } else {
        ResolveEntriesFuelMonotone(node, 0, root, fuel);
      }
    case _ =>
  }

  lemma {:induction false} ReferenceFuelMonotone(node: Json, root: Json, fuel: nat)
    requires IsRefObject(node) && Resolve(node, root, fuel) != Err(OutOfFuel)
    ensures Resolve(node, root, fuel + 1) == Resolve(node, root, fuel)
    decreases fuel, node, 1
  {
    var ref := node.entries[0].1;
    if ref.JStr? {
      match ResolvePointer(root, ref.s)
      case Err(e) =>
      case Ok(target) =>
        assert fuel > 0;
        assert Resolve(node, root, fuel) == Resolve(target, root, fuel - 1);
        ResolveFuelMonotone(target, root, fuel - 1);
    }
  }

  lemma {:induction false} ResolveItemsFuelMonotone(node: Json, i: nat, root: Json, fuel: nat)
    requires node.JArr? && i <= |node.items|
    requires ResolveItems(node, i, root, fuel) != Err(OutOfFuel)
    ensures ResolveItems(node, i, root, fuel + 1) == ResolveItems(node, i, root, fuel)
    decreases fuel, node, 0, |node.items| - i
  {
    if i < |node.items| {
      var head := Resolve(node.items[i], root, fuel);
      if head != Err(OutOfFuel) {
        ResolveFuelMonotone(node.items[i], root, fuel);
        if head.Ok? {
          ResolveItemsFuelMonotone(node, i + 1, root, fuel);
        }
      }
    }
  }

  lemma {:induction false} ResolveEntriesFuelMonotone(node: Json, i: nat, root: Json, fuel: nat)
    requires node.JObj? && i <= |node.entries|
    requires ResolveEntries(node, i, root, fuel) != Err(OutOfFuel)
    ensures ResolveEntries(node, i, root, fuel + 1) == ResolveEntries(node, i, root, fuel)
    decreases fuel, node, 0, |node.entries| - i
  {
    var entries := node.entries;
    if i < |entries| && entries[i].0 != "$ref" {
      var value := Resolve(entries[i].1, root, fuel);
      if value != Err(OutOfFuel) {
        ResolveFuelMonotone(entries[i].1, root, fuel);
        if value.Ok? {
          ResolveEntriesFuelMonotone(node, i + 1, root, fuel);
        }
      }
    }
  }

  // ----- idempotence -----

  /** A reference-free document resolves to itself, whatever the root and
      the fuel. */
  lemma {:induction false} ResolveRefFree(node: Json, root: Json, fuel: nat)
    requires RefFree(node)
    ensures Resolve(node, root, fuel) == Ok(node)
    decreases node, 1
  {
    match node
    case JArr(items) =>
      ResolveItemsRefFree(node, 0, root, fuel);
      assert items[0..] == items;
    case JObj(entries) =>
      ResolveEntriesRefFree(node, 0, root, fuel);
      assert entries[0..] == entries;
    case _ =>
  }

  lemma {:induction false} ResolveItemsRefFree(node: Json, i: nat, root: Json, fuel: nat)
    requires node.JArr? && i <= |node.items| && RefFree(node)
    ensures ResolveItems(node, i, root, fuel) == Ok(node.items[i..])
    decreases node, 0, |node.items| - i
  {
    if i < |node.items| {
      ResolveRefFree(node.items[i], root, fuel);
      ResolveItemsRefFree(node, i + 1, root, fuel);
      assert node.items[i..] == [node.items[i]] + node.items[i + 1..];
    } else {
      assert node.items[i..] == [];
    }
  }

  lemma {:induction false} ResolveEntriesRefFree(node: Json, i: nat, root: Json, fuel: nat)
    requires node.JObj? && i <= |node.entries| && RefFree(node)
    ensures ResolveEntries(node, i, root, fuel) == Ok(node.entries[i..])
    decreases node, 0, |node.entries| - i
  {
    var entries := node.entries;
    if i < |entries| {
      assert Keys(entries)[i] == entries[i].0;
      ResolveRefFree(entries[i].1, root, fuel);
      ResolveEntriesRefFree(node, i + 1, root, fuel);
      assert entries[i..] == [(entries[i].0, entries[i].1)] + entries[i + 1..];
    }
  }

  /** Whatever resolves is reference-free: every reference was inlined. */
  lemma {:induction false} ResolvedRefFree(node: Json, root: Json, fuel: nat)
    requires Resolve(node, root, fuel).Ok?
    ensures RefFree(Resolve(node, root, fuel).value)
    decreases fuel, node, 1, 0
  {
    match node
    case JArr(items) =>
      ResolvedItemsRefFree(node, 0, root, fuel);
    case JObj(entries) =>
      if |entries| == 1 && entries[0].0 == "$ref" {
        match ResolvePointer(root, entries[0].1.s)
        case Err(e) =>
        case Ok(target) =>
          ResolvedRefFree(target, root, fuel - 1);
      } else {
        assert entries[0..] == entries;
        ResolvedEntriesRefFree(node, 0, root, fuel);
      }
    case _ =>
  }

  lemma {:induction false} ResolvedItemsRefFree(node: Json, i: nat, root: Json, fuel: nat)
    requires node.JArr? && i <= |node.items| && ResolveItems(node, i, root, fuel).Ok?
    ensures var v := ResolveItems(node, i, root, fuel).value;
            forall k :: 0 <= k < |v| ==> RefFree(v[k])
    decreases fuel, node, 0, |node.items| - i
  {
    if i < |node.items| {
      ResolvedRefFree(node.items[i], root, fuel);
      ResolvedItemsRefFree(node, i + 1, root, fuel);
      var v := ResolveItems(node, i, root, fuel).value;
      assert v == [Resolve(node.items[i], root, fuel).value] + ResolveItems(node, i + 1, root, fuel).value;
    }
  }

  lemma {:induction false} ResolvedEntriesRefFree(node: Json, i: nat, root: Json, fuel: nat)
    requires node.JObj? && i <= |node.entries| && ResolveEntries(node, i, root, fuel).Ok?
    ensures var v := ResolveEntries(node, i, root, fuel).value;
            forall k :: 0 <= k < |v| ==> RefFree(v[k].1)
    decreases fuel, node, 0, |node.entries| - i
  {
    var es := node.entries;
    if i < |es| {
      assert Keys(es[i..]) == [es[i].0] + Keys(es[i + 1..]);
      ResolvedRefFree(es[i].1, root, fuel);
      ResolvedEntriesRefFree(node, i + 1, root, fuel);
      var v := ResolveEntries(node, i, root, fuel).value;
      assert v == [(es[i].0, Resolve(es[i].1, root, fuel).value)] + ResolveEntries(node, i + 1, root, fuel).value;
    }
  }

  /** A second pass over a resolved document changes nothing. */
  lemma ResolveIdempotent(node: Json, root: Json, fuel: nat, root2: Json, fuel2: nat)
    requires Resolve(node, root, fuel).Ok?
    ensures var v := Resolve(node, root, fuel).value;
            Resolve(v, root2, fuel2) == Ok(v)
  {
    ResolvedRefFree(node, root, fuel);
    ResolveRefFree(Resolve(node, root, fuel).value, root2, fuel2);
  }

  // ----- worked examples -----

  /** {"a": {"$ref": "/b"}, "b": {"type": "string"}} */
  function ExampleSchema(): Json {
    JObj([("a", JObj([("$ref", JStr("/b"))])),
          ("b", JObj([("type", JStr("string"))]))])
  }

  /** The reference under "a" is replaced by the value under "b". */
  lemma ExampleReference()
    ensures Resolve(JObj([("$ref", JStr("/b"))]), ExampleSchema(), 1)
            == Ok(JObj([("type", JStr("string"))]))
  {
    var root := ExampleSchema();
    var target := JObj([("type", JStr("string"))]);
    SingleTokenPointer("b");
    assert "/" + "b" == "/b";
    assert Lookup(root.entries, "b") == Some(target);
    assert ResolvePointer(root, "/b") == Ok(target);
    ResolveRefFree(target, root, 0);
    ResolveFollowsReference("/b", target, root, 1);
  }

  /** An object with "$ref" and another key is a schema error. */
  lemma ExampleMixedReference(root: Json, fuel: nat)
    ensures Resolve(JObj([("$ref", JStr("/x")), ("extra", JNum(1))]), root, fuel) == Err(SchemaError)
  {
    var mixed := JObj([("$ref", JStr("/x")), ("extra", JNum(1))]);
    assert Keys(mixed.entries[0..])[0] == "$ref";
  }

  /** {"a": {"$ref": "/a"}}: a reference to itself. */
  function CyclicSchema(): Json {
    JObj([("a", JObj([("$ref", JStr("/a"))]))])
  }

  /** A self-reference runs out of every amount of fuel: `resolve_ref`
      does not terminate on it. */
  lemma {:induction false} CyclicReferenceDiverges(fuel: nat)
    ensures Resolve(JObj([("$ref", JStr("/a"))]), CyclicSchema(), fuel) == Err(OutOfFuel)
  {
    var root := CyclicSchema();
    var node := JObj([("$ref", JStr("/a"))]);
    if fuel > 0 {
      SingleTokenPointer("a");
      assert "/" + "a" == "/a";
      assert Lookup(root.entries, "a") == Some(node);
      assert ResolvePointer(root, "/a") == Ok(node);
      CyclicReferenceDiverges(fuel - 1);
    }
  }

  // ----- validate / isvalid -----

  datatype Draft = Draft3 | Draft4

  const Draft4Uri: string := "http://json-schema.org/draft-04/schema"
  const Draft3Uri: string := "http://json-schema.org/draft-03/schema"

  datatype ValidateError =
    | NoSchemaKey                    // the schema document has no "$schema"
    | UnsupportedSchemaVersion(uri: Json)
    | UnresolvableSchema(refError: RefError)
    | NoNotebookSchema(pointerError: PointerError)

  /** `_schema_json['$schema']` and the draft it selects. */
  function SelectDraft(schemaJson: Json): (r: Result<Draft, ValidateError>)
    ensures r == Ok(Draft4) <==> schemaJson.JObj? && Lookup(schemaJson.entries, "$schema") == Some(JStr(Draft4Uri))
    ensures r == Ok(Draft3) <==> schemaJson.JObj? && Lookup(schemaJson.entries, "$schema") == Some(JStr(Draft3Uri))
    ensures r.Err? && r.error.UnsupportedSchemaVersion?
            <==> schemaJson.JObj? && Lookup(schemaJson.entries, "$schema").Some?
                 && Lookup(schemaJson.entries, "$schema").value !in {JStr(Draft4Uri), JStr(Draft3Uri)}
  {
    if !schemaJson.JObj? then Err(NoSchemaKey)
    else
      match Lookup(schemaJson.entries, "$schema")
      case None => Err(NoSchemaKey)
      case Some(uri) =>
        if uri == JStr(Draft4Uri) then Ok(Draft4)
        else if uri == JStr(Draft3Uri) then Ok(Draft3)
        else Err(UnsupportedSchemaVersion(uri))
  }

  /** The resolved schema's "/notebook" member, the schema notebooks are
      checked against. */
  function NotebookSchema(schemaJson: Json, fuel: nat): Result<Json, ValidateError> {
    match ResolveRef(schemaJson, None, fuel)
    case Err(e) => Err(UnresolvableSchema(e))
    case Ok(schema) =>
      match ResolvePointer(schema, "/notebook")
      case Err(e) => Err(NoNotebookSchema(e))
      case Ok(sub) => Ok(sub)
  }

  /** `validate(nbjson)` against the loaded schema document; `engine`
      stands for the jsonschema validator class's `iter_errors`. The draft
      is chosen before any reference is resolved. */
  function Validate<E>(schemaJson: Json, nbjson: Json, engine: (Draft, Json, Json) -> seq<E>, fuel: nat)
    : (r: Result<seq<E>, ValidateError>)
    ensures SelectDraft(schemaJson).Err? ==> r == Err(SelectDraft(schemaJson).error)
    ensures r.Ok? <==> SelectDraft(schemaJson).Ok? && NotebookSchema(schemaJson, fuel).Ok?
    ensures r.Ok? ==> r.value == engine(SelectDraft(schemaJson).value, NotebookSchema(schemaJson, fuel).value, nbjson)
  {
    var draft :- SelectDraft(schemaJson);
    var schema :- NotebookSchema(schemaJson, fuel);
    Ok(engine(draft, schema, nbjson))
  }

  /** `isvalid(nbjson)`: true exactly when `validate` reports no error; an
      exception from `validate` propagates. */
  function IsValid<E>(schemaJson: Json, nbjson: Json, engine: (Draft, Json, Json) -> seq<E>, fuel: nat)
    : (r: Result<bool, ValidateError>)
    ensures var v := Validate(schemaJson, nbjson, engine, fuel);
            (r.Ok? <==> v.Ok?) && (r.Err? ==> r.error == v.error)
            && (r.Ok? ==> (r.value <==> v.value == []))
  {
    match Validate(schemaJson, nbjson, engine, fuel)
    case Err(e) => Err(e)
    case Ok(errors) => Ok(errors == [])
  }

  /** The draft-04 URI selects the draft 4 engine, the draft-03 URI the
      draft 3 engine, and any other URI fails before the engine runs. */
  lemma ValidateDispatch<E>(entries: seq<(string, Json)>, nbjson: Json, engine: (Draft, Json, Json) -> seq<E>, fuel: nat, uri: Json)
    requires Lookup(entries, "$schema") == Some(uri)
    requires NotebookSchema(JObj(entries), fuel).Ok?
    ensures var sub := NotebookSchema(JObj(entries), fuel).value;
            var r := Validate(JObj(entries), nbjson, engine, fuel);
            (uri == JStr(Draft4Uri) ==> r == Ok(engine(Draft4, sub, nbjson)))
            && (uri == JStr(Draft3Uri) ==> r == Ok(engine(Draft3, sub, nbjson)))
            && (uri != JStr(Draft4Uri) && uri != JStr(Draft3Uri) ==> r == Err(UnsupportedSchemaVersion(uri)))
  {
  }
}
